=== FILE: README.md ===
# opensearch-feature-explorer, modelled in Dafny

This project models the parts of opensearch-feature-explorer that contain its
logic. It has eight modules, one per source concern, plus a shared `Text`
module (Python's whitespace set, `strip`, `split`/`join`, digits, filtering
and sorting), in nine files:

- `ReleaseNotes` (release_notes.dfy) models `parse_release_notes` and the
  category tally of `fetch_release_notes` in `run.py`. Release-note markdown
  becomes items with a category, a repository and a PR number, and the items
  are counted per category.
- `GroupRelease` (group_release.dfy) models the batch loop of
  `run_group_release`. It hands the item list, slice by slice, to an external
  classifier (the "oracle") and resumes from the offset persisted in
  `groups.json`.
- `JobRunner` (job_runner.dfy) models `run_batch`, `get_open_issues`' limit
  argument and the investigate prompt. The agent is called once per listed
  issue, in order, and the successes are counted.
- `RefactorReferences` (refactor_references.dfy) models
  `scripts/refactor_references.py`. It splits a report into `## ` sections,
  classifies the reference lines, rebuilds the References section and
  re-emits the report in the house order.
- `DomainTags` (domain_tags.dfy) models `scripts/add_domain_tags.py`. It
  parses YAML-ish front matter into an insertion-ordered dictionary, rewrites
  the `tags` entry and prints the front matter back.
- `IssueColumn` (issue_column.dfy) models
  `scripts/add_related_issue_column.py`. It extracts the issue a pull request
  closes, then adds a "Related Issue" column to every PR table of a markdown
  file.
- `McpServer` (mcp_server.dfy) models `mcp_server.py`: search paging and
  result formatting, JSON-RPC dispatch in `handle_request`, and the stdio
  loop.
- `GenPages` (gen_pages.dfy) models `scripts/gen_pages.py`, the MkDocs
  navigation file that groups feature directories by domain.

External effects become parameters:

- The GitHub CLI, the agent runner and the search API are functions passed
  in (`fetch`, `oracle`, `list`, `run`, `issueOf`).
- File contents are strings or line sequences.
- The persisted `groups.json` state is an `Option<Checkpoint>`.
- A loop that can run forever (`while True` in `run_group_release`) takes a
  `fuel` bound. The result says when the fuel ran out.

Behaviour of the code worth knowing:

- `run_group_release` has no stall check. If the classifier reports success
  without advancing `processed_offset`, the drain loop never ends.
  `GroupRelease.StalledOracleSpins` proves this.
- In `process_file` of `add_domain_tags.py`, the `releases` branch never
  yields a directory name. It is reached only when no part is `features`,
  and then `parts.index('features', …)` raises. `DomainTags.DirName` models
  the `releases` branch too, and `DomainTags.DirNameFeatures` shows that it
  never yields a name.
- In `add_related_issue_column.py`, issue number 0 counts as no issue
  (`if issue_num:`).
- A PR table header without any data row still gets its header rewritten,
  but the file is written only when some data row was rewritten
  (`IssueColumn.ProcessModified`).
- Re-running the issue-column script is a no-op when no rewritten
  separator or row line itself reads as a PR table header
  (`IssueColumn.ProcessAgain`).
- Re-tagging a file is idempotent when the re-tagged front matter prints
  back to itself and the body does not start with a line break
  (`DomainTags.TagFileStable`).

## Model

| member | source | states |
|---|---|---|
| ReleaseNotes.FirstCategoryKey | run.py:78-86 | The category of a header is that of the first key of the category table, in table order, contained in it; no category when none is contained. |
| ReleaseNotes.WordRun | run.py:112 | `\w+` covers exactly the maximal run of word characters at the front. |
| ReleaseNotes.HeaderComponent | run.py:110-116 | The component is group 1 of the leftmost `opensearch[- ](\w+)` match: absent exactly when no position matches, otherwise the whole run of word characters after the leftmost match's `opensearch-` or `opensearch `. |
| ReleaseNotes.HeaderStep | run.py:102-116 | A header sets the category from the first contained key, and keeps the old one otherwise. When the header contains `opensearch`, a category is set and the component pattern matches, the component becomes the matched word, with `core` and `build` clearing it; otherwise the component is kept. |
| ReleaseNotes.HeaderStepIdempotent | run.py:102-116 | Reading the same header line twice leaves the scan state as reading it once. |
| ReleaseNotes.FirstHashNumber | run.py:121 | The leftmost position where `#\d+` matches, or none when nothing matches. |
| ReleaseNotes.FirstBracketNumber | run.py:121 | The leftmost position where `\[#?(\d+)\]` matches, or none when nothing matches. |
| ReleaseNotes.PrNumberFound | run.py:121-123 | A list line has no PR number exactly when neither `#\d+` nor `\[#?\d+\]` matches anywhere. |
| ReleaseNotes.PrNumberHash | run.py:121-125 | When `#\d+` matches, the PR number is the value of the leftmost such match, whatever the bracket form says. |
| ReleaseNotes.PrNumberBracket | run.py:121-125 | When only the bracket form matches, the PR number is the value of its leftmost match. |
| ReleaseNotes.CollapseSpaces | run.py:133 | `re.sub(r"\s+", " ", …)`: every whitespace character left is a space, no two whitespace characters are adjacent, emptiness and a leading blank are preserved, and the non-blank characters are kept, in order. |
| ReleaseNotes.TrimSingleSpaced | run.py:133 | Stripping a collapsed string keeps it single-spaced. |
| ReleaseNotes.DisplayName | run.py:129-133 | The cleaned item name has no blank at either end and no two adjacent blanks. |
| ReleaseNotes.DisplayNameNoReference | run.py:130-133 | No `#` in a cleaned name is directly followed by a digit: every `#N` reference is gone, and collapsing and stripping create none. |
| ReleaseNotes.DisplayNamePlain | run.py:129-133 | A line with no `[` and no `#` holds no link or reference, so its name keeps exactly the non-blank characters after the list marker, in order. |
| ReleaseNotes.LinkReduced | run.py:129 | A `[text](url)` link, with non-empty text and URL, is replaced by its text. |
| ReleaseNotes.KeywordIndexAt | run.py:143 | Which plugin keyword of the alternation, tried in order, matches at a position between word boundaries. |
| ReleaseNotes.PluginPosition | run.py:143 | The leftmost position where some plugin keyword matches, or none. |
| ReleaseNotes.PluginMatch | run.py:143 | The plugin is a keyword of the list, taken from the leftmost match; no plugin exactly when no keyword matches anywhere. |
| ReleaseNotes.DefaultRepository | run.py:89-95 | `opensearch` and `opensearch-build` (any case) default to `opensearch`; every other repository to its lower-cased name. |
| ReleaseNotes.ResolveRepository | run.py:139-145 | A plugin named in the line wins, with `knn` spelled `k-nn`; else the header's component when set; else the default repository. |
| ReleaseNotes.MakeItem | run.py:147-153 | The name has length min(200, n) and the description min(300, n) for a cleaned name of length n; the description is a prefix of the cleaned name and starts with the name; category, repository and PR are as given. |
| ReleaseNotes.ListItem | run.py:119-153 | A list line yields an item exactly when it has a PR number and a cleaned name of at least 5 characters; the item carries that number, the given category, the resolved repository, a name of length min(200, n) and a description of length min(300, n) that is a prefix of the cleaned name. |
| ReleaseNotes.Step | run.py:98-153 | One line of the scan: a header line moves the category and component on and yields nothing; any other line keeps the state and yields exactly the item it has under that state (a list line under a set category); that item is well formed and has the current category. |
| ReleaseNotes.ParseLinesWellFormed | run.py:97-155 | Every item the scan of a line list produces is well formed. |
| ReleaseNotes.ParseReleaseNotes | run.py:71-155 | Every parsed item is well formed: name length between 5 and 200, and a description of at most 300 characters that starts with the name. |
| ReleaseNotes.HeaderNotList | run.py:98-121 | A header line is never a list line, so a line cannot both move the state and yield an item. |
| ReleaseNotes.ParseLinesEmits | run.py:97-155 | The scan returns, in line order, exactly the items the lines yield under the state the header lines before each of them leave. |
| ReleaseNotes.ParseReleaseNotesEmits | run.py:71-155 | `parse_release_notes` returns, in line order, the item of every list line that yields one under the category and component set by the headers above it. |
| ReleaseNotes.LinesBeforeHeaderIgnored | run.py:102-119 | Lines before the first header that names a category contribute no item; headers without a category before it leave the state unset. |
| ReleaseNotes.NoHeaderNoItems | run.py:102-119 | A document without any header line yields no items. |
| ReleaseNotes.CountFromCounts | run.py:56-60 | Counting items into a summary adds one to exactly the item's category, and leaves the total alone. |
| ReleaseNotes.TallyCounts | run.py:55-60 | The summary's total is the number of items, each category count is the number of items in that category, and the category counts sum to the total. |
| ReleaseNotes.CollectFrom | run.py:41-53 | Fetching the sources in order records no more paths than there are sources, and every collected item is well formed. When every document is available, one `repo/path` is recorded per source, in source order; when none is, nothing is collected. |
| ReleaseNotes.Contribution | run.py:41-53 | An available source contributes its `repo/path` and the items parsed from its document; an unavailable one contributes nothing. |
| ReleaseNotes.CollectOne | run.py:41-53 | Collecting from a single source gives exactly that source's path and parsed items, or nothing when its document is unavailable. |
| ReleaseNotes.CollectConcat | run.py:41-53 | Collecting from two runs of sources gives the first run's paths and items followed by the second's, so every document's items appear in source order. |
| ReleaseNotes.FetchReleaseNotes | run.py:30-68 | The version is echoed; the paths and items are those collected from the three sources, in order; the total is the number of items, each category count is the number of items of that category, and every item is well formed. |
| GroupRelease.Load | run.py:198-207 | Without persisted state, the fresh state has the raw data's version and sources, no groups and offset 0; otherwise the persisted state is used as is. |
| GroupRelease.Iteration | run.py:196-239 | One iteration: it stops with code 0 exactly when the persisted offset has reached the total. Otherwise it calls the classifier once on `items[offset:offset+batch]` from the persisted state, and either continues after a success or ends with the classifier's code; a single-step run reports what remains. |
| GroupRelease.Loop | run.py:196-239 | The loop makes its first call from the loaded state, makes none when everything is processed, and makes at most one call when not draining. |
| GroupRelease.LoopCallsSliced | run.py:209-216 | Every batch handed out is the slice of the item list at the offset persisted before the call, with that offset and the total. |
| GroupRelease.LoopChained | run.py:196-230 | Every call but the last reported success, and the next call starts from the state the previous one wrote. |
| GroupRelease.LoopExit | run.py:211-239 | A run that called the classifier exits with the last call's code and state. After a success it has every item processed when draining, or reports the remaining count in single-step mode. |
| GroupRelease.RunGroupRelease | run.py:180-239 | Missing parsed items give exit code 1 with nothing called; otherwise the loop runs. |
| GroupRelease.AdvancingOracleFinishes | run.py:196-230 | If every successful call on an unfinished state moves the offset forward, draining finishes within one iteration per unprocessed item plus one. |
| GroupRelease.StalledOracleSpins | run.py:196-230 | A classifier that reports success but leaves the state unchanged makes the drain loop call it forever: every fuel bound is used up. |
| GroupRelease.EachItem | run.py:216 | Item-by-item classification yields one group per item, in order. |
| GroupRelease.HonestSingleStep | run.py:216-239 | With a classifier that appends the batch's groups and advances the offset, one step from offset k classifies exactly `items[k..min(k+size,total))` and reports `total - min(k+size,total)` remaining. |
| GroupRelease.InvariantDrain | run.py:196-213 | Draining under a classifier that keeps an invariant and advances ends with code 0 and a finished state that satisfies the invariant. |
| GroupRelease.HonestDrain | run.py:196-230 | Draining with a positive batch size appends the groups of exactly the unprocessed items, once each and in order, and leaves the offset at the total. |
| GroupRelease.ZeroBatchSizeSpins | run.py:216 | A batch size of 0 hands out empty batches, so even an honest classifier never advances and the drain never ends. |
| GroupRelease.ResumeScenario | run.py:209-239 | 120 items, 100 done, batch 50, one step: items 100..119 are classified, offset 120 is persisted and nothing remains. |
| JobRunner.Labels | run.py:341-343 | The label filter is `status/todo`, plus `release/v<version>` exactly when a version is given. |
| JobRunner.LimitArg | run.py:327 | The listing limit is the count when one is given and non-zero, and 1000 otherwise. |
| JobRunner.PromptShape | run.py:337-361 | The prompt is `Investigate GitHub Issue #<n>.`, then the PR-mode instruction, then the language instruction (empty without a language); the digits after `#` read back as the issue number. |
| JobRunner.SuccessesCount | run.py:369 | The success count is the number of results whose status is success. |
| JobRunner.SuccessesBound | run.py:369-370 | There are never more successes than results. |
| JobRunner.RunAll | run.py:352-363 | The agent is called once per issue, in order, with that issue's prompt, whatever the earlier exit codes were; each result records its number, title, and success exactly when that call's exit code is 0. |
| JobRunner.RunBatch | run.py:335-372 | An empty listing calls the agent for nothing and reports the labels used. Otherwise the agent is called once per listed issue, in order, with the issue's prompt; there is one result per issue, and the reported count is the number of successes. |
| RefactorReferences.ParseSections | scripts/refactor_references.py:15-33 | No section body holds a `## ` header line. |
| RefactorReferences.ScanLinesClean | scripts/refactor_references.py:21-31 | Scanning lines keeps every recorded and open section free of header lines. |
| RefactorReferences.NoHeadersAllPreamble | scripts/refactor_references.py:18-31 | A report without a `## ` line is a single `preamble` section holding all of it. |
| RefactorReferences.PreambleBeforeFirstHeader | scripts/refactor_references.py:21-26 | The lines before the first header become the `preamble` section when that header opens the next section. |
| RefactorReferences.EmptySectionDropped | scripts/refactor_references.py:23-24 | A header directly followed by another header records nothing for the first. |
| RefactorReferences.LastBlockWins | scripts/refactor_references.py:21-31 | The section opened by a header followed by a non-empty block of plain lines holds that block, joined back, when every later section has another name; an earlier section of the same name is overwritten. |
| RefactorReferences.ExtractPartsBuckets | scripts/refactor_references.py:36-57 | Each bucket holds exactly the kept reference lines that the first matching search (issue, blog, documentation, else other) sends there, stripped and in their original order. |
| RefactorReferences.ExtractPartsPartition | scripts/refactor_references.py:36-57 | The four buckets together hold every kept line exactly once. |
| RefactorReferences.KeptItems | scripts/refactor_references.py:40-43 | Every kept reference line is stripped, non-empty, on one line, and does not start with `#`. |
| RefactorReferences.FormatPrTableLines | scripts/refactor_references.py:60-65 | The table is empty exactly when no line qualifies, and otherwise splits back into the qualifying lines. |
| RefactorReferences.TableLinesStart | scripts/refactor_references.py:64 | Every table line starts with `\|` or `-`. |
| RefactorReferences.BuildReferencesHeadings | scripts/refactor_references.py:68-107 | The rebuilt References body carries, in order, the Documentation, Blog Posts, Pull Requests and Issues headings, each exactly when that subsection has content. |
| RefactorReferences.ReferencesSolidEnd | scripts/refactor_references.py:107 | The rebuilt References body is empty or ends in a character that is not whitespace. |
| RefactorReferences.BuildReferencesEmpty | scripts/refactor_references.py:80-107 | Without reference lines or table lines, the References body is empty. |
| RefactorReferences.ReferencesBodyUnmarked | scripts/refactor_references.py:68-107 | The rebuilt References body holds no `## ` line. |
| RefactorReferences.Title | scripts/refactor_references.py:127-130 | A title exists exactly when the report opens with `# ` and one more character on that line; it is the whole first line. |
| RefactorReferences.NewContent | scripts/refactor_references.py:162 | The rebuilt report ends in exactly one line break. |
| RefactorReferences.NewContentHeadings | scripts/refactor_references.py:124-162 | The `## ` lines of the rebuilt report are exactly Summary, Details, Limitations, Change History, References and Related Feature Report, in that order, each when the report had it; References appears when it or Related PRs did. |
| RefactorReferences.RelatedPrsDropped | scripts/refactor_references.py:116-154 | The old `Related PRs` section never survives as a heading of the rebuilt report. |
| RefactorReferences.RefactorFile | scripts/refactor_references.py:110-168 | A report with neither Related PRs nor Change History is left alone. Otherwise the file is written, with message `Refactored`, exactly when the rebuilt text differs from the old one, and then with the rebuilt text; no write means `No changes needed`. |
| DomainTags.GetDomain | scripts/add_domain_tags.py:7-84 | A directory the domain table lists maps to its domain; any other maps to `core`. |
| DomainTags.GetDomainRange | scripts/add_domain_tags.py:7-84 | Every directory maps to one of the eight domains. |
| DomainTags.IsDashboardsContains | scripts/add_domain_tags.py:70-79 | A directory is a dashboards component exactly when its name contains `dashboards`. |
| DomainTags.Lookup | scripts/add_domain_tags.py:167 | `fm.get(k)` finds a value exactly when the key is present, and the value is that key's entry. |
| DomainTags.PutKeys | scripts/add_domain_tags.py:177 | Assignment stores the value; an existing key keeps its place and a new key goes last. |
| DomainTags.PutOther | scripts/add_domain_tags.py:177 | Assignment leaves every other key's value alone. |
| DomainTags.PutSame | scripts/add_domain_tags.py:177 | Assigning a key the value it already has changes nothing. |
| DomainTags.ReadFrontMatter | scripts/add_domain_tags.py:100-118 | The dictionary read from the fenced text has distinct keys. |
| DomainTags.ParseFrontMatter | scripts/add_domain_tags.py:87-120 | Without front matter the body is the whole text; with it, the keys are distinct and the body does not start with a line break. |
| DomainTags.ParseFrontMatterFound | scripts/add_domain_tags.py:89-94 | Front matter is found exactly when the text opens with `---` and has another `---` after it; the body is then a suffix of the text. |
| DomainTags.BuildLines | scripts/add_domain_tags.py:123-134 | Printable front matter prints as a `---` line, each entry's lines in key order (a scalar as `key: value`, a list as `key:` and `  - item` lines), and a `---` line. |
| DomainTags.RoundTrip | scripts/add_domain_tags.py:87-134 | Parsing printed front matter followed by a line break and a body gives back the same dictionary, and the body without its leading line breaks. |
| DomainTags.ReadEntries | scripts/add_domain_tags.py:104-118 | The printed lines of entries with fresh, distinct keys are read back as those entries, appended. |
| DomainTags.NewTags | scripts/add_domain_tags.py:167-175 | The new tags are the domain tag, the component tag, then exactly the old tags that are neither domain nor component tags, in their old order. |
| DomainTags.NewTagsCount | scripts/add_domain_tags.py:172 | Each retained old tag is kept as often as it occurred, in the filtered tail; domain and component tags are dropped. |
| DomainTags.Retag | scripts/add_domain_tags.py:164-177 | After the rewrite, `tags` holds the new list; it keeps its place when present and goes last when not. |
| DomainTags.RetagOthers | scripts/add_domain_tags.py:177 | The rewrite touches no entry but `tags`. |
| DomainTags.RetagIdempotent | scripts/add_domain_tags.py:164-177 | Rewriting the tags of rewritten front matter changes nothing. |
| DomainTags.IndexFrom | scripts/add_domain_tags.py:143-146 | `parts.index(x, from)`: the first index from `from` on that holds `x`, and none where Python raises. |
| DomainTags.DirNameFeatures | scripts/add_domain_tags.py:140-151 | A directory name exists exactly when some `features` part is followed by another part, and it is the part after the first `features`. |
| DomainTags.TagFile | scripts/add_domain_tags.py:137-185 | A path without a directory name is skipped; a file with a directory name is rewritten exactly when its re-tagged text differs from it, and then with that text. |
| DomainTags.TagFileAddsFrontMatter | scripts/add_domain_tags.py:179-184 | A file under a feature directory that has no front matter is always rewritten, with the front matter added. |
| DomainTags.TagFileStable | scripts/add_domain_tags.py:137-185 | Running the tagger on its own output writes nothing, when the re-tagged front matter is printable and the body does not start with a line break. |
| IssueColumn.RelatedIssue | scripts/add_related_issue_column.py:34-41 | A pull request that was not merged has no related issue. |
| IssueColumn.RelatedIssueLeftmost | scripts/add_related_issue_column.py:13-41 | The issue is the number of the leftmost `keyword #N` match whenever there is one, and of the leftmost issue-URL match only when there is none. |
| IssueColumn.RelatedIssueFound | scripts/add_related_issue_column.py:34-41 | A merged pull request yields an issue exactly when one of the two patterns matches somewhere in its body. |
| IssueColumn.RelatedIssueReadsBack | scripts/add_related_issue_column.py:13-41 | A merged body that opens with `keyword #N`, N not followed by a digit, closes issue N. |
| IssueColumn.RelatedIssueReadsBackUrl | scripts/add_related_issue_column.py:13-41 | A merged body without `#` that opens with `keyword https://github.com/owner/repo/issues/N`, N not followed by a digit, closes issue N. |
| IssueColumn.RelatedIssueIgnoresCase | scripts/add_related_issue_column.py:38 | The search ignores ASCII case: lower-casing the body changes nothing. |
| IssueColumn.PrIssue | scripts/add_related_issue_column.py:18-50 | A cached entry wins; an unmerged pull request or a failed fetch has no issue; a missing body reads as empty. |
| IssueColumn.PrLinkLeftmost | scripts/add_related_issue_column.py:84 | The extracted pull request comes from the leftmost position where the link pattern matches, and there is none exactly when no position matches. |
| IssueColumn.PrLinkRoundTrip | scripts/add_related_issue_column.py:84-88 | A printed `[text](https://github.com/o/r/pull/N)` link is read back as owner o, repository r and number N. |
| IssueColumn.PrLinkFirst | scripts/add_related_issue_column.py:84 | A link preceded by text without `[` is the one extracted. |
| IssueColumn.Next | scripts/add_related_issue_column.py:63-102 | The role of a line depends only on the role before it: a separator follows only a header, and a row is a data row that follows a table line. |
| IssueColumn.NextHeader | scripts/add_related_issue_column.py:63-102 | A line is a header exactly when it starts a table and is neither a separator after a header nor a data row after a table line. |
| IssueColumn.RolesAreMachine | scripts/add_related_issue_column.py:63-102 | The nested loops classify each line as the line-by-line state machine does. |
| IssueColumn.RolesShape | scripts/add_related_issue_column.py:63-102 | Every header line matches the header pattern, every separator directly follows a header, and every row follows a table line and looks like one. |
| IssueColumn.Process | scripts/add_related_issue_column.py:52-108 | One output line per input line; no more issues found than pull requests processed. |
| IssueColumn.ProcessKeeps | scripts/add_related_issue_column.py:67-102 | Lines outside tables are copied unchanged; a table line keeps its text up to its trailing blanks and gains a cell closed by `\|`. |
| IssueColumn.CellsAppended | scripts/add_related_issue_column.py:67-99 | A header gains ` Related Issue \|` and a separator `---------------\|`. A data row gains an issue link when it links a pull request whose issue is known and non-zero, and a blank cell otherwise; every table line first loses its trailing blanks. |
| IssueColumn.ProcessModified | scripts/add_related_issue_column.py:98-106 | The file is written exactly when some data row follows a header. |
| IssueColumn.AppendedCell | scripts/add_related_issue_column.py:69-96 | A rewritten table line starts with the original line without its trailing blanks and ends with `\|` and a line break. |
| IssueColumn.HeaderMarked | scripts/add_related_issue_column.py:67-69 | A rewritten header contains `Related Issue`, so it is not rewritten again. |
| IssueColumn.NoHeaderUntouched | scripts/add_related_issue_column.py:63-108 | A file without a PR table header is left exactly as it was, with nothing counted. |
| IssueColumn.ProcessAgain | scripts/add_related_issue_column.py:52-108 | Processing the output again changes nothing and writes nothing, provided no rewritten separator or row reads as a PR table header. |
| McpServer.Format | mcp_server.py:24-33 | A hit that can be formatted keeps its title and type; a `DOCS` URL gets the documentation site prefixed; the snippet is the first 300 characters of the content, empty when there is none. |
| McpServer.Window | mcp_server.py:21 | The page is `all[offset:offset+limit]`: it has `min(limit, total - offset)` hits, none past the end, in order. |
| McpServer.Fault | mcp_server.py:24-32 | Formatting a hit raises `KeyError` for a missing `url`, then `type`, then `title`, and `TypeError` for a `null` content; it raises nothing exactly when all three keys are present and the content is not `null`. |
| McpServer.FirstFault | mcp_server.py:24-32 | The hit whose formatting raises first: absent exactly when every hit can be formatted, otherwise a faulty hit with every earlier hit formattable. |
| McpServer.SearchPage | mcp_server.py:19-43 | The response echoes query, version, offset and limit; the total is the number of hits; `hasMore` holds exactly when `offset + limit < total`; each result is the formatted hit at its absolute position. |
| McpServer.Search | mcp_server.py:19-43 | The search fails exactly when a hit of the requested window cannot be formatted, with the message of the first such hit; otherwise it returns the page. |
| McpServer.SearchLooksOnlyAtWindow | mcp_server.py:21-32 | Hits outside the requested window never change the outcome of the search. |
| McpServer.HasMoreMeansNextPage | mcp_server.py:41 | `hasMore` holds exactly when the page at `offset + limit` is non-empty. |
| McpServer.BrowseSeesAll | mcp_server.py:19-42 | Following `hasMore` from an offset visits every formatted result from that offset on, exactly once and in order. |
| McpServer.CallSearch | mcp_server.py:86-109 | A missing query is the error `'query'`; a failed fetch, or a hit of the requested page that cannot be formatted, becomes `Error: <message>`; otherwise the result is the page for the arguments with defaults 3.0, docs,blogs, 10 and 0. |
| McpServer.HandleRequest | mcp_server.py:46-114 | Notifications get no answer; every other request is answered with its id. `initialize`, `tools/list` and the search call succeed; everything else is "Method not found" with code -32601. |
| McpServer.SearchNeverErrors | mcp_server.py:86-109 | A search call always answers with a result; it is a tool error exactly when the query is missing, the fetch raised, or a hit of the requested page cannot be formatted. |
| McpServer.ServeAnswers | mcp_server.py:117-129 | The stdio loop answers exactly the parsed requests that are not notifications, in input order, each with its own response. |
| GenPages.GetDomain | scripts/gen_pages.py:22-27 | A repository maps to the first domain, in table order, that lists it, and to `other` exactly when none does. |
| GenPages.AllDomainsListed | scripts/gen_pages.py:22-47 | Every domain a repository can map to is in the navigation order. |
| GenPages.NavOrderDistinct | scripts/gen_pages.py:47 | The navigation order names each domain once. |
| GenPages.PagesContent | scripts/gen_pages.py:46 | The navigation file opens with `nav:`. |
| GenPages.PagesLines | scripts/gen_pages.py:46-51 | The file's lines are `nav:`, one line per heading or entry, and a final empty line. |
| GenPages.NavListsEveryName | scripts/gen_pages.py:35-51 | Every feature directory is listed exactly once. |
| GenPages.NavHeadings | scripts/gen_pages.py:47-49 | The headings are the domains that have a directory, in the fixed navigation order. |
| GenPages.NavPlaced | scripts/gen_pages.py:38-51 | Each entry sits under its own domain's heading, and the entries under a heading are sorted. |
| Text.JoinSplit | scripts/refactor_references.py:21-24 | Joining the pieces of a split at a separator gives back the text. |
| Text.SplitJoin | scripts/refactor_references.py:21-24 | Splitting a join of pieces without the separator gives back the pieces. |
| Text.Sort | scripts/gen_pages.py:35-50 | The sorted list is ordered and a permutation of its input. |
| Text.FilterMultiset | scripts/refactor_references.py:64 | A filter keeps every element that passes as often as it occurred, and drops the others. |

## Left out

- Files, the `gh` CLI, subprocesses, caches, `json`, `base64`, `urllib`,
  `datetime` and printing. Their results are parameters of the model, or
  strings and line sequences it works on.
- `run.py` beyond the named operations: argument parsing, the other
  `build_prompt` modes, `run_kiro`, the release and feature investigation
  runners, and `main`.
- `docs/javascripts/ai-translate.js`: browser code, not part of this model.
- The outer loops of the scripts' `main` functions over directories
  (`rglob`, `glob`, `iterdir`) and their totals.
- Case folding and the regex classes `\d`, `\w` and `\s` beyond ASCII.
  Folding is ASCII-only; `\d` is ASCII digits; `\w` is ASCII letters,
  digits and `_`; `\s` is Python's whitespace set.
- GroupRelease.Loop: `while True` is bounded by a `fuel` parameter. An
  exhausted bound is reported as `OutOfFuel`, not as non-termination.
- GroupRelease.Loop: a negative batch size is not modelled; `size` is a
  natural. `--batch-size` is read with `type=int` (run.py:460), and a
  negative value makes the slice at run.py:215 count from the end of the
  list (offset 0 with batch -5 hands out all but the last five items).
- GroupRelease.Load: a `groups.json` that cannot be parsed, and a classifier
  that writes a malformed offset, are not modelled.
- McpServer.HandleRequest: requests that are not JSON objects, `null`
  arguments and non-integer `limit` or `offset` values are not modelled.
  A `tools/call` whose `params` is null or not an object raises
  `AttributeError` at mcp_server.py:87. The `try` in `main` catches only
  `JSONDecodeError` (mcp_server.py:128), so the server stops. The model's
  requests always carry an object of parameters. A `query` that is not a
  string (a JSON number, say) is not modelled either: `query` is a string.
  There `urllib.parse.quote` raises `TypeError` (mcp_server.py:13), and the
  `except Exception` at mcp_server.py:104-109 turns it into an `Error: …`
  tool error.
  A negative offset or limit is not modelled either: both are naturals.
- McpServer.CallSearch: the exception text of a failed fetch is a parameter.
  The JSON encoding of the page (`json.dumps(..., indent=2)`) is kept as the
  structured page.
- GroupRelease.Iteration: the classifier always leaves a `groups.json`
  behind. A successful classifier run that leaves none, which makes the
  single-step reload at run.py:233-234 raise `FileNotFoundError` and makes
  the drain loop start again from a fresh state, is not modelled.
- ReleaseNotes.DisplayName: its own contract states the shape of the name
  only. The removal of references, the reduction of one link and the
  keeping of plain text are stated by `DisplayNameNoReference`,
  `LinkReduced` and `DisplayNamePlain`; a statement about every link in an
  arbitrary line is not proved.
- McpServer.Fault: a `content` that is neither a string nor `null` (which
  would also fail to slice) is not modelled.
- DomainTags.RoundTrip: holds only for printable front matter (keys and
  values that `strip()` leaves alone, with no line break, no `---` and, for
  keys, no colon). Other values do not print back to themselves.
- IssueColumn.ProcessAgain: holds only when no rewritten separator or row
  line itself matches the header pattern.

=== FILE: domain_tags.dfy ===
/**
 * The front-matter tagger of scripts/add_domain_tags.py: a feature report's
 * directory name decides a `domain/…` and a `component/…` tag, and the report's
 * YAML front matter (a small subset: `key: value` scalars and `key:` followed by
 * `  - item` lines) is rewritten with those two tags in front of the old ones.
 * Reading and writing the file are left to the caller: the model maps a path's
 * parts and the old text to the new text, if any.
 */
module DomainTags {
  import opened Text

  // ---------------------------------------------------------------------------
  // Directory name to domain and component
  // ---------------------------------------------------------------------------

  /**
   * The repository-directory to domain table, grouped by domain in the order
   * the table lists them; names not in it belong to `core`. No name occurs
   * twice, so the first group holding a name gives its one domain.
   */
  const DomainGroups: seq<(string, seq<string>)> := [
    ("search", ["k-nn", "neural-search", "sql", "asynchronous-search", "learning", "search-relevance",
                "opensearch-learning-to-rank-base", "dashboards-search-relevance"]),
    ("ml", ["ml-commons", "flow-framework", "skills", "dashboards-assistant", "dashboards-flow-framework",
            "ml-commons-dashboards"]),
    ("observability", ["alerting", "anomaly-detection", "notifications", "observability", "query-insights",
                       "performance-analyzer", "alerting-dashboards", "alerting-dashboards-plugin",
                       "anomaly-detection-dashboards", "anomaly-detection-dashboards-plugin",
                       "dashboards-notifications", "dashboards-observability", "query-insights-dashboards"]),
    ("security", ["security", "security-analytics", "security-dashboards", "security-dashboards-plugin",
                  "security-analytics-dashboards", "security-analytics-dashboards-plugin"]),
    ("data", ["index-management", "cross-cluster-replication", "custom-codecs", "job-scheduler",
              "index-management-dashboards"]),
    ("geo", ["geospatial", "dashboards-maps"]),
    ("core", ["opensearch", "common-utils", "opensearch-remote-metadata-sdk", "opensearch-dashboards"]),
    ("infra", ["ci", "multi-plugin", "multi-repo", "reporting", "user-behavior-insights", "dashboards-reporting"]),
    ("core", ["common"])
  ]

  /** The domains the table can produce. */
  const Domains: set<string> := {"search", "ml", "observability", "security", "data", "geo", "core", "infra"}

  const DashboardsPatterns: seq<string> := ["dashboards", "-dashboards-", "dashboards-plugin"]

  /** Some pattern of the list occurs in the name. */
  predicate IsDashboards(dirName: string) {
    exists i | 0 <= i < |DashboardsPatterns| :: Contains(dirName, DashboardsPatterns[i])
  }

  /** The domain of the first group listing the name, from group `g` on. */
  function GroupOf(dirName: string, g: nat): (r: Option<string>)
    requires g <= |DomainGroups|
    ensures r.Some? ==> exists i | g <= i < |DomainGroups| :: r.value == DomainGroups[i].0 && dirName in DomainGroups[i].1
    ensures r.None? ==> forall i | g <= i < |DomainGroups| :: dirName !in DomainGroups[i].1
    decreases |DomainGroups| - g
  {
    if g == |DomainGroups| then None
    else if dirName in DomainGroups[g].1 then Some(DomainGroups[g].0)
    else GroupOf(dirName, g + 1)
  }

  /** The mapped domain, `core` for a name the table does not know. */
  function GetDomain(dirName: string): (r: string)
    ensures (forall i | 0 <= i < |DomainGroups| :: dirName !in DomainGroups[i].1) ==> r == "core"
    ensures (exists i | 0 <= i < |DomainGroups| :: dirName in DomainGroups[i].1) ==>
      exists i | 0 <= i < |DomainGroups| :: r == DomainGroups[i].0 && dirName in DomainGroups[i].1
  {
    GroupOf(dirName, 0).GetOr("core")
  }

  /** Every group names one of the eight domains. */
  lemma GroupsRange()
    ensures forall i | 0 <= i < |DomainGroups| :: DomainGroups[i].0 in Domains
  {
  }

  lemma GetDomainRange(dirName: string)
    ensures GetDomain(dirName) in Domains
  {
    GroupsRange();
  }

  /** The longer patterns both contain `dashboards`, so only that one decides. */
  lemma IsDashboardsContains(dirName: string)
    ensures IsDashboards(dirName) <==> Contains(dirName, "dashboards")
  {
    if IsDashboards(dirName) {
      var i :| 0 <= i < |DashboardsPatterns| && Contains(dirName, DashboardsPatterns[i]);
      if i == 1 {
        assert StartsWith("-dashboards-"[1..], "dashboards");
      } else if i == 2 {
        assert StartsWith("dashboards-plugin"[0..], "dashboards");
      }
      if i != 0 {
        ContainsTransitive(dirName, DashboardsPatterns[i], "dashboards");
      }
    } else {
      assert !Contains(dirName, DashboardsPatterns[0]);
    }
  }

  // ---------------------------------------------------------------------------
  // Front matter as an insertion-ordered dictionary
  // ---------------------------------------------------------------------------

  /** A front-matter value: a scalar string or a list of strings. */
  datatype Value = Scalar(text: string) | Items(items: seq<string>)

  datatype Entry = Entry(key: string, value: Value)

  /** A Python dict: entries in insertion order. */
  type FrontMatter = seq<Entry>

  function Keys(fm: FrontMatter): (r: seq<string>)
    ensures |r| == |fm|
    ensures forall i :: 0 <= i < |fm| ==> r[i] == fm[i].key
  {
    if fm == [] then [] else [fm[0].key] + Keys(fm[1..])
  }

  predicate Distinct(s: seq<string>) {
    forall i, j :: 0 <= i < j < |s| ==> s[i] != s[j]
  }

  /** `fm.get(k)`: the value of the first entry with key `k`. */
  function Lookup(fm: FrontMatter, k: string): (r: Option<Value>)
    ensures r.Some? <==> k in Keys(fm)
    ensures r.Some? ==> Entry(k, r.value) in fm
  {
    if fm == [] then None
    else if fm[0].key == k then Some(fm[0].value)
    else Lookup(fm[1..], k)
  }

  /** `fm[k] = v`: an existing key keeps its place and takes the new value, a new key goes last. */
  function Put(fm: FrontMatter, k: string, v: Value): FrontMatter {
    if fm == [] then [Entry(k, v)]
    else if fm[0].key == k then [Entry(k, v)] + fm[1..]
    else [fm[0]] + Put(fm[1..], k, v)
  }

  lemma KeysCons(e: Entry, fm: FrontMatter)
    ensures Keys([e] + fm) == [e.key] + Keys(fm)
  {
    assert ([e] + fm)[1..] == fm;
  }

  lemma LookupCons(e: Entry, fm: FrontMatter, k: string)
    ensures Lookup([e] + fm, k) == if e.key == k then Some(e.value) else Lookup(fm, k)
  {
    assert ([e] + fm)[1..] == fm;
  }

  /** Assignment keeps the keys where the key was present, appends it where it was not, and stores the value. */
  lemma {:induction false} PutKeys(fm: FrontMatter, k: string, v: Value)
    ensures k in Keys(fm) ==> Keys(Put(fm, k, v)) == Keys(fm)
    ensures k !in Keys(fm) ==> Put(fm, k, v) == fm + [Entry(k, v)]
    ensures Lookup(Put(fm, k, v), k) == Some(v)
    decreases |fm|
  {
    if fm == [] {
      LookupCons(Entry(k, v), [], k);
    } else if fm[0].key == k {
      KeysCons(fm[0], fm[1..]);
      KeysCons(Entry(k, v), fm[1..]);
      assert fm == [fm[0]] + fm[1..];
      LookupCons(Entry(k, v), fm[1..], k);
    } else {
      var rest := Put(fm[1..], k, v);
      PutKeys(fm[1..], k, v);
      assert fm == [fm[0]] + fm[1..];
      KeysCons(fm[0], fm[1..]);
      KeysCons(fm[0], rest);
      LookupCons(fm[0], rest, k);
      AppendAssoc([fm[0]], fm[1..], [Entry(k, v)]);
    }
  }

  /** Assignment leaves every other key's value alone. */
  lemma {:induction false} PutOther(fm: FrontMatter, k: string, v: Value, j: string)
    requires j != k
    ensures Lookup(Put(fm, k, v), j) == Lookup(fm, j)
  {
    if fm != [] && fm[0].key != k {
      PutOther(fm[1..], k, v, j);
    }
  }

  /** Assignment keeps the keys of a dictionary distinct. */
  lemma PutDistinct(fm: FrontMatter, k: string, v: Value)
    requires Distinct(Keys(fm))
    ensures Distinct(Keys(Put(fm, k, v)))
  {
    PutKeys(fm, k, v);
    if k !in Keys(fm) {
      KeysSnoc(fm, Entry(k, v));
      DistinctSnoc(Keys(fm), k);
    }
  }

  lemma KeysSnoc(fm: FrontMatter, e: Entry)
    ensures Keys(fm + [e]) == Keys(fm) + [e.key]
  {
    var a, b := Keys(fm + [e]), Keys(fm) + [e.key];
    assert |a| == |b|;
    forall i | 0 <= i < |a|
      ensures a[i] == b[i]
    {
    }
  }

  lemma DistinctSnoc(s: seq<string>, x: string)
    requires Distinct(s) && x !in s
    ensures Distinct(s + [x])
  {
  }

  /** Assigning a key the value it already has changes nothing. */
  lemma {:induction false} PutSame(fm: FrontMatter, k: string, v: Value)
    requires Lookup(fm, k) == Some(v)
    ensures Put(fm, k, v) == fm
  {
    if fm[0].key != k {
      PutSame(fm[1..], k, v);
    }
  }

  // ---------------------------------------------------------------------------
  // Reading front matter
  // ---------------------------------------------------------------------------

  /** The reader's state between lines: the entries so far, the last key seen and the list collected under it. */
  datatype Reader = Reader(fm: FrontMatter, key: string, items: seq<string>)

  /** A pending non-empty list under a non-empty key is stored. */
  function Close(rd: Reader): FrontMatter {
    if rd.key != "" && rd.items != [] then Put(rd.fm, rd.key, Items(rd.items)) else rd.fm
  }

  /** A `key: value` line: the pending list is closed, a non-empty value is stored, a new list begins. */
  function KeyLine(fm: FrontMatter, key: string, val: string): Reader {
    Reader(if val != "" then Put(fm, key, Scalar(val)) else fm, key, [])
  }

  /** An item line extends the pending list, a line with a colon is a key line, any other line is skipped. */
  function ReadLine(rd: Reader, line: string): Reader {
    if StartsWith(line, "  - ") then rd.(items := rd.items + [Trim(line[4..])])
    else
      match IndexOf(line, ':')
      case None => rd
      case Some(i) => KeyLine(Close(rd), Trim(line[..i]), Trim(line[i + 1..]))
  }

  function ReadLines(rd: Reader, lines: seq<string>): Reader
    decreases |lines|
  {
    if lines == [] then rd else ReadLines(ReadLine(rd, lines[0]), lines[1..])
  }

  lemma CloseDistinct(rd: Reader)
    requires Distinct(Keys(rd.fm))
    ensures Distinct(Keys(Close(rd)))
  {
    if rd.key != "" && rd.items != [] {
      PutDistinct(rd.fm, rd.key, Items(rd.items));
    }
  }

  lemma KeyLineDistinct(fm: FrontMatter, key: string, val: string)
    requires Distinct(Keys(fm))
    ensures Distinct(Keys(KeyLine(fm, key, val).fm))
  {
    if val != "" {
      PutDistinct(fm, key, Scalar(val));
    }
  }

  lemma ReadLineDistinct(rd: Reader, line: string)
    requires Distinct(Keys(rd.fm))
    ensures Distinct(Keys(ReadLine(rd, line).fm))
  {
    if StartsWith(line, "  - ") {
      assert ReadLine(rd, line).fm == rd.fm;
    } else {
      match IndexOf(line, ':')
      case None =>
      case Some(i) =>
        CloseDistinct(rd);
        KeyLineDistinct(Close(rd), Trim(line[..i]), Trim(line[i + 1..]));
    }
  }

  lemma {:induction false} ReadLinesDistinct(rd: Reader, lines: seq<string>)
    requires Distinct(Keys(rd.fm))
    ensures Distinct(Keys(ReadLines(rd, lines).fm))
    decreases |lines|
  {
    if lines != [] {
      ReadLineDistinct(rd, lines[0]);
      ReadLinesDistinct(ReadLine(rd, lines[0]), lines[1..]);
    }
  }

  /** The dictionary read from the text between the `---` fences; its keys are distinct. */
  function ReadFrontMatter(fmText: string): (r: FrontMatter)
    ensures Distinct(Keys(r))
  {
    ReadLinesDistinct(Reader([], "", []), Split(fmText, '\n'));
    CloseDistinct(ReadLines(Reader([], "", []), Split(fmText, '\n')));
    Close(ReadLines(Reader([], "", []), Split(fmText, '\n')))
  }

  predicate IsNewline(c: char) { c == '\n' }

  /** Front matter, when the text has it, and the body after it. */
  datatype Parsed = Parsed(fm: Option<FrontMatter>, body: string)

  function ParseFrontMatter(content: string): (r: Parsed)
    ensures r.fm.None? ==> r.body == content
    ensures r.fm.Some? ==> Distinct(Keys(r.fm.value))
    ensures r.fm.Some? && r.body != [] ==> r.body[0] != '\n'
  {
    if !StartsWith(content, "---") then Parsed(None, content)
    else
      match FindFrom(content, "---", 3)
      case None => Parsed(None, content)
      case Some(end) => Parsed(Some(ReadFrontMatter(Trim(content[3..end]))), DropWhile(content[end + 3..], IsNewline))
  }

  /** Front matter is found exactly when the text opens with `---` and has another `---` after it. */
  lemma ParseFrontMatterFound(content: string)
    ensures ParseFrontMatter(content).fm.Some? <==> StartsWith(content, "---") && Contains(content[3..], "---")
    ensures ParseFrontMatter(content).fm.Some? ==> EndsWith(content, ParseFrontMatter(content).body)
  {
    if StartsWith(content, "---") {
      var f := FindFrom(content, "---", 3);
      if f.None? {
        ClosingMissing(content);
      } else {
        ClosingFound(content, f.value);
        var rest := content[f.value + 3..];
        assert EndsWith(content, rest);
        assert EndsWith(rest, DropWhile(rest, IsNewline));
      }
    }
  }

  lemma ClosingMissing(content: string)
    requires |content| >= 3 && FindFrom(content, "---", 3).None?
    ensures !Contains(content[3..], "---")
  {
    var tail := content[3..];
    forall i | 0 <= i <= |tail| - 3
      ensures !StartsWith(tail[i..], "---")
    {
      assert tail[i..] == content[3 + i..];
    }
  }

  lemma ClosingFound(content: string, end: nat)
    requires |content| >= 3 && 3 <= end && end + 3 <= |content| && StartsWith(content[end..], "---")
    ensures Contains(content[3..], "---")
  {
    assert content[3..][end - 3..] == content[end..];
  }

  // ---------------------------------------------------------------------------
  // Printing front matter
  // ---------------------------------------------------------------------------

  function ItemLines(xs: seq<string>): (r: seq<string>)
    ensures |r| == |xs|
    ensures forall i :: 0 <= i < |xs| ==> r[i] == "  - " + xs[i]
  {
    if xs == [] then [] else ["  - " + xs[0]] + ItemLines(xs[1..])
  }

  /** A scalar prints as `key: value`, a list as `key:` and one `  - item` line per item. */
  function EntryLines(e: Entry): seq<string> {
    match e.value
    case Scalar(v) => [e.key + ": " + v]
    case Items(xs) => [e.key + ":"] + ItemLines(xs)
  }

  function FmLines(fm: FrontMatter): seq<string> {
    if fm == [] then [] else EntryLines(fm[0]) + FmLines(fm[1..])
  }

  function BuildFrontMatter(fm: FrontMatter): string {
    Join(["---"] + FmLines(fm) + ["---"], '\n')
  }

  /** The printed text is the fenced lines: `---`, the entries' lines, `---`. */
  lemma BuildShape(fm: FrontMatter)
    ensures BuildFrontMatter(fm) == "---" + Middle(FmLines(fm)) + "---"
  {
    JoinFenced("---", FmLines(fm));
  }

  lemma JoinFenced(f: string, ls: seq<string>)
    ensures Join([f] + ls + [f], '\n') == f + Middle(ls) + f
  {
    var all := [f] + ls + [f];
    assert all == [f] + (ls + [f]);
    JoinConcat([f], ls + [f], '\n');
    assert Join([f], '\n') == f;
    if ls == [] {
      assert ls + [f] == [f];
      assert Join(all, '\n') == f + ['\n'] + f;
    } else {
      JoinConcat(ls, [f], '\n');
      var j := Join(ls, '\n');
      assert Join(all, '\n') == f + ['\n'] + (j + ['\n'] + f);
      assert f + ['\n'] + (j + ['\n'] + f) == f + (['\n'] + j + ['\n']) + f;
    }
  }

  /** The printed lines of printable front matter are a `---` line, the entries' lines in key order, and a `---` line. */
  lemma BuildLines(fm: FrontMatter)
    requires Printable(fm)
    ensures Split(BuildFrontMatter(fm), '\n') == ["---"] + FmLines(fm) + ["---"]
  {
    var all := ["---"] + FmLines(fm) + ["---"];
    FmLinesClean(fm);
    forall i | 0 <= i < |all|
      ensures '\n' !in all[i]
    {
      if 0 < i < |all| - 1 {
        assert all[i] in FmLines(fm);
      }
    }
    SplitJoin(all, '\n');
  }

  /** What lies between the two fences: a line break, and the lines followed by one when there are any. */
  function Middle(lines: seq<string>): string {
    if lines == [] then "\n" else "\n" + Join(lines, '\n') + "\n"
  }

  // ---------------------------------------------------------------------------
  // Reading back what was printed
  // ---------------------------------------------------------------------------

  /** A string `strip()` leaves alone, with no line break and no `---` in it. */
  predicate Solid(s: string) {
    s != [] && !IsSpace(s[0]) && !IsSpace(s[|s| - 1]) && '\n' !in s && !Contains(s, "---")
  }

  /** An entry that prints as lines the reader reads back as the same entry. */
  predicate PrintableEntry(e: Entry) {
    && Solid(e.key) && ':' !in e.key
    && match e.value
       case Scalar(v) => Solid(v)
       case Items(xs) => xs != [] && forall i :: 0 <= i < |xs| ==> Solid(xs[i])
  }

  predicate Printable(fm: FrontMatter) {
    Distinct(Keys(fm)) && forall i :: 0 <= i < |fm| ==> PrintableEntry(fm[i])
  }

  /** No three dashes in a row. */
  predicate NoTriple(s: string) {
    forall i :: 0 <= i < |s| - 2 ==> !(s[i] == '-' && s[i + 1] == '-' && s[i + 2] == '-')
  }

  lemma NoTripleOf(s: string)
    requires !Contains(s, "---")
    ensures NoTriple(s)
  {
    forall i | 0 <= i < |s| - 2
      ensures !(s[i] == '-' && s[i + 1] == '-' && s[i + 2] == '-')
    {
      assert !StartsWith(s[i..], "---");
      assert s[i..][..3] == [s[i], s[i + 1], s[i + 2]];
    }
  }

  /** Gluing keeps three dashes out when the seam is not dash against dash. */
  lemma NoTripleConcat(a: string, b: string)
    requires NoTriple(a) && NoTriple(b)
    requires a == [] || b == [] || a[|a| - 1] != '-' || b[0] != '-'
    ensures NoTriple(a + b)
  {
    var s := a + b;
    forall i | 0 <= i < |s| - 2
      ensures !(s[i] == '-' && s[i + 1] == '-' && s[i + 2] == '-')
    {
      if i + 2 < |a| {
        assert s[i] == a[i] && s[i + 1] == a[i + 1] && s[i + 2] == a[i + 2];
      } else if i >= |a| {
        assert s[i] == b[i - |a|] && s[i + 1] == b[i + 1 - |a|] && s[i + 2] == b[i + 2 - |a|];
      } else {
        assert s[|a| - 1] == a[|a| - 1] && s[|a|] == b[0];
      }
    }
  }

  /** A printed line: no line break and no three dashes. */
  predicate CleanLine(l: string) { '\n' !in l && NoTriple(l) }

  predicate SolidLast(l: string) { l != [] && !IsSpace(l[|l| - 1]) }

  lemma LineClean(prefix: string, x: string)
    requires CleanLine(prefix) && prefix != [] && prefix[|prefix| - 1] == ' '
    requires Solid(x)
    ensures CleanLine(prefix + x) && SolidLast(prefix + x)
  {
    NoTripleOf(x);
    NoTripleConcat(prefix, x);
  }

  lemma KeyClean(key: string, sep: string)
    requires Solid(key) && (sep == ":" || sep == ": ")
    ensures CleanLine(key + sep) && (key + sep)[0] == key[0]
  {
    NoTripleOf(key);
    NoTripleConcat(key, sep);
  }

  lemma {:induction false} ItemLinesClean(xs: seq<string>)
    requires forall i :: 0 <= i < |xs| ==> Solid(xs[i])
    ensures forall l | l in ItemLines(xs) :: CleanLine(l)
    ensures xs != [] ==> SolidLast(ItemLines(xs)[|xs| - 1])
  {
    assert CleanLine("  - ");
    forall l | l in ItemLines(xs)
      ensures CleanLine(l)
    {
      var i :| 0 <= i < |xs| && l == ItemLines(xs)[i];
      LineClean("  - ", xs[i]);
    }
    if xs != [] {
      LineClean("  - ", xs[|xs| - 1]);
    }
  }

  lemma EntryLinesClean(e: Entry)
    requires PrintableEntry(e)
    ensures forall l | l in EntryLines(e) :: CleanLine(l)
    ensures EntryLines(e) != [] && EntryLines(e)[0] != [] && EntryLines(e)[0][0] == e.key[0]
    ensures SolidLast(EntryLines(e)[|EntryLines(e)| - 1])
  {
    match e.value
    case Scalar(v) =>
      KeyClean(e.key, ": ");
      LineClean(e.key + ": ", v);
    case Items(xs) =>
      KeyClean(e.key, ":");
      ItemLinesClean(xs);
  }

  lemma {:induction false} FmLinesClean(fm: FrontMatter)
    requires forall i :: 0 <= i < |fm| ==> PrintableEntry(fm[i])
    ensures forall l | l in FmLines(fm) :: CleanLine(l)
    ensures fm != [] ==> FmLines(fm) != [] && FmLines(fm)[0] != [] && !IsSpace(FmLines(fm)[0][0])
    ensures fm != [] ==> SolidLast(FmLines(fm)[|FmLines(fm)| - 1])
  {
    if fm != [] {
      EntryLinesClean(fm[0]);
      FmLinesClean(fm[1..]);
    }
  }

  /** Joining clean lines at line breaks makes no three dashes. */
  lemma {:induction false} JoinClean(lines: seq<string>)
    requires forall l | l in lines :: CleanLine(l)
    ensures NoTriple(Join(lines, '\n'))
    ensures lines != [] ==> EndsWith(Join(lines, '\n'), lines[|lines| - 1])
    decreases |lines|
  {
    if lines != [] {
      assert lines[0] in lines;
    }
    if |lines| >= 2 {
      JoinClean(lines[1..]);
      NoTripleConcat(lines[0], "\n");
      var tail := Join(lines[1..], '\n');
      NoTripleConcat(lines[0] + "\n", tail);
      var whole := Join(lines, '\n');
      assert whole == (lines[0] + "\n") + tail;
      var last := lines[|lines| - 1];
      assert last == lines[1..][|lines[1..]| - 1];
      assert whole[|whole| - |last|..] == tail[|tail| - |last|..];
    }
  }

  /** The first `---` from index 3 on is the closing fence. */
  lemma FindClosing(mid: string, rest: string)
    requires mid != [] && mid[|mid| - 1] == '\n' && NoTriple(mid)
    requires StartsWith(rest, "---")
    ensures FindFrom("---" + mid + rest, "---", 3) == Some(3 + |mid|)
  {
    var s := "---" + mid + rest;
    var p := 3 + |mid|;
    assert s[p - 1] == '\n';
    forall i | 3 <= i < p
      ensures !StartsWith(s[i..], "---")
    {
      assert s[i..][..3] == [s[i], s[i + 1], s[i + 2]];
      if i + 2 < p {
        assert mid[i - 3] == s[i] && mid[i - 2] == s[i + 1] && mid[i - 1] == s[i + 2];
      }
    }
    assert s[p..] == rest;
    assert StartsWith(s[p..], "---");
  }

  lemma {:induction false} ReadLinesConcat(rd: Reader, a: seq<string>, b: seq<string>)
    ensures ReadLines(rd, a + b) == ReadLines(ReadLines(rd, a), b)
    decreases |a|
  {
    if a == [] {
      assert a + b == b;
    } else {
      TailOfConcat(a, b);
      ReadLinesConcat(ReadLine(rd, a[0]), a[1..], b);
    }
  }

  /** `  - item` lines add their items to the pending list. */
  lemma {:induction false} ReadItems(fm: FrontMatter, key: string, ys: seq<string>, xs: seq<string>)
    requires forall i :: 0 <= i < |xs| ==> Solid(xs[i])
    ensures ReadLines(Reader(fm, key, ys), ItemLines(xs)) == Reader(fm, key, ys + xs)
    decreases |xs|
  {
    if xs == [] {
      assert ys + xs == ys;
    } else {
      var lines := ItemLines(xs);
      assert lines[1..] == ItemLines(xs[1..]);
      ReadItemLine(Reader(fm, key, ys), xs[0]);
      ReadItems(fm, key, ys + [xs[0]], xs[1..]);
      AppendAssoc(ys, [xs[0]], xs[1..]);
      assert [xs[0]] + xs[1..] == xs;
    }
  }

  /** An `  - item` line adds its item to the pending list. */
  lemma ReadItemLine(rd: Reader, x: string)
    requires Solid(x)
    ensures ReadLine(rd, "  - " + x) == rd.(items := rd.items + [x])
  {
    var line := "  - " + x;
    assert StartsWith(line, "  - ") && line[4..] == x;
    TrimIdentity(x);
  }

  /** A line made of a key, a colon and the rest is read as that key and the stripped rest. */
  lemma KeyRead(rd: Reader, key: string, rest: string)
    requires Solid(key) && ':' !in key
    ensures ReadLine(rd, key + [':'] + rest) == KeyLine(Close(rd), key, Trim(rest))
  {
    var line := key + [':'] + rest;
    assert line[0] == key[0];
    NotItemLine(line);
    IndexOfAfter(key, ':', rest);
    assert line[..|key|] == key && line[|key| + 1..] == rest;
    TrimIdentity(key);
    assert ReadLine(rd, line) == KeyLine(Close(rd), Trim(line[..|key|]), Trim(line[|key| + 1..]));
  }

  /** A line that opens with a non-space character is not an item line. */
  lemma NotItemLine(line: string)
    requires line != [] && !IsSpace(line[0])
    ensures !StartsWith(line, "  - ")
  {
    if |line| >= 4 {
      assert line[..4][0] == line[0];
    }
  }

  /** The lines of one printable entry store that entry. */
  lemma ReadEntry(rd: Reader, e: Entry)
    requires PrintableEntry(e)
    ensures Close(ReadLines(rd, EntryLines(e))) == Put(Close(rd), e.key, e.value)
  {
    match e.value
    case Scalar(v) =>
      assert e.key + ": " + v == e.key + [':'] + (" " + v);
      TrimPadded(" ", v, "");
      assert " " + v + "" == " " + v;
      KeyRead(rd, e.key, " " + v);
    case Items(xs) =>
      assert e.key + ":" == e.key + [':'] + "";
      KeyRead(rd, e.key, "");
      ReadLinesConcat(rd, [e.key + ":"], ItemLines(xs));
      ReadItems(Close(rd), e.key, [], xs);
      assert [] + xs == xs;
  }

  /** The lines of printable entries with fresh, distinct keys append those entries. */
  lemma {:induction false} ReadEntries(rd: Reader, fm: FrontMatter)
    requires forall i :: 0 <= i < |fm| ==> PrintableEntry(fm[i])
    requires Distinct(Keys(Close(rd) + fm))
    ensures Close(ReadLines(rd, FmLines(fm))) == Close(rd) + fm
    decreases |fm|
  {
    if fm == [] {
      assert Close(rd) + fm == Close(rd);
    } else {
      var e := fm[0];
      assert FmLines(fm) == EntryLines(e) + FmLines(fm[1..]);
      ReadLinesConcat(rd, EntryLines(e), FmLines(fm[1..]));
      var rd1 := ReadLines(rd, EntryLines(e));
      ReadEntry(rd, e);
      FreshHead(Close(rd), fm);
      AppendFresh(Close(rd), fm, Close(rd1));
      ReadEntries(rd1, fm[1..]);
    }
  }

  /** Storing the next entry of a dictionary with distinct keys appends it. */
  lemma AppendFresh(acc: FrontMatter, fm: FrontMatter, c: FrontMatter)
    requires fm != [] && fm[0].key !in Keys(acc)
    requires c == Put(acc, fm[0].key, fm[0].value)
    ensures c == acc + [fm[0]] && c + fm[1..] == acc + fm
  {
    PutKeys(acc, fm[0].key, fm[0].value);
    assert Entry(fm[0].key, fm[0].value) == fm[0];
    HeadThenTail(acc, fm);
  }

  lemma HeadThenTail<T>(acc: seq<T>, s: seq<T>)
    requires s != []
    ensures acc + [s[0]] + s[1..] == acc + s
  {
  }

  /** In a dictionary with distinct keys, a later entry's key is not among the earlier ones. */
  lemma FreshHead(acc: FrontMatter, fm: FrontMatter)
    requires fm != [] && Distinct(Keys(acc + fm))
    ensures fm[0].key !in Keys(acc)
  {
    var ks := Keys(acc + fm);
    assert ks[|acc|] == fm[0].key;
    forall i | 0 <= i < |acc|
      ensures Keys(acc)[i] != fm[0].key
    {
      assert ks[i] == acc[i].key;
    }
  }

  /**
   * Round trip: reading back printed front matter followed by a line break and
   * a body gives the same entries, in the same order, and the body without its
   * leading line breaks.
   */
  lemma RoundTrip(fm: FrontMatter, body: string)
    requires Printable(fm)
    ensures ParseFrontMatter(BuildFrontMatter(fm) + "\n" + body) == Parsed(Some(fm), DropWhile(body, IsNewline))
  {
    var mid := Middle(FmLines(fm));
    BuildShape(fm);
    Regroup("---", mid, "---", "\n", body);
    MiddleClean(fm);
    ParseFenced(mid, body);
    ReadMiddle(fm);
  }

  lemma Regroup(a: string, b: string, c: string, d: string, e: string)
    ensures a + b + c + d + e == a + b + (c + (d + e))
  {
  }

  /** Text opening with `---`, then `mid`, then the closing `---` and a line break, splits at that fence. */
  lemma ParseFenced(mid: string, body: string)
    requires mid != [] && mid[|mid| - 1] == '\n' && NoTriple(mid)
    ensures ParseFrontMatter("---" + mid + ("---" + ("\n" + body)))
      == Parsed(Some(ReadFrontMatter(Trim(mid))), DropWhile(body, IsNewline))
  {
    var rest := "---" + ("\n" + body);
    FenceSlices("---", mid, "\n" + body);
    FindClosing(mid, rest);
    DropNewline(body);
  }

  lemma FenceSlices(f: string, mid: string, tail: string)
    ensures StartsWith(f + mid + (f + tail), f) && StartsWith(f + tail, f)
    ensures (f + mid + (f + tail))[|f|..|f| + |mid|] == mid
    ensures (f + mid + (f + tail))[|f| + |mid| + |f|..] == tail
  {
  }

  lemma DropNewline(body: string)
    ensures DropWhile("\n" + body, IsNewline) == DropWhile(body, IsNewline)
  {
    assert ("\n" + body)[1..] == body;
  }

  /** What lies between the fences ends in a line break and holds no three dashes. */
  lemma MiddleClean(fm: FrontMatter)
    requires Printable(fm)
    ensures var mid := Middle(FmLines(fm)); mid != [] && mid[|mid| - 1] == '\n' && NoTriple(mid)
  {
    FmLinesClean(fm);
    MiddleOfClean(FmLines(fm));
  }

  lemma MiddleOfClean(ls: seq<string>)
    requires forall l | l in ls :: CleanLine(l)
    ensures var mid := Middle(ls); mid != [] && mid[|mid| - 1] == '\n' && NoTriple(mid)
  {
    NewlineClean();
    if ls != [] {
      var inner := Join(ls, '\n');
      JoinClean(ls);
      NoTripleConcat("\n", inner);
      NoTripleConcat("\n" + inner, "\n");
    }
  }

  lemma NewlineClean()
    ensures NoTriple("\n")
  {
  }

  /** The stripped text between the fences reads back as the printed entries. */
  lemma ReadMiddle(fm: FrontMatter)
    requires Printable(fm)
    ensures ReadFrontMatter(Trim(Middle(FmLines(fm)))) == fm
  {
    FmLinesClean(fm);
    if fm == [] {
      ReadNothing();
    } else {
      ReadLinesBack(fm, FmLines(fm));
    }
  }

  lemma ReadNothing()
    ensures ReadFrontMatter(Trim(Middle([]))) == []
  {
    TrimPadded("\n", "", "");
    assert "\n" + "" + "" == "\n";
    SplitNoSep("", '\n');
    assert ReadLines(Reader([], "", []), [""]) == Reader([], "", []);
  }

  lemma ReadLinesBack(fm: FrontMatter, ls: seq<string>)
    requires Printable(fm) && ls == FmLines(fm) && ls != []
    requires forall l | l in ls :: CleanLine(l)
    requires ls[0] != [] && !IsSpace(ls[0][0]) && SolidLast(ls[|ls| - 1])
    ensures ReadFrontMatter(Trim(Middle(ls))) == fm
  {
    var inner := Join(ls, '\n');
    JoinClean(ls);
    JoinHead(ls, '\n');
    assert inner[0] == ls[0][0];
    assert inner[|inner| - 1] == ls[|ls| - 1][|ls[|ls| - 1]| - 1];
    TrimPadded("\n", inner, "\n");
    forall i | 0 <= i < |ls|
      ensures '\n' !in ls[i]
    {
      assert ls[i] in ls;
    }
    SplitJoin(ls, '\n');
    ReadFromStart(fm);
  }

  lemma ReadFromStart(fm: FrontMatter)
    requires Printable(fm)
    ensures Close(ReadLines(Reader([], "", []), FmLines(fm))) == fm
  {
    var start := Reader([], "", []);
    assert Close(start) == [];
    assert Close(start) + fm == fm;
    ReadEntries(start, fm);
  }

  // ---------------------------------------------------------------------------
  // The tag rewrite
  // ---------------------------------------------------------------------------

  function DomainTag(dirName: string): string { "domain/" + GetDomain(dirName) }

  function ComponentTag(dirName: string): string {
    "component/" + (if IsDashboards(dirName) then "dashboards" else "server")
  }

  /** An old tag survives unless it is a domain or a component tag. */
  predicate Retained(t: string) { !StartsWith(t, "domain/") && !StartsWith(t, "component/") }

  /** `fm.get('tags', [])`, a scalar read as a one-element list. */
  function OldTags(fm: FrontMatter): (r: seq<string>)
    ensures Lookup(fm, "tags").None? ==> r == []
  {
    match Lookup(fm, "tags")
    case None => []
    case Some(Scalar(t)) => [t]
    case Some(Items(ts)) => ts
  }

  /** The domain tag, the component tag, then the old tags that are neither, in their old order. */
  function NewTags(dirName: string, fm: FrontMatter): (r: seq<string>)
    ensures |r| >= 2 && r[0] == DomainTag(dirName) && r[1] == ComponentTag(dirName)
    ensures forall t :: t in r[2..] <==> t in OldTags(fm) && Retained(t)
    ensures |r| <= |OldTags(fm)| + 2
    ensures r[2..] == Filter(OldTags(fm), Retained)
  {
    assert ([DomainTag(dirName), ComponentTag(dirName)] + Filter(OldTags(fm), Retained))[2..] == Filter(OldTags(fm), Retained);
    [DomainTag(dirName), ComponentTag(dirName)] + Filter(OldTags(fm), Retained)
  }

  /** Each old tag that is neither a domain nor a component tag is kept as often as it occurred; the others are dropped. */
  lemma NewTagsCount(dirName: string, fm: FrontMatter, t: string)
    ensures multiset(NewTags(dirName, fm)[2..])[t] == if Retained(t) then multiset(OldTags(fm))[t] else 0
  {
    var r := NewTags(dirName, fm);
    assert r[2..] == Filter(OldTags(fm), Retained);
    FilterMultiset(OldTags(fm), Retained, t);
  }

  /** `fm['tags'] = new_tags`: the `tags` entry holds the new list, in its old place or last. */
  function Retag(dirName: string, fm: FrontMatter): (r: FrontMatter)
    ensures Lookup(r, "tags") == Some(Items(NewTags(dirName, fm)))
    ensures "tags" in Keys(fm) ==> Keys(r) == Keys(fm)
    ensures "tags" !in Keys(fm) ==> r == fm + [Entry("tags", Items(NewTags(dirName, fm)))]
  {
    PutKeys(fm, "tags", Items(NewTags(dirName, fm)));
    Put(fm, "tags", Items(NewTags(dirName, fm)))
  }

  /** The rewrite touches no entry but `tags`. */
  lemma RetagOthers(dirName: string, fm: FrontMatter, k: string)
    requires k != "tags"
    ensures Lookup(Retag(dirName, fm), k) == Lookup(fm, k)
  {
    PutOther(fm, "tags", Items(NewTags(dirName, fm)), k);
  }

  lemma DomainTagsNotRetained(dirName: string)
    ensures !Retained(DomainTag(dirName)) && !Retained(ComponentTag(dirName))
  {
    assert DomainTag(dirName)[..7] == "domain/";
    assert ComponentTag(dirName)[..10] == "component/";
  }

  /** The tag rewrite is idempotent: rewriting its own output changes nothing. */
  lemma RetagIdempotent(dirName: string, fm: FrontMatter)
    ensures Retag(dirName, Retag(dirName, fm)) == Retag(dirName, fm)
  {
    var fm1 := Retag(dirName, fm);
    var tags := NewTags(dirName, fm);
    var kept := Filter(OldTags(fm), Retained);
    assert OldTags(fm1) == tags;
    DomainTagsNotRetained(dirName);
    assert tags == [tags[0], tags[1]] + kept;
    FilterConcat([tags[0], tags[1]], kept, Retained);
    assert Filter([tags[0], tags[1]], Retained) == [];
    FilterIdempotent(OldTags(fm), Retained);
    assert NewTags(dirName, fm1) == tags;
    PutSame(fm1, "tags", Items(tags));
  }

  // ---------------------------------------------------------------------------
  // One file
  // ---------------------------------------------------------------------------

  /** The first index from `from` on holding `x`, as `parts.index(x, from)`; `None` where Python raises. */
  function IndexFrom(parts: seq<string>, x: string, from: nat): (r: Option<nat>)
    ensures r.Some? ==> from <= r.value < |parts| && parts[r.value] == x
    ensures r.Some? ==> forall i :: from <= i < r.value ==> parts[i] != x
    ensures r.None? ==> forall i :: from <= i < |parts| ==> parts[i] != x
    decreases |parts| - from
  {
    if from >= |parts| then None
    else if parts[from] == x then Some(from)
    else IndexFrom(parts, x, from + 1)
  }

  /** `parts[idx + 1]`, `None` where Python raises. */
  function After(parts: seq<string>, idx: Option<nat>): Option<string> {
    if idx.Some? && idx.value + 1 < |parts| then Some(parts[idx.value + 1]) else None
  }

  /**
   * The repository directory of a report path: the part after the first
   * `features`. The `releases` branch searches for `features` again from the
   * `releases` part on, so it can only fail.
   */
  function DirName(parts: seq<string>): Option<string> {
    if "features" in parts then After(parts, IndexFrom(parts, "features", 0))
    else if "releases" in parts then
      match IndexFrom(parts, "releases", 0)
      case Some(r) => After(parts, IndexFrom(parts, "features", r))
      case None => None
    else None
  }

  /** A directory name exists exactly when some `features` part is followed by another part, and it is the part after the first `features`. */
  lemma DirNameFeatures(parts: seq<string>)
    ensures DirName(parts).Some? <==> exists i | 0 <= i < |parts| :: parts[i] == "features" && i + 1 < |parts| && "features" !in parts[..i]
    ensures DirName(parts).Some? ==> exists i | 0 <= i < |parts| - 1 :: parts[i] == "features" && DirName(parts).value == parts[i + 1]
  {
    var f := IndexFrom(parts, "features", 0);
    if "features" in parts {
      var i := f.value;
      assert "features" !in parts[..i];
      forall j | 0 <= j < |parts| && parts[j] == "features" && "features" !in parts[..j]
        ensures j == i
      {
      }
    } else {
      var r := IndexFrom(parts, "releases", 0);
      if r.Some? {
        assert IndexFrom(parts, "features", r.value).None?;
      }
    }
  }

  /** The rewritten text: the tagged front matter, a line break, and the body. */
  function Retagged(dirName: string, p: Parsed): string {
    BuildFrontMatter(Retag(dirName, p.fm.GetOr([]))) + "\n" + p.body
  }

  /** `process_file` on a path and its text: the new text, or `None` when the file is left alone. */
  function TagFile(parts: seq<string>, content: string): (r: Option<string>)
    ensures DirName(parts).None? ==> r.None?
    ensures r.Some? ==> r.value != content
    ensures r.Some? ==> DirName(parts).Some? && r.value == Retagged(DirName(parts).value, ParseFrontMatter(content))
    ensures DirName(parts).Some? && Retagged(DirName(parts).value, ParseFrontMatter(content)) != content ==>
      r == Some(Retagged(DirName(parts).value, ParseFrontMatter(content)))
  {
    match DirName(parts)
    case None => None
    case Some(dir) =>
      if Retagged(dir, ParseFrontMatter(content)) != content then Some(Retagged(dir, ParseFrontMatter(content))) else None
  }

  /** A file under a feature directory with no front matter always gets one written. */
  lemma TagFileAddsFrontMatter(parts: seq<string>, content: string)
    requires DirName(parts).Some? && ParseFrontMatter(content).fm.None?
    ensures TagFile(parts, content) == Some(Retagged(DirName(parts).value, ParseFrontMatter(content)))
  {
    var r := Retagged(DirName(parts).value, ParseFrontMatter(content));
    assert |r| > |content|;
  }

  /** Dropping line breaks from a text that does not start with one leaves it whole. */
  lemma DropNoNewline(body: string)
    requires body == [] || body[0] != '\n'
    ensures DropWhile(body, IsNewline) == body
  {
  }

  /** Retagging the retagged text reproduces it, when its front matter is printable and its body does not start with a line break. */
  lemma RetaggedStable(dir: string, content: string)
    requires Printable(Retag(dir, ParseFrontMatter(content).fm.GetOr([])))
    requires ParseFrontMatter(content).body == [] || ParseFrontMatter(content).body[0] != '\n'
    ensures Retagged(dir, ParseFrontMatter(Retagged(dir, ParseFrontMatter(content)))) == Retagged(dir, ParseFrontMatter(content))
  {
    var p := ParseFrontMatter(content);
    var fm1 := Retag(dir, p.fm.GetOr([]));
    var c2 := Retagged(dir, p);
    RoundTrip(fm1, p.body);
    DropNoNewline(p.body);
    assert ParseFrontMatter(c2) == Parsed(Some(fm1), p.body);
    RetagIdempotent(dir, p.fm.GetOr([]));
  }

  /**
   * A second run leaves a file alone, whenever the first run's front matter is
   * printable and the body it kept does not start with a line break.
   */
  lemma TagFileStable(parts: seq<string>, content: string, dir: string)
    requires DirName(parts) == Some(dir) && TagFile(parts, content).Some?
    requires Printable(Retag(dir, ParseFrontMatter(content).fm.GetOr([])))
    requires ParseFrontMatter(content).body == [] || ParseFrontMatter(content).body[0] != '\n'
    ensures TagFile(parts, TagFile(parts, content).value) == None
  {
    assert TagFile(parts, content).value == Retagged(dir, ParseFrontMatter(content));
    RetaggedStable(dir, content);
  }
}

=== FILE: gen_pages.dfy ===
/**
 * The navigation builder of scripts/gen_pages.py: which domain a feature
 * directory belongs to (`get_domain`), and the `.pages` file that
 * `generate_features_pages` writes for the features directory, as a function
 * of the names of its subdirectories. The navigation is built as a list of
 * heading and entry lines and then rendered to text.
 */
module GenPages {
  import opened Text

  // ---------------------------------------------------------------------------
  // Domains
  // ---------------------------------------------------------------------------

  /** `DOMAIN_MAPPINGS`: each domain with its repositories, in insertion order. */
  function DomainTable(): seq<(string, seq<string>)> {
    [("search", ["k-nn", "neural-search", "sql", "asynchronous-search", "learning", "search-relevance",
                 "dashboards-search-relevance"]),
     ("ml", ["ml-commons", "flow-framework", "skills", "ml-commons-dashboards", "dashboards-flow-framework",
             "dashboards-assistant"]),
     ("observability", ["alerting", "anomaly-detection", "notifications", "observability", "query-insights",
                        "performance-analyzer", "alerting-dashboards", "anomaly-detection-dashboards",
                        "dashboards-observability", "dashboards-notifications"]),
     ("security", ["security", "security-analytics", "security-dashboards", "security-analytics-dashboards"]),
     ("data", ["index-management", "cross-cluster-replication", "custom-codecs", "job-scheduler",
               "index-management-dashboards"]),
     ("geo", ["geospatial", "dashboards-maps"]),
     ("core", ["opensearch", "common-utils", "opensearch-remote-metadata-sdk", "opensearch-system-templates",
               "opensearch-dashboards"]),
     ("infra", ["ci", "multi-plugin", "reporting", "user-behavior-insights", "dashboards-reporting",
                "dashboards-query-workbench"])]
  }

  /** The order the domains are listed in, `other` last. */
  function NavOrder(): seq<string> {
    ["core", "search", "ml", "observability", "security", "data", "geo", "infra", "other"]
  }

  /** The first entry of `table`, from position `k` on, whose list holds `name`. */
  function FirstListing(table: seq<(string, seq<string>)>, name: string, k: nat): (r: Option<nat>)
    requires k <= |table|
    ensures r.Some? ==> k <= r.value < |table| && name in table[r.value].1
    ensures r.Some? ==> forall j | k <= j < r.value :: name !in table[j].1
    ensures r.None? ==> forall j | k <= j < |table| :: name !in table[j].1
    decreases |table| - k
  {
    if k == |table| then None
    else if name in table[k].1 then Some(k)
    else FirstListing(table, name, k + 1)
  }

  /** `get_domain`: the first domain, in table order, that lists the name; else `other`. */
  function GetDomain(name: string): (r: string)
    ensures FirstListing(DomainTable(), name, 0).Some? ==>
      (var k := FirstListing(DomainTable(), name, 0).value;
       r == DomainTable()[k].0 && name in DomainTable()[k].1 && forall j | 0 <= j < k :: name !in DomainTable()[j].1)
    ensures FirstListing(DomainTable(), name, 0).None? <==> r == "other"
  {
    TableDomains();
    match FirstListing(DomainTable(), name, 0)
    case Some(k) => DomainTable()[k].0
    case None => "other"
  }

  /** The table's domains are all listed in the navigation, and none of them is `other`. */
  lemma TableDomains()
    ensures forall k | 0 <= k < |DomainTable()| :: DomainTable()[k].0 in NavOrder() && DomainTable()[k].0 != "other"
  {
    var t := DomainTable();
    var order := NavOrder();
    forall k | 0 <= k < |t|
      ensures t[k].0 in order && t[k].0 != "other"
    {
      if k == 0 { assert t[k].0 == order[1]; }
      else if k == 1 { assert t[k].0 == order[2]; }
      else if k == 2 { assert t[k].0 == order[3]; }
      else if k == 3 { assert t[k].0 == order[4]; }
      else if k == 4 { assert t[k].0 == order[5]; }
      else if k == 5 { assert t[k].0 == order[6]; }
      else if k == 6 { assert t[k].0 == order[0]; }
      else { assert t[k].0 == order[7]; }
    }
  }

  /** Every name falls in one of the navigation's domains. */
  lemma DomainListed(name: string)
    ensures GetDomain(name) in NavOrder()
  {
    TableDomains();
    assert NavOrder()[8] == "other";
  }

  lemma AllDomainsListed()
    ensures forall name: string :: GetDomain(name) in NavOrder()
  {
    forall name: string
      ensures GetDomain(name) in NavOrder()
    {
      DomainListed(name);
    }
  }

  /** The navigation lists no domain twice. */
  lemma NavOrderDistinct()
    ensures NoDuplicates(NavOrder())
  {
  }

  // ---------------------------------------------------------------------------
  // The navigation
  //
  // The navigation is built for any assignment `dom` of names to domains and
  // any domain order `ds`; the file uses `GetDomain` and `NavOrder()`.
  // ---------------------------------------------------------------------------

  /** A line of the navigation: a domain heading or a feature directory. */
  datatype NavLine = Heading(domain: string) | Entry(name: string)

  /** The subdirectories of domain `d`, in the order given: `by_domain[d]`. */
  function Group(subdirs: seq<string>, d: string, dom: string -> string): seq<string> {
    Filter(subdirs, (n: string) => dom(n) == d)
  }

  function Entries(repos: seq<string>): (r: seq<NavLine>)
    ensures |r| == |repos|
    ensures forall i | 0 <= i < |r| :: r[i] == Entry(repos[i])
  {
    if repos == [] then [] else [Entry(repos[0])] + Entries(repos[1..])
  }

  /** A domain's heading and sorted entries, or nothing when it has no subdirectory. */
  function Block(d: string, subdirs: seq<string>, dom: string -> string): seq<NavLine> {
    var repos := Group(subdirs, d, dom);
    if repos == [] then [] else [Heading(d)] + Entries(Sort(repos))
  }

  /** The blocks of the domains `ds`, in that order. */
  function NavLines(ds: seq<string>, subdirs: seq<string>, dom: string -> string): seq<NavLine> {
    if ds == [] then [] else Block(ds[0], subdirs, dom) + NavLines(ds[1..], subdirs, dom)
  }

  /** The navigation for the subdirectory names, sorted first as `sorted(...)` does. */
  function Nav(names: seq<string>): seq<NavLine> {
    NavLines(NavOrder(), Sort(names), GetDomain)
  }

  /** A line's text: `  # <DOMAIN>` for a heading, `  - <name>` for an entry. */
  function LineText(l: NavLine): string {
    match l
    case Heading(d) => "  # " + Upper(d)
    case Entry(n) => "  - " + n
  }

  function RenderLine(l: NavLine): string {
    LineText(l) + "\n"
  }

  function Render(lines: seq<NavLine>): string {
    if lines == [] then "" else RenderLine(lines[0]) + Render(lines[1..])
  }

  /** The text written to `features/.pages`. */
  function PagesContent(names: seq<string>): (r: string)
    ensures StartsWith(r, "nav:\n")
  {
    var r := "nav:\n" + Render(Nav(names));
    assert r[..5] == "nav:\n";
    r
  }

  // ---------------------------------------------------------------------------
  // The text read back
  // ---------------------------------------------------------------------------

  /** The name or domain a line shows holds no line break. */
  predicate OneLine(l: NavLine) {
    match l
    case Heading(d) => '\n' !in d
    case Entry(n) => '\n' !in n
  }

  function Texts(lines: seq<NavLine>): (r: seq<string>)
    ensures |r| == |lines|
  {
    if lines == [] then [] else [LineText(lines[0])] + Texts(lines[1..])
  }

  lemma LineTextOneLine(l: NavLine)
    requires OneLine(l)
    ensures '\n' !in LineText(l)
  {
    if l.Heading? {
      var u := Upper(l.domain);
      forall i | 0 <= i < |u|
        ensures u[i] != '\n'
      {
        assert u[i] == UpperChar(l.domain[i]);
      }
    }
  }

  /** Rendered lines followed by `t` split into the lines' texts and then the parts of `t`. */
  lemma {:induction false} RenderSplit(lines: seq<NavLine>, t: string)
    requires forall i | 0 <= i < |lines| :: OneLine(lines[i])
    ensures Split(Render(lines) + t, '\n') == Texts(lines) + Split(t, '\n')
  {
    if lines != [] {
      RenderSplit(lines[1..], t);
      LineTextOneLine(lines[0]);
      var a := LineText(lines[0]);
      var rest := Render(lines[1..]) + t;
      AppendAssoc(a + "\n", Render(lines[1..]), t);
      assert Render(lines) + t == a + ['\n'] + rest;
      SplitCons(a, '\n', rest);
      AppendAssoc([a], Texts(lines[1..]), Split(t, '\n'));
    } else {
      assert Render(lines) + t == t;
    }
  }

  /** Without line breaks in the names and domains, the navigation's lines carry none either. */
  lemma {:induction false} NavLinesOneLine(ds: seq<string>, subdirs: seq<string>, dom: string -> string)
    requires forall i | 0 <= i < |ds| :: '\n' !in ds[i]
    requires forall i | 0 <= i < |subdirs| :: '\n' !in subdirs[i]
    ensures forall i | 0 <= i < |NavLines(ds, subdirs, dom)| :: OneLine(NavLines(ds, subdirs, dom)[i])
  {
    if ds != [] {
      NavLinesOneLine(ds[1..], subdirs, dom);
      var g := Group(subdirs, ds[0], dom);
      var block := Block(ds[0], subdirs, dom);
      var rest := NavLines(ds[1..], subdirs, dom);
      forall i | 0 <= i < |block|
        ensures OneLine(block[i])
      {
        if i > 0 {
          var n := Sort(g)[i - 1];
          assert block[i] == Entry(n);
          assert multiset(Sort(g))[n] > 0;
          InGroup(subdirs, ds[0], dom, n);
          assert n in subdirs;
        }
      }
      assert NavLines(ds, subdirs, dom) == block + rest;
    }
  }

  /** The first line of the file is `nav:`. */
  lemma HeaderSplit(r: string)
    ensures Split("nav:\n" + r, '\n') == ["nav:"] + Split(r, '\n')
  {
    assert "nav:\n" + r == "nav:" + ['\n'] + r;
    SplitCons("nav:", '\n', r);
  }

  lemma NavOrderOneLine()
    ensures forall i | 0 <= i < |NavOrder()| :: '\n' !in NavOrder()[i]
  {
  }

  /** Sorting keeps the names free of line breaks. */
  lemma SortOneLine(names: seq<string>)
    requires forall i | 0 <= i < |names| :: '\n' !in names[i]
    ensures forall i | 0 <= i < |Sort(names)| :: '\n' !in Sort(names)[i]
  {
    var s := Sort(names);
    forall i | 0 <= i < |s|
      ensures '\n' !in s[i]
    {
      assert s[i] in multiset(names);
    }
  }

  /**
   * Split at line breaks, the file reads `nav:`, then one text per navigation
   * line in order, then the empty tail after the final line break.
   */
  lemma PagesLines(names: seq<string>)
    requires forall i | 0 <= i < |names| :: '\n' !in names[i]
    ensures Split(PagesContent(names), '\n') == ["nav:"] + Texts(Nav(names)) + [""]
  {
    var lines := Nav(names);
    SortOneLine(names);
    NavOrderOneLine();
    NavLinesOneLine(NavOrder(), Sort(names), GetDomain);
    RenderSplit(lines, "");
    assert Render(lines) + "" == Render(lines);
    HeaderSplit(Render(lines));
    AppendAssoc(["nav:"], Texts(lines), [""]);
  }

  // ---------------------------------------------------------------------------
  // What the navigation lists
  // ---------------------------------------------------------------------------

  /** The directory names of the entry lines, in order. */
  function Names(lines: seq<NavLine>): seq<string> {
    if lines == [] then []
    else (if lines[0].Entry? then [lines[0].name] else []) + Names(lines[1..])
  }

  /** The domains of the heading lines, in order. */
  function Headings(lines: seq<NavLine>): seq<string> {
    if lines == [] then []
    else (if lines[0].Heading? then [lines[0].domain] else []) + Headings(lines[1..])
  }

  lemma {:induction false} NamesConcat(a: seq<NavLine>, b: seq<NavLine>)
    ensures Names(a + b) == Names(a) + Names(b)
  {
    if a == [] {
      assert a + b == b;
    } else {
      NamesConcat(a[1..], b);
      TailOfConcat(a, b);
      AppendAssoc(if a[0].Entry? then [a[0].name] else [], Names(a[1..]), Names(b));
    }
  }

  lemma {:induction false} HeadingsConcat(a: seq<NavLine>, b: seq<NavLine>)
    ensures Headings(a + b) == Headings(a) + Headings(b)
  {
    if a == [] {
      assert a + b == b;
    } else {
      HeadingsConcat(a[1..], b);
      TailOfConcat(a, b);
      AppendAssoc(if a[0].Heading? then [a[0].domain] else [], Headings(a[1..]), Headings(b));
    }
  }

  lemma {:induction false} EntriesNames(repos: seq<string>)
    ensures Names(Entries(repos)) == repos
    ensures Headings(Entries(repos)) == []
  {
    if repos != [] {
      EntriesNames(repos[1..]);
    }
  }

  /** A block lists its heading and then exactly the domain's subdirectories. */
  lemma BlockNames(d: string, subdirs: seq<string>, dom: string -> string)
    ensures Group(subdirs, d, dom) == [] ==> Block(d, subdirs, dom) == []
    ensures Group(subdirs, d, dom) != [] ==> Headings(Block(d, subdirs, dom)) == [d]
    ensures Group(subdirs, d, dom) != [] ==> multiset(Names(Block(d, subdirs, dom))) == multiset(Group(subdirs, d, dom))
  {
    var repos := Group(subdirs, d, dom);
    if repos != [] {
      NamesConcat([Heading(d)], Entries(Sort(repos)));
      HeadingsConcat([Heading(d)], Entries(Sort(repos)));
      EntriesNames(Sort(repos));
    }
  }

  predicate NoDuplicates(ds: seq<string>) {
    forall i, j | 0 <= i < j < |ds| :: ds[i] != ds[j]
  }

  /** How often a name is listed: as often as it occurs, when its domain is among `ds`. */
  lemma {:induction false} NavLinesCount(ds: seq<string>, subdirs: seq<string>, dom: string -> string, x: string)
    requires NoDuplicates(ds)
    ensures multiset(Names(NavLines(ds, subdirs, dom)))[x] == if dom(x) in ds then multiset(subdirs)[x] else 0
  {
    if ds != [] {
      NavLinesCount(ds[1..], subdirs, dom, x);
      NamesConcat(Block(ds[0], subdirs, dom), NavLines(ds[1..], subdirs, dom));
      BlockNames(ds[0], subdirs, dom);
      FilterMultiset(subdirs, (n: string) => dom(n) == ds[0], x);
      assert dom(x) in ds <==> dom(x) == ds[0] || dom(x) in ds[1..];
      assert dom(x) == ds[0] ==> dom(x) !in ds[1..];
    }
  }

  /** With every domain among `ds`, each name is listed as often as it occurs. */
  lemma NavLinesListAll(ds: seq<string>, names: seq<string>, dom: string -> string)
    requires NoDuplicates(ds) && forall x: string :: dom(x) in ds
    ensures multiset(Names(NavLines(ds, Sort(names), dom))) == multiset(names)
  {
    forall x
      ensures multiset(Names(NavLines(ds, Sort(names), dom)))[x] == multiset(names)[x]
    {
      NavLinesCount(ds, Sort(names), dom, x);
    }
  }

  /** Every subdirectory is listed, as often as it occurs and nothing else: once each, for distinct names. */
  lemma NavListsEveryName(names: seq<string>)
    ensures multiset(Names(Nav(names))) == multiset(names)
  {
    NavOrderDistinct();
    AllDomainsListed();
    NavLinesListAll(NavOrder(), names, GetDomain);
  }

  /** Some name belongs to domain `d`. */
  predicate Used(names: seq<string>, d: string, dom: string -> string) {
    exists i | 0 <= i < |names| :: dom(names[i]) == d
  }

  /** The domains of `ds` some name belongs to, in the order of `ds`. */
  function Shown(ds: seq<string>, names: seq<string>, dom: string -> string): seq<string> {
    if ds == [] then []
    else (if Used(names, ds[0], dom) then [ds[0]] else []) + Shown(ds[1..], names, dom)
  }

  /** A domain has a subdirectory exactly when some name maps to it. */
  lemma GroupNonEmpty(names: seq<string>, d: string, dom: string -> string)
    ensures Group(Sort(names), d, dom) != [] <==> Used(names, d, dom)
  {
    var s := Sort(names);
    var g := Group(s, d, dom);
    if g != [] {
      assert multiset(g)[g[0]] > 0;
      InGroup(s, d, dom, g[0]);
      assert g[0] in multiset(names);
      var i :| 0 <= i < |names| && names[i] == g[0];
    }
    if i :| 0 <= i < |names| && dom(names[i]) == d {
      assert multiset(s)[names[i]] > 0;
      FilterMultiset(s, (n: string) => dom(n) == d, names[i]);
      assert multiset(g)[names[i]] > 0;
    }
  }

  /** The headings are the domains of `ds` that some name belongs to, in the order of `ds`. */
  lemma {:induction false} NavLinesHeadings(ds: seq<string>, names: seq<string>, dom: string -> string)
    ensures Headings(NavLines(ds, Sort(names), dom)) == Shown(ds, names, dom)
  {
    if ds != [] {
      NavLinesHeadings(ds[1..], names, dom);
      HeadingsConcat(Block(ds[0], Sort(names), dom), NavLines(ds[1..], Sort(names), dom));
      BlockNames(ds[0], Sort(names), dom);
      GroupNonEmpty(names, ds[0], dom);
    }
  }

  /** The headings shown are, in navigation order, exactly the domains some name belongs to. */
  lemma NavHeadings(names: seq<string>)
    ensures Headings(Nav(names)) == Shown(NavOrder(), names, GetDomain)
  {
    NavLinesHeadings(NavOrder(), names, GetDomain);
  }

  // ---------------------------------------------------------------------------
  // Where entries are placed
  // ---------------------------------------------------------------------------

  /**
   * Reading the lines top to bottom, with `cur` the domain of the last heading
   * and `last` the previous entry under it: every entry sits under the heading
   * of its own domain and after the entries it sorts after.
   */
  predicate WellPlaced(lines: seq<NavLine>, cur: Option<string>, last: Option<string>, dom: string -> string) {
    lines == [] ||
    match lines[0]
    case Heading(d) => WellPlaced(lines[1..], Some(d), None, dom)
    case Entry(n) =>
      cur == Some(dom(n)) && (last.None? || LexLe(last.value, n)) && WellPlaced(lines[1..], cur, Some(n), dom)
  }

  /** Lines that start a new block. */
  predicate Fresh(lines: seq<NavLine>) {
    lines == [] || lines[0].Heading?
  }

  /** Sorted entries of one domain, followed by fresh well-placed lines, are well placed under that domain. */
  lemma {:induction false} EntriesPlaced(repos: seq<string>, rest: seq<NavLine>, d: string, last: Option<string>,
                                         dom: string -> string)
    requires SortedStrings(repos) && forall i | 0 <= i < |repos| :: dom(repos[i]) == d
    requires repos != [] && last.Some? ==> LexLe(last.value, repos[0])
    requires Fresh(rest) && WellPlaced(rest, None, None, dom)
    ensures WellPlaced(Entries(repos) + rest, Some(d), last, dom)
  {
    if repos == [] {
      assert Entries(repos) + rest == rest;
    } else {
      EntriesPlaced(repos[1..], rest, d, Some(repos[0]), dom);
      TailOfConcat(Entries(repos), rest);
    }
  }

  /** A name occurs in a domain's group only when it belongs to that domain. */
  lemma InGroup(subdirs: seq<string>, d: string, dom: string -> string, x: string)
    requires multiset(Group(subdirs, d, dom))[x] > 0
    ensures dom(x) == d && multiset(subdirs)[x] > 0
  {
    FilterMultiset(subdirs, (n: string) => dom(n) == d, x);
  }

  /** The members of a sorted group all belong to its domain. */
  lemma SortedGroup(subdirs: seq<string>, d: string, dom: string -> string)
    ensures forall i | 0 <= i < |Sort(Group(subdirs, d, dom))| :: dom(Sort(Group(subdirs, d, dom))[i]) == d
  {
    var g := Group(subdirs, d, dom);
    var s := Sort(g);
    forall i | 0 <= i < |s|
      ensures dom(s[i]) == d
    {
      assert multiset(s)[s[i]] > 0;
      InGroup(subdirs, d, dom, s[i]);
    }
  }

  /** A block followed by fresh well-placed lines is well placed and fresh again. */
  lemma BlockPlaced(d: string, subdirs: seq<string>, dom: string -> string, rest: seq<NavLine>)
    requires Fresh(rest) && WellPlaced(rest, None, None, dom)
    ensures Fresh(Block(d, subdirs, dom) + rest) && WellPlaced(Block(d, subdirs, dom) + rest, None, None, dom)
  {
    var g := Group(subdirs, d, dom);
    if g != [] {
      SortedGroup(subdirs, d, dom);
      EntriesPlaced(Sort(g), rest, d, None, dom);
      AppendAssoc([Heading(d)], Entries(Sort(g)), rest);
      TailOfConcat([Heading(d)], Entries(Sort(g)) + rest);
    } else {
      assert Block(d, subdirs, dom) + rest == rest;
    }
  }

  lemma {:induction false} NavLinesPlaced(ds: seq<string>, subdirs: seq<string>, dom: string -> string)
    ensures Fresh(NavLines(ds, subdirs, dom)) && WellPlaced(NavLines(ds, subdirs, dom), None, None, dom)
  {
    if ds != [] {
      NavLinesPlaced(ds[1..], subdirs, dom);
      BlockPlaced(ds[0], subdirs, dom, NavLines(ds[1..], subdirs, dom));
    }
  }

  /** Every entry of the navigation sits under its domain's heading, sorted within that domain. */
  lemma NavPlaced(names: seq<string>)
    ensures WellPlaced(Nav(names), None, None, GetDomain)
  {
    NavLinesPlaced(NavOrder(), Sort(names), GetDomain);
  }
}

=== FILE: group_release.dfy ===
/**
 * The batch grouping loop of run.py (`run_group_release`): a cursor over a
 * fixed item list, persisted in a checkpoint that an external classifier
 * (the oracle) rewrites. Every iteration re-reads the persisted offset, slices
 * the next batch from it, and hands the batch to the oracle; a non-zero result
 * stops the loop. The loop has no stall check of its own, so it is modelled
 * with a fuel bound: one unit per iteration, `OutOfFuel` when it runs out.
 */
module GroupRelease {
  import opened Text

  /** The parsed release: the fixed item list and its provenance. */
  datatype RawData<T> = RawData(version: string, sources: seq<string>, items: seq<T>)

  /** The persisted grouping state; `processedOffset` is absent when the key is missing. */
  datatype Checkpoint<G> = Checkpoint(version: string, sources: seq<string>, groups: seq<G>, processedOffset: Option<nat>)

  /** What the loop hands to the oracle: the slice, its absolute offset and the grand total. */
  datatype Batch<T> = Batch(items: seq<T>, offset: nat, total: nat)

  /** One oracle invocation: the checkpoint it starts from and the batch it classifies. */
  datatype Call<T, G> = Call(input: Checkpoint<G>, batch: Batch<T>)

  /**
   * How a run ends: an exit code with the final persisted state, the oracle
   * calls made in order, and the remaining count reported in single-step mode;
   * or the fuel bound reached while the loop was still going.
   */
  datatype Outcome<T, G> =
    | Exited(code: int, store: Option<Checkpoint<G>>, calls: seq<Call<T, G>>, remaining: Option<int>)
    | OutOfFuel(store: Option<Checkpoint<G>>, calls: seq<Call<T, G>>)

  /** The state used when no checkpoint has been persisted yet. */
  function Fresh<T(==), G(==)>(raw: RawData<T>): Checkpoint<G> {
    Checkpoint(raw.version, raw.sources, [], Some(0))
  }

  function Load<T(==), G(==)>(store: Option<Checkpoint<G>>, raw: RawData<T>): (cp: Checkpoint<G>)
    ensures store.None? ==> cp.groups == [] && OffsetOf(cp) == 0
    ensures store.None? ==> cp.version == raw.version && cp.sources == raw.sources
    ensures store.Some? ==> cp == store.value
  {
    match store
    case Some(cp) => cp
    case None => Fresh(raw)
  }

  /** `groups_data.get("processed_offset", 0)` */
  function OffsetOf<G>(cp: Checkpoint<G>): nat {
    cp.processedOffset.GetOr(0)
  }

  /** The call the loop makes from checkpoint `cp`: `items[offset:offset + size]`. */
  function BatchFrom<T(==), G(==)>(raw: RawData<T>, cp: Checkpoint<G>, size: nat): Batch<T>
    requires OffsetOf(cp) <= |raw.items|
  {
    var o := OffsetOf(cp);
    Batch(raw.items[o..Min(o + size, |raw.items|)], o, |raw.items|)
  }

  /** The call starts from an unfinished checkpoint and carries exactly the slice at its offset. */
  predicate SlicedAtOffset<T(==), G(==)>(raw: RawData<T>, size: nat, call: Call<T, G>) {
    var o := OffsetOf(call.input);
    && o < |raw.items|
    && call.batch.offset == o
    && call.batch.total == |raw.items|
    && call.batch.items == raw.items[o..Min(o + size, |raw.items|)]
  }

  /** Every call but the last succeeded, and the next call starts from what it persisted. */
  predicate Chained<T(==), G(==)>(calls: seq<Call<T, G>>, oracle: (Checkpoint<G>, Batch<T>) -> (int, Checkpoint<G>)) {
    |calls| >= 2 ==> oracle(calls[0].input, calls[0].batch) == (0, calls[1].input) && Chained(calls[1..], oracle)
  }

  /** What one iteration decides: the run ends here, or the oracle succeeded and the loop goes on. */
  datatype Next<T, G> = Done(outcome: Outcome<T, G>) | Continue(call: Call<T, G>, written: Checkpoint<G>)

  /** One iteration of the loop: re-read the offset, stop when done, else call the oracle on the next slice. */
  function Iteration<T(==), G(==)>(raw: RawData<T>, store: Option<Checkpoint<G>>, size: nat, all: bool,
                                   oracle: (Checkpoint<G>, Batch<T>) -> (int, Checkpoint<G>)): (n: Next<T, G>)
    ensures OffsetOf(Load(store, raw)) >= |raw.items| <==> n == Done(Exited(0, store, [], None))
    ensures n.Continue? ==>
      && all
      && n.call.input == Load(store, raw)
      && SlicedAtOffset(raw, size, n.call)
      && oracle(n.call.input, n.call.batch) == (0, n.written)
    ensures n.Done? && n.outcome.calls != [] ==>
      var call := n.outcome.calls[0];
      var (code, written) := oracle(call.input, call.batch);
      && n.outcome.Exited?
      && |n.outcome.calls| == 1
      && call.input == Load(store, raw)
      && SlicedAtOffset(raw, size, call)
      && n.outcome.store == Some(written)
      && n.outcome.code == code
      && (code == 0 ==> !all && n.outcome.remaining == Some(|raw.items| - written.processedOffset.GetOr(OffsetOf(call.input) + size)))
      && (code != 0 ==> n.outcome.remaining.None?)
  {
    var cp := Load(store, raw);
    var offset := OffsetOf(cp);
    if offset >= |raw.items| then Done(Exited(0, store, [], None))
    else
      var batch := BatchFrom(raw, cp, size);
      var call := Call(cp, batch);
      var (code, written) := oracle(cp, batch);
      if code != 0 then Done(Exited(code, Some(written), [call], None))
      else if !all then Done(Exited(0, Some(written), [call], Some(|raw.items| - written.processedOffset.GetOr(offset + size))))
      else Continue(call, written)
  }

  /** The loop of `run_group_release` from persisted state `store`, for at most `fuel` iterations. */
  function Loop<T(==), G(==)>(raw: RawData<T>, store: Option<Checkpoint<G>>, size: nat, all: bool,
                      oracle: (Checkpoint<G>, Batch<T>) -> (int, Checkpoint<G>), fuel: nat): (r: Outcome<T, G>)
    decreases fuel
    ensures fuel > 0 && OffsetOf(Load(store, raw)) >= |raw.items| ==> r == Exited(0, store, [], None)
    ensures fuel > 0 && OffsetOf(Load(store, raw)) < |raw.items| ==> r.calls != []
    ensures r.calls != [] ==> r.calls[0].input == Load(store, raw)
    ensures r.OutOfFuel? ==> all || fuel == 0
    ensures !all ==> |r.calls| <= 1
  {
    if fuel == 0 then OutOfFuel(store, [])
    else
      match Iteration(raw, store, size, all, oracle)
      case Done(outcome) => outcome
      case Continue(call, written) =>
        var rest := Loop(raw, Some(written), size, all, oracle, fuel - 1);
        rest.(calls := [call] + rest.calls)
  }

  /** Every batch the loop hands out is the slice of the item list at the offset persisted before the call. */
  lemma {:induction false} LoopCallsSliced<T, G>(raw: RawData<T>, store: Option<Checkpoint<G>>, size: nat, all: bool,
                                                 oracle: (Checkpoint<G>, Batch<T>) -> (int, Checkpoint<G>), fuel: nat)
    ensures forall i :: 0 <= i < |Loop(raw, store, size, all, oracle, fuel).calls| ==>
      SlicedAtOffset(raw, size, Loop(raw, store, size, all, oracle, fuel).calls[i])
    decreases fuel
  {
    if fuel > 0 {
      var n := Iteration(raw, store, size, all, oracle);
      if n.Continue? {
        LoopCallsSliced(raw, Some(n.written), size, all, oracle, fuel - 1);
        var rest := Loop(raw, Some(n.written), size, all, oracle, fuel - 1);
        var calls := [n.call] + rest.calls;
        assert Loop(raw, store, size, all, oracle, fuel).calls == calls;
        forall i | 0 <= i < |calls|
          ensures SlicedAtOffset(raw, size, calls[i])
        {
          if i > 0 {
            assert calls[i] == rest.calls[i - 1];
            assert SlicedAtOffset(raw, size, rest.calls[i - 1]);
          } else {
            assert calls[i] == n.call;
            assert SlicedAtOffset(raw, size, n.call);
          }
        }
      }
    }
  }

  /**
   * Calls are chained through the persisted state: every call but the last
   * reported success, and the next call starts from the checkpoint it wrote.
   */
  lemma {:induction false} LoopChained<T, G>(raw: RawData<T>, store: Option<Checkpoint<G>>, size: nat, all: bool,
                                             oracle: (Checkpoint<G>, Batch<T>) -> (int, Checkpoint<G>), fuel: nat)
    ensures Chained(Loop(raw, store, size, all, oracle, fuel).calls, oracle)
    decreases fuel
  {
    if fuel > 0 {
      var n := Iteration(raw, store, size, all, oracle);
      if n.Continue? {
        LoopChained(raw, Some(n.written), size, all, oracle, fuel - 1);
        var rest := Loop(raw, Some(n.written), size, all, oracle, fuel - 1);
        assert ([n.call] + rest.calls)[1..] == rest.calls;
      }
    }
  }

  /**
   * How a run that called the oracle exits: with the oracle's last exit code
   * and the checkpoint it wrote; after a success, with every item processed
   * when draining, or with the remaining count in single-step mode.
   */
  predicate ExitsAfterLastCall<T(==), G(==)>(raw: RawData<T>, size: nat, all: bool,
                                     oracle: (Checkpoint<G>, Batch<T>) -> (int, Checkpoint<G>), r: Outcome<T, G>) {
    r.Exited? && r.calls != [] ==>
      var last := r.calls[|r.calls| - 1];
      var (code, written) := oracle(last.input, last.batch);
      && r.store == Some(written)
      && r.code == code
      && (code == 0 && all ==> OffsetOf(written) >= |raw.items| && r.remaining.None?)
      && (code == 0 && !all ==> r.remaining == Some(|raw.items| - written.processedOffset.GetOr(OffsetOf(last.input) + size)))
      && (code != 0 ==> r.remaining.None?)
  }

  lemma {:induction false} LoopExit<T, G>(raw: RawData<T>, store: Option<Checkpoint<G>>, size: nat, all: bool,
                                          oracle: (Checkpoint<G>, Batch<T>) -> (int, Checkpoint<G>), fuel: nat)
    ensures ExitsAfterLastCall(raw, size, all, oracle, Loop(raw, store, size, all, oracle, fuel))
    decreases fuel
  {
    if fuel > 0 {
      var n := Iteration(raw, store, size, all, oracle);
      if n.Continue? {
        LoopExit(raw, Some(n.written), size, all, oracle, fuel - 1);
        var rest := Loop(raw, Some(n.written), size, all, oracle, fuel - 1);
        assert Load(Some(n.written), raw) == n.written;
        ExitAfterSuccess(raw, size, all, oracle, n.call, n.written, rest);
      }
    }
  }

  /** A successful call in front of a run keeps the run's exit, and is itself the last call when the run made none. */
  lemma ExitAfterSuccess<T, G>(raw: RawData<T>, size: nat, all: bool,
                               oracle: (Checkpoint<G>, Batch<T>) -> (int, Checkpoint<G>),
                               call: Call<T, G>, written: Checkpoint<G>, rest: Outcome<T, G>)
    requires ExitsAfterLastCall(raw, size, all, oracle, rest)
    requires all && oracle(call.input, call.batch) == (0, written)
    requires rest.Exited? && rest.calls == [] ==> rest == Exited(0, Some(written), [], None) && OffsetOf(written) >= |raw.items|
    ensures ExitsAfterLastCall(raw, size, all, oracle, rest.(calls := [call] + rest.calls))
  {
    var r := rest.(calls := [call] + rest.calls);
    if rest.calls == [] {
      assert r.calls[|r.calls| - 1] == call;
    } else {
      assert r.calls[|r.calls| - 1] == rest.calls[|rest.calls| - 1];
    }
  }

  /** `run_group_release`: exit code 1 when the parsed items are missing, else the loop. */
  function RunGroupRelease<T(==), G(==)>(raw: Option<RawData<T>>, store: Option<Checkpoint<G>>, size: nat, all: bool,
                                 oracle: (Checkpoint<G>, Batch<T>) -> (int, Checkpoint<G>), fuel: nat): (r: Outcome<T, G>)
    ensures raw.None? ==> r == Exited(1, store, [], None)
    ensures raw.Some? ==> r == Loop(raw.value, store, size, all, oracle, fuel)
  {
    match raw
    case None => Exited(1, store, [], None)
    case Some(data) => Loop(data, store, size, all, oracle, fuel)
  }

  // ---------------------------------------------------------------------------
  // Termination, and the lack of a stall check
  // ---------------------------------------------------------------------------

  /**
   * With an oracle that moves the persisted offset forward whenever it reports
   * success on an unfinished checkpoint, draining needs at most one iteration
   * per unprocessed item plus the final check.
   */
  lemma {:induction false} AdvancingOracleFinishes<T, G>(raw: RawData<T>, store: Option<Checkpoint<G>>, size: nat,
                                     oracle: (Checkpoint<G>, Batch<T>) -> (int, Checkpoint<G>), fuel: nat)
    requires forall cp: Checkpoint<G>, b: Batch<T> ::
      OffsetOf(cp) < |raw.items| && oracle(cp, b).0 == 0 ==> OffsetOf(oracle(cp, b).1) > OffsetOf(cp)
    requires fuel > 0 && fuel > |raw.items| - OffsetOf(Load(store, raw))
    ensures Loop(raw, store, size, true, oracle, fuel).Exited?
    decreases fuel
  {
    var cp := Load(store, raw);
    if OffsetOf(cp) < |raw.items| {
      var batch := BatchFrom(raw, cp, size);
      var (code, written) := oracle(cp, batch);
      if code == 0 {
        assert OffsetOf(written) > OffsetOf(cp);
        AdvancingOracleFinishes(raw, Some(written), size, oracle, fuel - 1);
      }
    }
  }

  /**
   * An oracle that reports success but leaves the checkpoint as it was makes
   * the drain loop spin: no fuel is enough, because nothing checks for a stall.
   */
  lemma {:induction false} StalledOracleSpins<T, G>(raw: RawData<T>, store: Option<Checkpoint<G>>, size: nat,
                                 oracle: (Checkpoint<G>, Batch<T>) -> (int, Checkpoint<G>), fuel: nat)
    requires forall cp: Checkpoint<G>, b: Batch<T> :: oracle(cp, b) == (0, cp)
    requires OffsetOf(Load(store, raw)) < |raw.items|
    ensures Loop(raw, store, size, true, oracle, fuel).OutOfFuel?
    ensures |Loop(raw, store, size, true, oracle, fuel).calls| == fuel
    decreases fuel
  {
    if fuel > 0 {
      var cp := Load(store, raw);
      var batch := BatchFrom(raw, cp, size);
      assert oracle(cp, batch) == (0, cp);
      assert Load(Some(cp), raw) == cp;
      StalledOracleSpins(raw, Some(cp), size, oracle, fuel - 1);
    }
  }

  // ---------------------------------------------------------------------------
  // An oracle that does what it is asked: append and advance
  // ---------------------------------------------------------------------------

  /** Appends the groups of the batch and advances the offset by the batch length. */
  function Honest<T(==), G(==)>(classify: seq<T> -> seq<G>): (Checkpoint<G>, Batch<T>) -> (int, Checkpoint<G>) {
    (cp: Checkpoint<G>, b: Batch<T>) =>
      (0, cp.(groups := cp.groups + classify(b.items), processedOffset := Some(b.offset + |b.items|)))
  }

  /** Classification one item at a time: the groups of `xs` are `g` of each item, in order. */
  function EachItem<T, G>(g: T -> G, xs: seq<T>): (r: seq<G>)
    ensures |r| == |xs|
    ensures forall i :: 0 <= i < |xs| ==> r[i] == g(xs[i])
  {
    if xs == [] then [] else [g(xs[0])] + EachItem(g, xs[1..])
  }

  lemma SliceSplit<T>(s: seq<T>, i: nat, j: nat, k: nat)
    requires i <= j <= k <= |s|
    ensures s[i..k] == s[i..j] + s[j..k]
  {
  }

  /** `EachItem` as a batch classifier. */
  function PerItem<T, G>(g: T -> G): seq<T> -> seq<G> {
    (xs: seq<T>) => EachItem(g, xs)
  }

  /** Classifying a concatenation item by item classifies each part. */
  lemma EachItemConcat<T, G>(g: T -> G, a: seq<T>, b: seq<T>)
    ensures EachItem(g, a + b) == EachItem(g, a) + EachItem(g, b)
  {
  }

  /**
   * One step from a checkpoint at offset `k < total` classifies exactly
   * `items[k .. min(k + size, total))`, persists offset `min(k + size, total)`
   * with the batch's groups appended, and reports what remains.
   */
  lemma HonestSingleStep<T, G>(raw: RawData<T>, cp: Checkpoint<G>, size: nat, classify: seq<T> -> seq<G>)
    requires OffsetOf(cp) < |raw.items|
    ensures var r := Loop(raw, Some(cp), size, false, Honest(classify), 1);
      var k := OffsetOf(cp);
      var end := Min(k + size, |raw.items|);
      && r.Exited? && r.code == 0
      && r.calls == [Call(cp, Batch(raw.items[k..end], k, |raw.items|))]
      && r.store == Some(cp.(groups := cp.groups + classify(raw.items[k..end]), processedOffset := Some(end)))
      && r.remaining == Some(|raw.items| - end)
  {
  }

  /**
   * A drain run under an oracle that, from every unfinished checkpoint
   * satisfying `inv`, succeeds, keeps `inv` and advances the offset, ends with
   * exit code 0 and a persisted checkpoint that satisfies `inv` and is
   * finished.
   */
  lemma {:induction false} InvariantDrain<T, G>(raw: RawData<T>, store: Option<Checkpoint<G>>, size: nat,
                                                oracle: (Checkpoint<G>, Batch<T>) -> (int, Checkpoint<G>),
                                                inv: Checkpoint<G> -> bool, fuel: nat)
    requires inv(Load(store, raw))
    requires forall c: Checkpoint<G> | inv(c) && OffsetOf(c) < |raw.items| ::
      && oracle(c, BatchFrom(raw, c, size)).0 == 0
      && inv(oracle(c, BatchFrom(raw, c, size)).1)
      && OffsetOf(oracle(c, BatchFrom(raw, c, size)).1) > OffsetOf(c)
    requires fuel > 0 && fuel > |raw.items| - OffsetOf(Load(store, raw))
    ensures var r := Loop(raw, store, size, true, oracle, fuel);
      && r.Exited? && r.code == 0
      && (store.Some? ==> r.store.Some?)
      && inv(Load(r.store, raw))
      && OffsetOf(Load(r.store, raw)) >= |raw.items|
    decreases fuel
  {
    var cp := Load(store, raw);
    if OffsetOf(cp) < |raw.items| {
      var batch := BatchFrom(raw, cp, size);
      var written := oracle(cp, batch).1;
      assert Iteration(raw, store, size, true, oracle) == Continue(Call(cp, batch), written);
      assert Load(Some(written), raw) == written;
      InvariantDrain(raw, Some(written), size, oracle, inv, fuel - 1);
    }
  }

  /** The honest drain's invariant: the groups of `items[base offset .. offset)` have been appended to the base. */
  predicate HonestInv<T(==), G(==)>(raw: RawData<T>, base: Checkpoint<G>, g: T -> G, c: Checkpoint<G>) {
    && c.processedOffset.Some?
    && OffsetOf(base) <= OffsetOf(c) <= |raw.items|
    && c.groups == base.groups + EachItem(g, raw.items[OffsetOf(base)..OffsetOf(c)])
  }

  function HonestInvOf<T(==), G(==)>(raw: RawData<T>, base: Checkpoint<G>, g: T -> G): Checkpoint<G> -> bool {
    (c: Checkpoint<G>) => HonestInv(raw, base, g, c)
  }

  /** The invariant holds at the start and every honest call keeps it, as the invariant drain lemma requires. */
  lemma HonestInvHolds<T, G>(raw: RawData<T>, base: Checkpoint<G>, g: T -> G, size: nat)
    requires size > 0
    requires base.processedOffset.Some?
    requires OffsetOf(base) <= |raw.items|
    ensures HonestInvOf(raw, base, g)(Load(Some(base), raw))
    ensures forall c: Checkpoint<G> | HonestInvOf(raw, base, g)(c) && OffsetOf(c) < |raw.items| ::
      && Honest(PerItem(g))(c, BatchFrom(raw, c, size)).0 == 0
      && HonestInvOf(raw, base, g)(Honest(PerItem(g))(c, BatchFrom(raw, c, size)).1)
      && OffsetOf(Honest(PerItem(g))(c, BatchFrom(raw, c, size)).1) > OffsetOf(c)
  {
    assert raw.items[OffsetOf(base)..OffsetOf(base)] == [];
    assert base.groups + [] == base.groups;
    forall c: Checkpoint<G> | HonestInvOf(raw, base, g)(c) && OffsetOf(c) < |raw.items|
      ensures && Honest(PerItem(g))(c, BatchFrom(raw, c, size)).0 == 0
              && HonestInvOf(raw, base, g)(Honest(PerItem(g))(c, BatchFrom(raw, c, size)).1)
              && OffsetOf(Honest(PerItem(g))(c, BatchFrom(raw, c, size)).1) > OffsetOf(c)
    {
      HonestKeepsInv(raw, base, g, size, c);
    }
  }

  /** A finished checkpoint satisfying the invariant holds the groups of every item after the base offset. */
  lemma HonestInvFinished<T, G>(raw: RawData<T>, base: Checkpoint<G>, g: T -> G, c: Checkpoint<G>)
    requires HonestInvOf(raw, base, g)(Load(Some(c), raw))
    requires OffsetOf(Load(Some(c), raw)) >= |raw.items|
    ensures OffsetOf(c) == |raw.items|
    ensures c.groups == base.groups + EachItem(g, raw.items[OffsetOf(base)..])
  {
    assert raw.items[OffsetOf(base)..|raw.items|] == raw.items[OffsetOf(base)..];
  }

  /** One honest call with a positive batch size keeps the invariant and advances. */
  lemma HonestKeepsInv<T, G>(raw: RawData<T>, base: Checkpoint<G>, g: T -> G, size: nat, c: Checkpoint<G>)
    requires size > 0
    requires HonestInv(raw, base, g, c)
    requires OffsetOf(c) < |raw.items|
    ensures var out := Honest(PerItem(g))(c, BatchFrom(raw, c, size));
      && out.0 == 0
      && HonestInv(raw, base, g, out.1)
      && OffsetOf(out.1) > OffsetOf(c)
  {
    var k, o := OffsetOf(base), OffsetOf(c);
    var e := Min(o + size, |raw.items|);
    var batch := BatchFrom(raw, c, size);
    assert batch.items == raw.items[o..e];
    var w := c.(groups := c.groups + EachItem(g, raw.items[o..e]), processedOffset := Some(e));
    assert Honest(PerItem(g))(c, batch) == (0, w);
    SliceSplit(raw.items, k, o, e);
    EachItemConcat(g, raw.items[k..o], raw.items[o..e]);
    AppendAssoc(base.groups, EachItem(g, raw.items[k..o]), EachItem(g, raw.items[o..e]));
  }

  /**
   * Draining with a positive batch size and an item-by-item classifier
   * appends the groups of exactly the unprocessed items, once each and in
   * order, and leaves the offset at the total: nothing is reclassified or
   * skipped.
   */
  lemma HonestDrain<T, G>(raw: RawData<T>, cp: Checkpoint<G>, size: nat, g: T -> G, fuel: nat)
    requires size > 0
    requires cp.processedOffset.Some?
    requires OffsetOf(cp) <= |raw.items|
    requires fuel > |raw.items| - OffsetOf(cp)
    ensures var r := Loop(raw, Some(cp), size, true, Honest(PerItem(g)), fuel);
      && r.Exited? && r.code == 0
      && r.store.Some?
      && OffsetOf(r.store.value) == |raw.items|
      && r.store.value.groups == cp.groups + EachItem(g, raw.items[OffsetOf(cp)..])
  {
    HonestInvHolds(raw, cp, g, size);
    InvariantDrain(raw, Some(cp), size, Honest(PerItem(g)), HonestInvOf(raw, cp, g), fuel);
    var r := Loop(raw, Some(cp), size, true, Honest(PerItem(g)), fuel);
    HonestInvFinished(raw, cp, g, r.store.value);
  }

  /** A batch size of 0 gives the oracle empty batches, so even an honest oracle never advances. */
  lemma ZeroBatchSizeSpins<T, G>(raw: RawData<T>, cp: Checkpoint<G>, g: T -> G, fuel: nat)
    requires OffsetOf(cp) < |raw.items|
    requires cp.processedOffset.Some?
    ensures Loop(raw, Some(cp), 0, true, Honest(PerItem(g)), fuel).OutOfFuel?
    decreases fuel
  {
    if fuel > 0 {
      var batch := BatchFrom(raw, cp, 0);
      assert batch.items == [];
      var written := cp.(groups := cp.groups + PerItem(g)([]));
      assert Honest(PerItem(g))(cp, batch) == (0, written);
      ZeroBatchSizeSpins(raw, written, g, fuel - 1);
    }
  }

  /**
   * The resumption scenario: 120 items, 100 already processed, batch size 50,
   * one step. The step classifies items 100..119 only, persists offset 120
   * and reports nothing remaining.
   */
  lemma ResumeScenario<G>(groups: seq<G>, classify: seq<int> -> seq<G>)
    ensures var raw := RawData("3.0.0", [], seq(120, i => i));
      var cp := Checkpoint("3.0.0", [], groups, Some(100));
      var r := Loop(raw, Some(cp), 50, false, Honest(classify), 1);
      && r.Exited? && r.code == 0
      && |r.calls| == 1 && r.calls[0].batch.items == seq(20, i => 100 + i)
      && r.store.value.processedOffset == Some(120)
      && r.remaining == Some(0)
  {
    var raw := RawData("3.0.0", [], seq(120, i => i));
    var cp := Checkpoint("3.0.0", [], groups, Some(100));
    HonestSingleStep(raw, cp, 50, classify);
    assert raw.items[100..120] == seq(20, i => 100 + i);
  }
}

=== FILE: issue_column.dfy ===
/**
 * The PR-table column adder of scripts/add_related_issue_column.py: in a
 * Markdown report, every table whose header has a `PR` and a `Description`
 * column (and no `Related Issue` column yet) gets a `Related Issue` column;
 * each data row's new cell links the issue its pull request closes. Fetching a
 * pull request (the `gh` CLI and the on-disk cache) is a lookup function
 * parameter; the issue-number extraction from a pull request's body is
 * modelled on its own.
 */
module IssueColumn {
  import opened Text

  // ---------------------------------------------------------------------------
  // Character classes
  // ---------------------------------------------------------------------------

  predicate NotSlash(c: char) { c != '/' }

  predicate NotCloseBracket(c: char) { c != ']' }

  /** `s` at `p` equals the lower-case word `w` up to ASCII case, as under `re.IGNORECASE`. */
  predicate WordAt(s: string, p: nat, w: string) {
    p + |w| <= |s| && forall i | 0 <= i < |w| :: LowerChar(s[p + i]) == w[i]
  }

  // ---------------------------------------------------------------------------
  // The issue a pull request closes
  // ---------------------------------------------------------------------------

  /** The closing keywords, in the order the alternation tries them. */
  const Keywords: seq<string> := ["resolves", "fixes", "closes", "fix", "close", "resolve"]

  /** A character class the patterns repeat with `+`. */
  datatype Class = Space | NoSlash

  predicate InClass(c: char, cls: Class) {
    match cls
    case Space => IsSpace(c)
    case NoSlash => NotSlash(c)
  }

  /** The characters a `class+` step takes. */
  function Takes(cls: Class): char -> bool {
    c => InClass(c, cls)
  }

  /** One step of a pattern after its keyword: a literal (ignoring case) or `class+`. */
  datatype Step = Word(w: string) | Plus(cls: Class)

  /** The two patterns, tried in this order: `keyword #N`, then `keyword https://github.com/o/r/issues/N`. */
  datatype Pattern = HashRef | IssueUrl

  /** The steps between a pattern's keyword and its captured `(\d+)`. */
  function Steps(pat: Pattern): seq<Step> {
    match pat
    case HashRef => [Plus(Space), Word("#")]
    case IssueUrl =>
      [Plus(Space), Word("https://github.com/"), Plus(NoSlash), Word("/"), Plus(NoSlash), Word("/issues/")]
  }

  /**
   * The steps matched from `p` on, then the capture `(\d+)`; the result is
   * where the captured digits start. Each `+` takes its whole run: no step
   * after a run can begin with a character of that run's class, so the
   * backtracking matcher never gives any of it back.
   */
  function MatchSteps(s: string, p: nat, steps: seq<Step>): (r: Option<nat>)
    requires p <= |s|
    ensures r.Some? ==> r.value < |s|
    decreases |steps|
  {
    if steps == [] then
      if Run(s, p, IsDigit) >= 1 then Some(p) else None
    else match steps[0]
      case Word(w) =>
        if WordAt(s, p, w) then MatchSteps(s, p + |w|, steps[1..]) else None
      case Plus(cls) =>
        var n := Run(s, p, Takes(cls));
        if n >= 1 then MatchSteps(s, p + n, steps[1..]) else None
  }

  /**
   * The pattern matched at `p` with the first of the keywords `kws` that
   * lets the rest match; the result is where the captured issue number starts.
   */
  function MatchWith(s: string, p: nat, pat: Pattern, kws: seq<string>): (r: Option<nat>)
    ensures r.Some? ==> r.value < |s|
    decreases |kws|
  {
    if kws == [] then None
    else if WordAt(s, p, kws[0]) && MatchSteps(s, p + |kws[0]|, Steps(pat)).Some? then
      MatchSteps(s, p + |kws[0]|, Steps(pat))
    else MatchWith(s, p, pat, kws[1..])
  }

  /** The pattern matched at `p`, its keyword alternatives tried in order. */
  function MatchAt(s: string, p: nat, pat: Pattern): Option<nat> {
    MatchWith(s, p, pat, Keywords)
  }

  /** The first `f(q)` that is `Some`, for `q` from `p` up to `n`. */
  function First<T>(f: nat -> Option<T>, p: nat, n: nat): Option<T>
    decreases n + 1 - p
  {
    if p > n then None
    else if f(p).Some? then f(p)
    else First(f, p + 1, n)
  }

  /** `First` finds a position that answers, and nothing answers before it. */
  lemma {:induction false} FirstLeftmost<T>(f: nat -> Option<T>, p: nat, n: nat)
    ensures First(f, p, n).Some? ==> exists q | p <= q <= n ::
      f(q) == First(f, p, n) && forall q' | p <= q' < q :: f(q').None?
    ensures First(f, p, n).None? <==> forall q | p <= q <= n :: f(q).None?
    decreases n + 1 - p
  {
    if p <= n && f(p).None? {
      FirstLeftmost(f, p + 1, n);
      if First(f, p, n).Some? {
        var q :| p + 1 <= q <= n && f(q) == First(f, p + 1, n) && forall q' | p + 1 <= q' < q :: f(q').None?;
        assert forall q' | p <= q' < q :: f(q').None?;
      }
    }
  }

  lemma {:induction false} FirstBound(f: nat -> Option<nat>, p: nat, n: nat, m: nat)
    requires forall q | p <= q <= n :: f(q).Some? ==> f(q).value < m
    ensures First<nat>(f, p, n).Some? ==> First<nat>(f, p, n).value < m
    decreases n + 1 - p
  {
    if p <= n {
      FirstBound(f, p + 1, n, m);
    }
  }

  lemma {:induction false} FirstSame<T>(f: nat -> Option<T>, g: nat -> Option<T>, p: nat, n: nat)
    requires forall q | p <= q <= n :: f(q) == g(q)
    ensures First(f, p, n) == First(g, p, n)
    decreases n + 1 - p
  {
    if p <= n {
      FirstSame(f, g, p + 1, n);
    }
  }

  /** The pattern's match at each position of `s`. */
  function Matcher(s: string, pat: Pattern): nat -> Option<nat> {
    (q: nat) => MatchAt(s, q, pat)
  }

  /** `re.search`: the match at the leftmost position of `s`. */
  function Search(s: string, pat: Pattern): Option<nat> {
    First<nat>(Matcher(s, pat), 0, |s|)
  }

  /** A search result is where a capture starts in `s`. */
  lemma SearchBound(s: string, pat: Pattern)
    ensures Search(s, pat).Some? ==> Search(s, pat).value < |s|
  {
    forall q: nat | q <= |s|
      ensures Matcher(s, pat)(q).Some? ==> Matcher(s, pat)(q).value < |s|
    {
    }
    FirstBound(Matcher(s, pat), 0, |s|, |s|);
  }

  /** A search result is the match at some position, and nothing matches before it. */
  lemma SearchLeftmost(s: string, pat: Pattern)
    ensures Search(s, pat).Some? ==> exists q | 0 <= q <= |s| ::
      MatchAt(s, q, pat) == Search(s, pat) && forall q' | 0 <= q' < q :: MatchAt(s, q', pat).None?
    ensures Search(s, pat).None? <==> forall q | 0 <= q <= |s| :: MatchAt(s, q, pat).None?
  {
    FirstLeftmost(Matcher(s, pat), 0, |s|);
    assert forall q: nat :: Matcher(s, pat)(q) == MatchAt(s, q, pat);
  }

  /** The issue number a pattern finds in `body`, if it matches anywhere. */
  function Found(body: string, pat: Pattern): (r: Option<nat>)
    ensures r.Some? <==> Search(body, pat).Some?
  {
    SearchBound(body, pat);
    if Search(body, pat).Some? then Some(NumberAt(body, Search(body, pat).value)) else None
  }

  /**
   * The issue a pull request closes: nothing unless it was merged; otherwise
   * the number of the leftmost `keyword #N`, and only when there is none, of
   * the leftmost `keyword https://github.com/o/r/issues/N`.
   */
  function RelatedIssue(merged: bool, body: string): (r: Option<nat>)
    ensures !merged ==> r.None?
  {
    if !merged then None
    else if Found(body, HashRef).Some? then Found(body, HashRef)
    else Found(body, IssueUrl)
  }

  /**
   * Which match decides the issue: the leftmost `keyword #N` whenever there is
   * one, and the leftmost issue URL only when there is none.
   */
  lemma RelatedIssueLeftmost(merged: bool, body: string, pat: Pattern)
    requires merged
    requires pat == HashRef || forall q | 0 <= q <= |body| :: MatchAt(body, q, HashRef).None?
    ensures (exists q | 0 <= q <= |body| :: MatchAt(body, q, pat).Some?) ==>
      exists q | 0 <= q <= |body| :: MatchAt(body, q, pat).Some? &&
        RelatedIssue(merged, body) == Some(NumberAt(body, MatchAt(body, q, pat).value)) &&
        forall q' | 0 <= q' < q :: MatchAt(body, q', pat).None?
  {
    SearchLeftmost(body, HashRef);
    SearchLeftmost(body, pat);
  }

  /** A pattern finds an issue exactly when it matches at some position. */
  lemma FoundAny(body: string, pat: Pattern)
    ensures Found(body, pat).Some? <==> exists q | 0 <= q <= |body| :: MatchAt(body, q, pat).Some?
  {
    SearchLeftmost(body, pat);
  }

  /**
   * A merged pull request yields an issue exactly when some position of its
   * body matches one of the patterns.
   */
  lemma RelatedIssueFound(merged: bool, body: string)
    ensures RelatedIssue(merged, body).Some? <==>
      merged && ((exists q | 0 <= q <= |body| :: MatchAt(body, q, HashRef).Some?) ||
                 (exists q | 0 <= q <= |body| :: MatchAt(body, q, IssueUrl).Some?))
  {
    FoundAny(body, HashRef);
    FoundAny(body, IssueUrl);
  }

  // ---------------------------------------------------------------------------
  // Reading a closing reference back
  // ---------------------------------------------------------------------------

  /** A text with no upper-case ASCII letter: matching it ignoring case is matching it exactly. */
  predicate NoUpper(w: string) { forall i | 0 <= i < |w| :: !('A' <= w[i] <= 'Z') }

  /** A word of lower-case ASCII letters, as every closing keyword is. */
  predicate LowerWord(w: string) { forall i | 0 <= i < |w| :: 'a' <= w[i] <= 'z' }

  lemma KeywordsLower()
    ensures forall k | k in Keywords :: LowerWord(k)
  {
  }

  /** A literal step over text that holds it. */
  lemma {:induction false} WordStep(s: string, p: nat, w: string, t: string, more: seq<Step>)
    requires p <= |s| && s[p..] == w + t && NoUpper(w)
    ensures p + |w| <= |s| && s[p + |w|..] == t
    ensures MatchSteps(s, p, [Word(w)] + more) == MatchSteps(s, p + |w|, more)
  {
    assert forall i | 0 <= i < |w| :: s[p + i] == s[p..][i];
    assert s[p + |w|..] == s[p..][|w|..];
    assert ([Word(w)] + more)[0] == Word(w) && ([Word(w)] + more)[1..] == more;
  }

  /** A `class+` step over a non-empty run of the class that the text after it does not continue. */
  lemma {:induction false} PlusStep(s: string, p: nat, cls: Class, w: string, t: string, more: seq<Step>)
    requires p <= |s| && s[p..] == w + t && w != []
    requires forall i | 0 <= i < |w| :: InClass(w[i], cls)
    requires t == [] || !InClass(t[0], cls)
    ensures p + |w| <= |s| && s[p + |w|..] == t
    ensures MatchSteps(s, p, [Plus(cls)] + more) == MatchSteps(s, p + |w|, more)
  {
    assert forall i | 0 <= i < |w| :: s[p + i] == s[p..][i];
    assert s[p + |w|..] == s[p..][|w|..];
    if t != [] {
      assert s[p + |w|] == t[0];
    }
    RunExact(s, p, |w|, Takes(cls));
    assert ([Plus(cls)] + more)[0] == Plus(cls) && ([Plus(cls)] + more)[1..] == more;
  }

  /** The capture `(\d+)` over a run of digits that the text after it does not continue. */
  lemma {:induction false} DigitsAt(s: string, p: nat, ds: string, rest: string)
    requires p <= |s| && s[p..] == ds + rest && ds != [] && AllDigits(ds) && (rest == [] || !IsDigit(rest[0]))
    ensures MatchSteps(s, p, []) == Some(p) && NumberAt(s, p) == DigitsValue(ds)
  {
    assert forall i | 0 <= i < |ds| :: s[p + i] == s[p..][i];
    if rest != [] {
      assert s[p + |ds|] == s[p..][|ds|];
    }
    RunExact(s, p, |ds|, IsDigit);
    assert s[p..p + |ds|] == s[p..][..|ds|];
  }

  /** The capture `(\d+)` over a printed number reads the number back. */
  lemma {:induction false} DigitsStep(s: string, p: nat, n: nat, rest: string)
    requires p <= |s| && s[p..] == NatToString(n) + rest && (rest == [] || !IsDigit(rest[0]))
    ensures MatchSteps(s, p, []) == Some(p) && NumberAt(s, p) == n
  {
    DigitsAt(s, p, NatToString(n), rest);
    NatToStringValue(n);
  }

  /** A pattern's steps open with `\s+`, so a match after a keyword needs a space right after it. */
  lemma StepsOpenWithSpace(s: string, p: nat, pat: Pattern)
    requires p <= |s|
    ensures MatchSteps(s, p, Steps(pat)).Some? ==> p < |s| && IsSpace(s[p])
  {
    assert Steps(pat)[0] == Plus(Space);
  }

  lemma LetterNotSpace(c: char)
    ensures 'a' <= LowerChar(c) <= 'z' ==> !IsSpace(c)
  {
  }

  /** Re-bracketing a concatenation of eight texts to the right. */
  lemma Concat8(a: string, b: string, c: string, d: string, e: string, f: string, g: string, h: string)
    ensures a + b + c + d + e + f + g + h == a + (b + (c + (d + (e + (f + (g + h))))))
  {
  }

  /**
   * Of the keywords, only the one a text starts with can be followed by a
   * space there: every keyword is a lower-case word.
   */
  lemma KeywordAlone(s: string, kw: string, k: string)
    requires LowerWord(kw) && LowerWord(k)
    requires |kw| < |s| && s[..|kw|] == kw && IsSpace(s[|kw|])
    requires WordAt(s, 0, k) && |k| < |s| && IsSpace(s[|k|])
    ensures k == kw
  {
    forall j | 0 <= j < |kw|
      ensures !IsSpace(s[j])
    {
      assert s[j] == kw[j];
      LetterNotSpace(s[j]);
    }
    forall j | 0 <= j < |k|
      ensures !IsSpace(s[j])
    {
      assert LowerChar(s[0 + j]) == k[j];
      LetterNotSpace(s[j]);
    }
    assert |k| == |kw|;
    forall i | 0 <= i < |k|
      ensures k[i] == kw[i]
    {
      assert s[i] == kw[i];
    }
  }

  /** At the front of a text that starts with a keyword and a space, only that keyword's match counts. */
  lemma {:induction false} MatchWithKeyword(s: string, pat: Pattern, kws: seq<string>, kw: string, pos: nat)
    requires kw in kws && LowerWord(kw) && forall k | k in kws :: LowerWord(k)
    requires |kw| < |s| && s[..|kw|] == kw && IsSpace(s[|kw|])
    requires MatchSteps(s, |kw|, Steps(pat)) == Some(pos)
    ensures MatchWith(s, 0, pat, kws) == Some(pos)
    decreases |kws|
  {
    var k := kws[0];
    if k == kw {
      assert WordAt(s, 0, kw) by {
        forall i | 0 <= i < |kw|
          ensures LowerChar(s[i]) == kw[i]
        {
          assert s[i] == kw[i];
        }
      }
    } else {
      if WordAt(s, 0, k) && MatchSteps(s, |k|, Steps(pat)).Some? {
        StepsOpenWithSpace(s, |k|, pat);
        KeywordAlone(s, kw, k);
      }
      MatchWithKeyword(s, pat, kws[1..], kw, pos);
    }
  }

  /** A match at the front of a body is the leftmost one. */
  lemma SearchAtFront(s: string, pat: Pattern)
    requires MatchAt(s, 0, pat).Some?
    ensures Search(s, pat) == MatchAt(s, 0, pat)
  {
    assert Matcher(s, pat)(0) == MatchAt(s, 0, pat);
  }

  /** The literals the patterns match are free of upper case. */
  lemma LiteralsLower()
    ensures NoUpper("#") && NoUpper("/") && NoUpper("https://github.com/") && NoUpper("/issues/")
  {
  }

  /** `keyword #N` at the front of a body matches there, and its capture reads N back. */
  lemma {:induction false} HashRefAtFront(s: string, kw: string, n: nat, rest: string)
    requires kw in Keywords && (rest == [] || !IsDigit(rest[0]))
    requires s == kw + (" " + ("#" + (NatToString(n) + rest)))
    ensures MatchAt(s, 0, HashRef) == Some(|kw| + 2) && NumberAt(s, |kw| + 2) == n
  {
    var t2 := NatToString(n) + rest;
    var t1 := "#" + t2;
    KeywordsLower();
    LiteralsLower();
    var a := |kw|;
    assert s[a..] == " " + t1 && s[..a] == kw;
    PlusStep(s, a, Space, " ", t1, [Word("#")]);
    WordStep(s, a + 1, "#", t2, []);
    DigitsStep(s, a + 2, n, rest);
    assert Steps(HashRef) == [Plus(Space)] + [Word("#")];
    assert [Word("#")] == [Word("#")] + [];
    MatchWithKeyword(s, HashRef, Keywords, kw, a + 2);
  }

  /** A body that opens with `keyword #N` closes issue N. */
  lemma {:induction false} RelatedIssueReadsBack(kw: string, n: nat, rest: string)
    requires kw in Keywords && (rest == [] || !IsDigit(rest[0]))
    ensures RelatedIssue(true, kw + " #" + NatToString(n) + rest) == Some(n)
  {
    var s := kw + (" " + ("#" + (NatToString(n) + rest)));
    assert kw + " #" + NatToString(n) + rest == s;
    HashRefAtFront(s, kw, n, rest);
    SearchAtFront(s, HashRef);
  }

  /** After its keyword, `keyword #N` needs a `#`. */
  lemma HashStepsNeedHash(s: string, q: nat)
    requires q <= |s|
    ensures MatchSteps(s, q, Steps(HashRef)).Some? ==> exists i | q <= i < |s| :: s[i] == '#'
  {
    if MatchSteps(s, q, Steps(HashRef)).Some? {
      var n := Run(s, q, Takes(Space));
      assert Steps(HashRef)[0] == Plus(Space) && Steps(HashRef)[1..] == [Word("#")];
      assert MatchSteps(s, q + n, [Word("#")]).Some?;
      assert WordAt(s, q + n, "#");
      assert LowerChar(s[q + n + 0]) == "#"[0];
    }
  }

  /** `keyword #N` never matches a text without a `#`. */
  lemma {:induction false} HashRefNeedsHash(s: string, p: nat, kws: seq<string>)
    requires '#' !in s
    ensures MatchWith(s, p, HashRef, kws).None?
    decreases |kws|
  {
    if kws != [] {
      var q := p + |kws[0]|;
      if WordAt(s, p, kws[0]) {
        HashStepsNeedHash(s, q);
        assert forall i | q <= i < |s| :: s[i] in s;
        assert MatchSteps(s, q, Steps(HashRef)).None?;
      }
      HashRefNeedsHash(s, p, kws[1..]);
    }
  }

  /** Printed numbers and keywords hold no `#`. */
  lemma NoHashIn(kw: string, n: nat)
    requires LowerWord(kw)
    ensures '#' !in kw && '#' !in NatToString(n) && '#' !in " " && '#' !in "https://github.com/"
      && '#' !in "/" && '#' !in "/issues/"
  {
    var ds := NatToString(n);
    assert forall i | 0 <= i < |kw| :: kw[i] != '#';
    assert forall i | 0 <= i < |ds| :: ds[i] != '#';
  }

  /** No closing keyword holds a `#`. */
  lemma KeywordNoHash(kw: string)
    requires kw in Keywords
    ensures '#' !in kw
  {
    KeywordsLower();
    NoHashIn(kw, 0);
  }

  /** One path segment of an issue URL, a run without `/`, then a literal opening with `/`. */
  lemma {:induction false} SegmentStep(s: string, p: nat, seg: string, sep: string, t: string, steps: seq<Step>, more: seq<Step>)
    requires p <= |s| && s[p..] == seg + (sep + t)
    requires seg != [] && '/' !in seg && sep != [] && sep[0] == '/' && NoUpper(sep)
    requires steps == [Plus(NoSlash), Word(sep)] + more
    ensures p + |seg| + |sep| <= |s| && s[p + |seg| + |sep|..] == t
    ensures MatchSteps(s, p, steps) == MatchSteps(s, p + |seg| + |sep|, more)
  {
    assert steps == [Plus(NoSlash)] + ([Word(sep)] + more);
    forall i | 0 <= i < |seg| ensures InClass(seg[i], NoSlash) {
      assert seg[i] in seg;
    }
    PlusStep(s, p, NoSlash, seg, sep + t, [Word(sep)] + more);
    WordStep(s, p + |seg|, sep, t, more);
  }

  /** A match position found in a suffix, moved to the whole text. */
  function Shift(r: Option<nat>, k: nat): (r': Option<nat>)
    ensures r'.Some? <==> r.Some?
    ensures r'.Some? ==> r'.value == r.value + k
  {
    if r.Some? then Some(r.value + k) else None
  }

  /** Moving a position twice moves it by the sum. */
  lemma ShiftShift(r: Option<nat>, a: nat, b: nat, c: nat)
    requires c == a + b
    ensures Shift(Shift(r, b), a) == Shift(r, c)
  {
  }

  /** A run only looks at the text from where it starts. */
  lemma {:induction false} RunLocal(s: string, p: nat, u: string, k: nat, keep: char -> bool)
    requires p <= |s| && s[p..] == u && k <= |u|
    ensures Run(s, p + k, keep) == Run(u, k, keep)
    decreases |u| - k
  {
    if k < |u| {
      assert s[p + k] == u[k];
      RunLocal(s, p, u, k + 1, keep);
    }
  }

  /** A word test only looks at the text from where it starts. */
  lemma WordAtLocal(s: string, p: nat, u: string, k: nat, w: string)
    requires p <= |s| && s[p..] == u && k <= |u|
    ensures WordAt(s, p + k, w) == WordAt(u, k, w)
  {
    if k + |w| <= |u| {
      assert forall j | k <= j < k + |w| :: s[p + j] == u[j];
    }
  }

  /** The capture step `(\d+)` matches the same way in a suffix. */
  lemma CaptureLocal(s: string, p: nat, u: string, k: nat, q: nat)
    requires p <= |s| && s[p..] == u && k <= |u| && q == p + k
    ensures MatchSteps(s, q, []) == Shift(MatchSteps(u, k, []), p)
  {
    RunLocal(s, p, u, k, IsDigit);
  }

  /** A literal step matches the same way in a suffix when the steps after it do. */
  lemma WordLocal(s: string, p: nat, u: string, k: nat, steps: seq<Step>, q: nat)
    requires p <= |s| && s[p..] == u && k <= |u| && q == p + k
    requires steps != [] && steps[0].Word?
    requires WordAt(u, k, steps[0].w) ==>
      MatchSteps(s, q + |steps[0].w|, steps[1..]) == Shift(MatchSteps(u, k + |steps[0].w|, steps[1..]), p)
    ensures MatchSteps(s, q, steps) == Shift(MatchSteps(u, k, steps), p)
  {
    WordAtLocal(s, p, u, k, steps[0].w);
  }

  /** A `class+` step matches the same way in a suffix when the steps after it do. */
  lemma PlusLocal(s: string, p: nat, u: string, k: nat, steps: seq<Step>, q: nat)
    requires p <= |s| && s[p..] == u && k <= |u| && q == p + k
    requires steps != [] && steps[0].Plus?
    requires var n := Run(u, k, Takes(steps[0].cls));
      n >= 1 ==> MatchSteps(s, q + n, steps[1..]) == Shift(MatchSteps(u, k + n, steps[1..]), p)
    ensures MatchSteps(s, q, steps) == Shift(MatchSteps(u, k, steps), p)
  {
    RunLocal(s, p, u, k, Takes(steps[0].cls));
  }

  /** The steps match the same way in a suffix, at positions moved by where it starts. */
  lemma {:induction false} MatchStepsLocal(s: string, p: nat, u: string, k: nat, steps: seq<Step>, q: nat)
    requires p <= |s| && s[p..] == u && k <= |u| && q == p + k
    ensures MatchSteps(s, q, steps) == Shift(MatchSteps(u, k, steps), p)
    decreases |steps|
  {
    if steps == [] {
      CaptureLocal(s, p, u, k, q);
    } else if steps[0].Word? {
      var w := steps[0].w;
      if WordAt(u, k, w) {
        MatchStepsLocal(s, p, u, k + |w|, steps[1..], q + |w|);
      }
      WordLocal(s, p, u, k, steps, q);
    } else {
      var n := Run(u, k, Takes(steps[0].cls));
      if n >= 1 {
        MatchStepsLocal(s, p, u, k + n, steps[1..], q + n);
      }
      PlusLocal(s, p, u, k, steps, q);
    }
  }

  /** The captured number only looks at the text from where it starts. */
  lemma NumberAtLocal(s: string, p: nat, u: string, k: nat, q: nat)
    requires p <= |s| && s[p..] == u && k <= |u| && q == p + k
    ensures NumberAt(s, q) == NumberAt(u, k)
  {
    RunLocal(s, p, u, k, IsDigit);
    var r := Run(u, k, IsDigit);
    assert s[p + k..p + k + r] == u[k..k + r];
  }

  /** The steps matched from the start of `u`. */
  function MatchFront(u: string, steps: seq<Step>): Option<nat> {
    MatchSteps(u, 0, steps)
  }

  /** What a pattern reads when its steps match from the start of `u`: where the capture starts, and its number. */
  function FrontCapture(u: string, pat: Pattern): Option<(nat, nat)> {
    var m := MatchFront(u, Steps(pat));
    if m.Some? then Some((m.value, NumberAt(u, m.value))) else None
  }

  /** One path segment of an issue URL, read at the front of the text. */
  lemma {:induction false} SegmentFront(seg: string, sep: string, t: string, steps: seq<Step>, more: seq<Step>)
    requires seg != [] && '/' !in seg && sep != [] && sep[0] == '/' && NoUpper(sep)
    requires steps == [Plus(NoSlash), Word(sep)] + more
    ensures MatchFront(seg + (sep + t), steps) == Shift(MatchFront(t, more), |seg| + |sep|)
  {
    var u := seg + (sep + t);
    assert u[0..] == u;
    SegmentStep(u, 0, seg, sep, t, steps, more);
    MatchStepsLocal(u, |seg| + |sep|, t, 0, more, |seg| + |sep|);
  }

  /** The steps of an issue URL after its host: two path segments, each a run and a literal. */
  lemma UrlPathShape()
    ensures Steps(IssueUrl)[2..] == [Plus(NoSlash), Word("/")] + Steps(IssueUrl)[4..]
    ensures Steps(IssueUrl)[4..] == [Plus(NoSlash), Word("/issues/")] + []
  {
  }

  /** The first path segment of an issue URL, `o/`, read at the front of the text. */
  lemma {:induction false} OwnerFront(owner: string, w: string)
    requires owner != [] && '/' !in owner
    ensures MatchFront(owner + ("/" + w), Steps(IssueUrl)[2..]) == Shift(MatchFront(w, Steps(IssueUrl)[4..]), |owner| + 1)
  {
    LiteralsLower();
    UrlPathShape();
    SegmentFront(owner, "/", w, Steps(IssueUrl)[2..], Steps(IssueUrl)[4..]);
  }

  /** The second path segment of an issue URL, `r/issues/`, read at the front of the text. */
  lemma {:induction false} RepoFront(repo: string, t: string)
    requires repo != [] && '/' !in repo
    ensures MatchFront(repo + ("/issues/" + t), Steps(IssueUrl)[4..]) == Shift(MatchFront(t, []), |repo| + 8)
  {
    LiteralsLower();
    UrlPathShape();
    SegmentFront(repo, "/issues/", t, Steps(IssueUrl)[4..], []);
  }

  /** The path steps of an issue URL over `o/r/issues/`, read at the front of the text. */
  lemma {:induction false} PathFront(owner: string, repo: string, t: string)
    requires owner != [] && repo != [] && '/' !in owner && '/' !in repo
    ensures MatchFront(owner + ("/" + (repo + ("/issues/" + t))), Steps(IssueUrl)[2..])
      == Shift(MatchFront(t, []), |owner| + 1 + |repo| + 8)
  {
    OwnerFront(owner, repo + ("/issues/" + t));
    RepoFront(repo, t);
    ShiftShift(MatchFront(t, []), |owner| + 1, |repo| + 8, |owner| + 1 + |repo| + 8);
  }

  /** The host steps of an issue URL, one space and then `https://github.com/`, at the front of the text. */
  lemma {:induction false} HostSteps(t: string)
    ensures 20 <= |" https://github.com/" + t| && (" https://github.com/" + t)[20..] == t
    ensures MatchFront(" https://github.com/" + t, Steps(IssueUrl)) == MatchSteps(" https://github.com/" + t, 20, Steps(IssueUrl)[2..])
  {
    var u := " https://github.com/" + t;
    var t1 := "https://github.com/" + t;
    var s2 := Steps(IssueUrl)[2..];
    var s1 := [Word("https://github.com/")] + s2;
    assert Steps(IssueUrl) == [Plus(Space)] + s1;
    assert u[0..] == " " + t1;
    LiteralsLower();
    PlusStep(u, 0, Space, " ", t1, s1);
    WordStep(u, 1, "https://github.com/", t, s2);
  }

  /** Steps matched from `k` in `u` are those matched from the front of the suffix `u[k..]`, moved by `k`. */
  lemma SuffixFront(u: string, k: nat, t: string, steps: seq<Step>)
    requires k <= |u| && u[k..] == t
    ensures MatchSteps(u, k, steps) == Shift(MatchFront(t, steps), k)
  {
    MatchStepsLocal(u, k, t, 0, steps, k);
  }

  /** The host steps of an issue URL, read at the front of the text. */
  lemma {:induction false} HostFront(t: string)
    ensures MatchFront(" https://github.com/" + t, Steps(IssueUrl)) == Shift(MatchFront(t, Steps(IssueUrl)[2..]), 20)
  {
    HostSteps(t);
    SuffixFront(" https://github.com/" + t, 20, t, Steps(IssueUrl)[2..]);
  }

  /** An issue URL's steps over ` https://github.com/o/r/issues/`, up to the capture. */
  lemma {:induction false} UrlFront(owner: string, repo: string, t: string)
    requires owner != [] && repo != [] && '/' !in owner && '/' !in repo
    ensures MatchFront(" https://github.com/" + (owner + ("/" + (repo + ("/issues/" + t)))), Steps(IssueUrl))
      == Shift(MatchFront(t, []), 20 + (|owner| + 1 + |repo| + 8))
  {
    HostFront(owner + ("/" + (repo + ("/issues/" + t))));
    PathFront(owner, repo, t);
    ShiftShift(MatchFront(t, []), 20, |owner| + 1 + |repo| + 8, 20 + (|owner| + 1 + |repo| + 8));
  }

  /** The URL text after the keyword ends with the tail `t` it was built from, so the capture there reads `t`'s number. */
  lemma UrlTail(owner: string, repo: string, t: string)
    ensures 20 + (|owner| + 1 + |repo| + 8) <= |" https://github.com/" + (owner + ("/" + (repo + ("/issues/" + t))))|
    ensures NumberAt(" https://github.com/" + (owner + ("/" + (repo + ("/issues/" + t)))), 20 + (|owner| + 1 + |repo| + 8))
      == NumberAt(t, 0)
  {
    var u := " https://github.com/" + (owner + ("/" + (repo + ("/issues/" + t))));
    var e := 20 + (|owner| + 1 + |repo| + 8);
    assert u[e..] == t;
    NumberAtLocal(u, e, t, 0, e);
  }

  /** The digits of `str(n)` followed by a non-digit: the capture step matches at once and reads `n`. */
  lemma TailDigits(n: nat, rest: string)
    requires rest == [] || !IsDigit(rest[0])
    ensures MatchFront(NatToString(n) + rest, []) == Some(0) && NumberAt(NatToString(n) + rest, 0) == n
  {
    var t := NatToString(n) + rest;
    assert t[0..] == t;
    DigitsStep(t, 0, n, rest);
  }

  /** The steps reach `e` in `u` exactly when the capture step matches `t` at once, and `t` reads `n` there. */
  lemma CapturesFromTail(u: string, t: string, e: nat, n: nat)
    requires e <= |u| && MatchFront(u, Steps(IssueUrl)) == Shift(MatchFront(t, []), e)
    requires MatchFront(t, []) == Some(0) && NumberAt(u, e) == NumberAt(t, 0) && NumberAt(t, 0) == n
    ensures FrontCapture(u, IssueUrl) == Some((e, n))
  {
  }

  /** The text ` https://github.com/o/r/issues/N` after a keyword: its steps match, and the capture reads N. */
  lemma {:induction false} UrlReads(owner: string, repo: string, n: nat, rest: string)
    requires rest == [] || !IsDigit(rest[0])
    requires owner != [] && repo != [] && '/' !in owner && '/' !in repo
    ensures FrontCapture(" https://github.com/" + (owner + ("/" + (repo + ("/issues/" + (NatToString(n) + rest))))), IssueUrl)
      == Some((20 + (|owner| + 1 + |repo| + 8), n))
  {
    var t := NatToString(n) + rest;
    var u := " https://github.com/" + (owner + ("/" + (repo + ("/issues/" + t))));
    var e := 20 + (|owner| + 1 + |repo| + 8);
    UrlFront(owner, repo, t);
    UrlTail(owner, repo, t);
    TailDigits(n, rest);
    CapturesFromTail(u, t, e, n);
  }

  /** A capture read from the front of `u`, in terms of the steps and the number. */
  lemma CaptureParts(u: string, pat: Pattern, e: nat, n: nat)
    requires FrontCapture(u, pat) == Some((e, n))
    ensures MatchSteps(u, 0, Steps(pat)) == Some(e) && e <= |u| && NumberAt(u, e) == n
  {
  }

  /** A text made of a keyword and what follows it: the keyword, then the rest, from `|kw|` on. */
  lemma FrontAfterKeyword(kw: string, u: string)
    requires u != [] && u[0] == ' '
    ensures |kw| < |kw + u| && (kw + u)[..|kw|] == kw && (kw + u)[|kw|..] == u && IsSpace((kw + u)[|kw|])
  {
  }

  /** A keyword, then text whose steps match with capture `e` reading `n`: the pattern matches at the front. */
  lemma {:induction false} KeywordThen(kw: string, u: string, pat: Pattern, e: nat, n: nat)
    requires kw in Keywords && u != [] && u[0] == ' '
    requires FrontCapture(u, pat) == Some((e, n))
    ensures MatchAt(kw + u, 0, pat) == Some(|kw| + e) && |kw| + e <= |kw + u| && NumberAt(kw + u, |kw| + e) == n
  {
    var s := kw + u;
    CaptureParts(u, pat, e, n);
    FrontAfterKeyword(kw, u);
    MatchStepsLocal(s, |kw|, u, 0, Steps(pat), |kw|);
    NumberAtLocal(s, |kw|, u, e, |kw| + e);
    KeywordsLower();
    MatchWithKeyword(s, pat, Keywords, kw, |kw| + e);
  }

  /** A body without a `#` holds no `keyword #N` reference. */
  lemma HashRefAbsent(s: string)
    requires '#' !in s
    ensures Found(s, HashRef).None?
  {
    forall q | 0 <= q <= |s|
      ensures MatchAt(s, q, HashRef).None?
    {
      HashRefNeedsHash(s, q, Keywords);
    }
    FoundAny(s, HashRef);
  }

  /** A pattern that matches at the front is what the search finds, and its capture is what it reads. */
  lemma FoundAtFront(s: string, pat: Pattern, e: nat, n: nat)
    requires MatchAt(s, 0, pat) == Some(e) && e <= |s| && NumberAt(s, e) == n
    ensures Found(s, pat) == Some(n)
  {
    SearchAtFront(s, pat);
  }

  /** A keyword, then text an issue URL captures `n` in: the URL pattern finds `n`. */
  lemma {:induction false} UrlFoundAtFront(kw: string, u: string, e: nat, n: nat)
    requires kw in Keywords && u != [] && u[0] == ' ' && FrontCapture(u, IssueUrl) == Some((e, n))
    ensures Found(kw + u, IssueUrl) == Some(n)
  {
    KeywordThen(kw, u, IssueUrl, e, n);
    FoundAtFront(kw + u, IssueUrl, |kw| + e, n);
  }

  /** A body without a `#` that opens with a keyword and then text an issue URL captures `n` in closes issue `n`. */
  lemma {:induction false} ReadsBackAfter(kw: string, u: string, e: nat, n: nat)
    requires kw in Keywords && u != [] && u[0] == ' ' && FrontCapture(u, IssueUrl) == Some((e, n))
    requires '#' !in kw && '#' !in u
    ensures RelatedIssue(true, kw + u) == Some(n)
  {
    assert '#' !in kw + u;
    HashRefAbsent(kw + u);
    UrlFoundAtFront(kw, u, e, n);
  }

  /** The URL text after a keyword holds no `#` when its parts hold none. */
  lemma UrlNoHash(owner: string, repo: string, n: nat, rest: string)
    requires '#' !in owner && '#' !in repo && '#' !in rest
    ensures '#' !in " https://github.com/" + (owner + ("/" + (repo + ("/issues/" + (NatToString(n) + rest)))))
  {
    NoHashIn("", n);
  }

  /**
   * A body without a `#` that opens with `keyword https://github.com/o/r/issues/N`
   * closes issue N.
   */
  lemma {:induction false} RelatedIssueReadsBackUrl(kw: string, owner: string, repo: string, n: nat, rest: string)
    requires kw in Keywords && (rest == [] || !IsDigit(rest[0]))
    requires owner != [] && repo != [] && '/' !in owner && '/' !in repo
    requires '#' !in owner && '#' !in repo && '#' !in rest
    ensures RelatedIssue(true, kw + " https://github.com/" + owner + "/" + repo + "/issues/" + NatToString(n) + rest) == Some(n)
  {
    var u := " https://github.com/" + (owner + ("/" + (repo + ("/issues/" + (NatToString(n) + rest)))));
    Concat8(kw, " https://github.com/", owner, "/", repo, "/issues/", NatToString(n), rest);
    UrlReads(owner, repo, n, rest);
    UrlNoHash(owner, repo, n, rest);
    KeywordNoHash(kw);
    var e := 20 + (|owner| + 1 + |repo| + 8);
    ReadsBackAfter(kw, u, e, n);
  }

  // ---------------------------------------------------------------------------
  // Case insensitivity
  // ---------------------------------------------------------------------------

  /** `a` and `b` are the same character up to ASCII case, and agree on what the patterns match exactly. */
  predicate Agree(a: char, b: char) {
    LowerChar(a) == LowerChar(b) && IsSpace(a) == IsSpace(b) && NotSlash(a) == NotSlash(b) &&
    (a == '#' <==> b == '#') && IsDigit(a) == IsDigit(b) && (IsDigit(b) ==> a == b)
  }

  /** `t` and `s` are the same text up to ASCII case. */
  predicate SameFold(t: string, s: string) {
    |t| == |s| && forall i {:trigger Agree(t[i], s[i])} | 0 <= i < |s| :: Agree(t[i], s[i])
  }

  lemma LowerAgree(c: char)
    ensures Agree(LowerChar(c), c)
  {
  }

  /** Folding a text to lower case keeps it the same up to case. */
  lemma LowerSameFold(s: string)
    ensures SameFold(Lower(s), s)
  {
    forall i | 0 <= i < |s|
      ensures Agree(Lower(s)[i], s[i])
    {
      LowerAgree(s[i]);
    }
  }

  lemma {:induction false} RunSameFold(t: string, s: string, p: nat, keep: char -> bool)
    requires p <= |s| == |t|
    requires forall i | p <= i < |s| :: keep(t[i]) == keep(s[i])
    ensures Run(t, p, keep) == Run(s, p, keep)
    decreases |s| - p
  {
    if p < |s| {
      RunSameFold(t, s, p + 1, keep);
    }
  }

  lemma DigitRunSameFold(t: string, s: string, p: nat)
    requires SameFold(t, s) && p <= |s|
    ensures Run(t, p, IsDigit) == Run(s, p, IsDigit)
  {
    forall i | p <= i < |s|
      ensures IsDigit(t[i]) == IsDigit(s[i])
    {
      assert Agree(t[i], s[i]);
    }
    RunSameFold(t, s, p, IsDigit);
  }

  lemma ClassRunSameFold(t: string, s: string, p: nat, cls: Class)
    requires SameFold(t, s) && p <= |s|
    ensures Run(t, p, Takes(cls)) == Run(s, p, Takes(cls))
  {
    forall i | p <= i < |s|
      ensures InClass(t[i], cls) == InClass(s[i], cls)
    {
      assert Agree(t[i], s[i]);
    }
    RunSameFold(t, s, p, Takes(cls));
  }

  lemma WordAtSameFold(t: string, s: string, p: nat, w: string)
    requires SameFold(t, s)
    ensures WordAt(t, p, w) == WordAt(s, p, w)
  {
    if p + |w| <= |s| {
      forall i | 0 <= i < |w|
        ensures LowerChar(t[p + i]) == w[i] <==> LowerChar(s[p + i]) == w[i]
      {
        assert Agree(t[p + i], s[p + i]);
      }
    }
  }

  lemma NumberAtSameFold(t: string, s: string, g: nat)
    requires SameFold(t, s) && g <= |s|
    ensures NumberAt(t, g) == NumberAt(s, g)
  {
    DigitRunSameFold(t, s, g);
    RunSpan(s, g, IsDigit);
    var d := Run(s, g, IsDigit);
    assert t[g..g + d] == s[g..g + d] by {
      forall i | g <= i < g + d
        ensures t[i] == s[i]
      {
        assert Agree(t[i], s[i]);
      }
    }
  }

  lemma {:induction false} MatchStepsSameFold(t: string, s: string, p: nat, steps: seq<Step>)
    requires SameFold(t, s) && p <= |s|
    ensures MatchSteps(t, p, steps) == MatchSteps(s, p, steps)
    decreases |steps|
  {
    if steps == [] {
      DigitRunSameFold(t, s, p);
    } else {
      match steps[0]
      case Word(w) =>
        WordAtSameFold(t, s, p, w);
        if WordAt(s, p, w) {
          MatchStepsSameFold(t, s, p + |w|, steps[1..]);
        }
      case Plus(cls) =>
        ClassRunSameFold(t, s, p, cls);
        var n := Run(s, p, Takes(cls));
        MatchStepsSameFold(t, s, p + n, steps[1..]);
    }
  }

  lemma {:induction false} MatchWithSameFold(t: string, s: string, p: nat, pat: Pattern, kws: seq<string>)
    requires SameFold(t, s)
    ensures MatchWith(t, p, pat, kws) == MatchWith(s, p, pat, kws)
    decreases |kws|
  {
    if kws != [] {
      WordAtSameFold(t, s, p, kws[0]);
      if p + |kws[0]| <= |s| {
        MatchStepsSameFold(t, s, p + |kws[0]|, Steps(pat));
      }
      MatchWithSameFold(t, s, p, pat, kws[1..]);
    }
  }

  lemma SearchSameFold(t: string, s: string, pat: Pattern)
    requires SameFold(t, s)
    ensures Search(t, pat) == Search(s, pat)
  {
    forall q: nat | q <= |s|
      ensures Matcher(t, pat)(q) == Matcher(s, pat)(q)
    {
      MatchWithSameFold(t, s, q, pat, Keywords);
    }
    FirstSame(Matcher(t, pat), Matcher(s, pat), 0, |s|);
  }

  lemma FoundSameFold(t: string, s: string, pat: Pattern)
    requires SameFold(t, s)
    ensures Found(t, pat) == Found(s, pat)
  {
    SearchSameFold(t, s, pat);
    SearchBound(s, pat);
    if Search(s, pat).Some? {
      NumberAtSameFold(t, s, Search(s, pat).value);
    }
  }

  /** Both patterns ignore ASCII case: folding the body to lower case finds the same issue. */
  lemma RelatedIssueIgnoresCase(merged: bool, body: string)
    ensures RelatedIssue(merged, Lower(body)) == RelatedIssue(merged, body)
  {
    LowerSameFold(body);
    FoundSameFold(Lower(body), body, HashRef);
    FoundSameFold(Lower(body), body, IssueUrl);
  }

  // ---------------------------------------------------------------------------
  // Fetching a pull request
  // ---------------------------------------------------------------------------

  /**
   * What the lookup of one pull request sees: a cached entry (its stored
   * issue), the pull request fetched from GitHub, or a failed fetch.
   */
  datatype PrSource =
    | Cached(issue: Option<nat>)
    | Fetched(merged: bool, body: Option<string>)
    | FetchFailed

  /** `get_pr_related_issue`: the cache wins; a missing body reads as empty. */
  function PrIssue(src: PrSource): (r: Option<nat>)
    ensures src.Cached? ==> r == src.issue
    ensures src.FetchFailed? || (src.Fetched? && !src.merged) ==> r.None?
    ensures src.Fetched? && src.merged ==>
      r == RelatedIssue(true, if src.body.Some? then src.body.value else "")
  {
    match src
    case Cached(issue) => issue
    case Fetched(merged, body) => RelatedIssue(merged, if body.Some? then body.value else "")
    case FetchFailed => None
  }

  // ---------------------------------------------------------------------------
  // Table lines
  // ---------------------------------------------------------------------------

  /** No line break in `s[a..b]`: what `.*` may cover. */
  predicate NoBreak(s: string, a: nat, b: nat)
    requires a <= b <= |s|
  {
    forall x | a <= x < b :: s[x] != '\n'
  }

  /** `s` at `p` is exactly `w` (case-sensitive). */
  predicate LitAt(s: string, p: nat, w: string) {
    p + |w| <= |s| && s[p..p + |w|] == w
  }

  /**
   * The header pattern matched with its bars at `i` and `j` around `PR` and
   * `Description` at `k`: `.*` never crosses a line break, `\s*` may.
   */
  predicate HeaderAt(line: string, i: nat, j: nat, k: nat)
    requires 1 <= i < j < k <= |line|
  {
    NoBreak(line, 1, i) && line[i] == '|' && line[j] == '|' && Trim(line[i + 1..j]) == "PR" &&
    NoBreak(line, j + 1, k) && LitAt(line, k, "Description") &&
    StartsWith(TrimLeft(line[k + 11..]), "|")
  }

  /** `re.match(r'\|.*\|\s*PR\s*\|.*Description\s*\|', line)`. */
  predicate IsPrHeader(line: string) {
    |line| > 0 && line[0] == '|' &&
    exists i, j, k {:trigger HeaderAt(line, i, j, k)} | 1 <= i < j < k <= |line| :: HeaderAt(line, i, j, k)
  }

  /** A header that opens a table still lacking the `Related Issue` column. */
  predicate StartsTable(line: string) {
    IsPrHeader(line) && !Contains(line, "Related Issue")
  }

  /** A character of the separator class `[-:\s|]`. */
  predicate SepChar(c: char) {
    c == '-' || c == ':' || c == '|' || IsSpace(c)
  }

  /** The separator pattern matched with its closing bar at `m`. */
  predicate SeparatorAt(line: string, m: nat)
    requires m < |line|
  {
    line[m] == '|' && forall x | 1 <= x < m :: SepChar(line[x])
  }

  /** `re.match(r'\|[-:\s|]+\|', line)`. */
  predicate IsSeparator(line: string) {
    |line| > 0 && line[0] == '|' &&
    exists m {:trigger SeparatorAt(line, m)} | 2 <= m < |line| :: SeparatorAt(line, m)
  }

  /** `line.strip()` starts and ends with a bar. */
  predicate IsDataRow(line: string) {
    StartsWith(Trim(line), "|") && EndsWith(Trim(line), "|")
  }

  // ---------------------------------------------------------------------------
  // The pull-request link of a row
  // ---------------------------------------------------------------------------

  /** The owner, repository and number of a pull-request URL. */
  datatype PrRef = PrRef(owner: string, repo: string, number: nat)

  /** The classes the link pattern's runs are drawn from. */
  datatype LinkClass = Label | Segment

  function Keeps(cls: LinkClass): char -> bool {
    match cls
    case Label => NotCloseBracket
    case Segment => NotSlash
  }

  /** A piece of the link pattern: a literal, or a maximal non-empty run that is captured. */
  datatype Piece = Lit(w: string) | Group(cls: LinkClass)

  /** The number of captured runs among `pieces`. */
  function Groups(pieces: seq<Piece>): nat {
    if pieces == [] then 0 else (if pieces[0].Group? then 1 else 0) + Groups(pieces[1..])
  }

  /**
   * Matches `pieces` at the start of `t`, returning the captured runs and what
   * follows the match. Each run is maximal: a regular-expression run followed by
   * a character outside its class cannot give back characters and still match.
   */
  function Scan(t: string, pieces: seq<Piece>): (r: Option<(seq<string>, string)>)
    ensures r.Some? ==> |r.value.0| == Groups(pieces) && |r.value.1| <= |t|
  {
    if pieces == [] then Some(([], t))
    else match pieces[0]
      case Lit(w) => if StartsWith(t, w) then Scan(t[|w|..], pieces[1..]) else None
      case Group(cls) =>
        var n := Run(t, 0, Keeps(cls));
        if n == 0 then None
        else match Scan(t[n..], pieces[1..])
          case None => None
          case Some((caps, u)) => Some(([t[..n]] + caps, u))
  }

  /** `\[([^\]]+)\]\(https://github\.com/([^/]+)/([^/]+)/pull/`, with the pull number left to follow. */
  function LinkHead(): seq<Piece> {
    [Lit("["), Group(Label), Lit("](https://github.com/"), Group(Segment), Lit("/"), Group(Segment), Lit("/pull/")]
  }

  /**
   * `\[([^\]]+)\]\((https://github\.com/([^/]+)/([^/]+)/pull/(\d+))\)` at `p`,
   * case-sensitive.
   */
  function PrLinkAt(s: string, p: nat): Option<PrRef>
  {
    if p > |s| then None
    else match Scan(s[p..], LinkHead())
      case None => None
      case Some((caps, u)) =>
        var nd := Run(u, 0, IsDigit);
        if nd == 0 || !StartsWith(u[nd..], ")") then None
        else Some(PrRef(caps[1], caps[2], NumberAt(u, 0)))
  }

  function LinkMatcher(s: string): nat -> Option<PrRef> {
    (q: nat) => PrLinkAt(s, q)
  }

  /** The leftmost pull-request link of a row. */
  function PrLink(row: string): Option<PrRef> {
    First<PrRef>(LinkMatcher(row), 0, |row|)
  }

  /** The link found is the one at the leftmost position where a link parses. */
  lemma PrLinkLeftmost(row: string)
    ensures PrLink(row).Some? ==> exists q | 0 <= q <= |row| ::
      PrLinkAt(row, q) == PrLink(row) && forall q' | 0 <= q' < q :: PrLinkAt(row, q').None?
    ensures PrLink(row).None? <==> forall q | 0 <= q <= |row| :: PrLinkAt(row, q).None?
  {
    FirstLeftmost(LinkMatcher(row), 0, |row|);
    assert forall q: nat :: LinkMatcher(row)(q) == PrLinkAt(row, q);
  }

  /** A literal piece consumes exactly its text. */
  lemma ScanLit(w: string, u: string, pieces: seq<Piece>)
    ensures Scan(w + u, [Lit(w)] + pieces) == Scan(u, pieces)
  {
    assert ([Lit(w)] + pieces)[1..] == pieces;
    assert (w + u)[..|w|] == w;
    assert (w + u)[|w|..] == u;
  }

  /** A group captures a whole non-empty run stopped by the character after it. */
  lemma ScanGroup(w: string, u: string, cls: LinkClass, pieces: seq<Piece>)
    requires w != [] && forall i | 0 <= i < |w| :: Keeps(cls)(w[i])
    requires u != [] && !Keeps(cls)(u[0])
    ensures Scan(w + u, [Group(cls)] + pieces) ==
      (match Scan(u, pieces)
       case None => None
       case Some((caps, v)) => Some(([w] + caps, v)))
  {
    var t := w + u;
    assert ([Group(cls)] + pieces)[1..] == pieces;
    forall i | 0 <= i < |w|
      ensures Keeps(cls)(t[i])
    {
      assert t[i] == w[i];
    }
    assert t[|w|] == u[0];
    RunExact(t, 0, |w|, Keeps(cls));
    assert t[..|w|] == w;
    assert t[|w|..] == u;
  }

  /** The Markdown link to pull request `pr` with link text `text`. */
  function PrLinkText(text: string, pr: PrRef): string {
    "[" + text + "](https://github.com/" + pr.owner + "/" + pr.repo + "/pull/" + NatToString(pr.number) + ")"
  }

  /** A name the `[^/]+` groups capture whole. */
  predicate PathName(w: string) {
    w != [] && forall i | 0 <= i < |w| :: w[i] != '/'
  }

  /** A link text the `[^\]]+` group captures whole. */
  predicate LinkLabel(w: string) {
    w != [] && forall i | 0 <= i < |w| :: w[i] != ']'
  }

  /** The owner and repository of a rendered link scan to themselves. */
  lemma {:induction false} PathScans(owner: string, repo: string, u: string)
    requires PathName(owner) && PathName(repo)
    ensures Scan(owner + ("/" + (repo + ("/pull/" + u))), LinkHead()[3..]) == Some(([owner, repo], u))
  {
    var t5 := "/pull/" + u;
    var t4 := repo + t5;
    var t3 := "/" + t4;
    var p6 := [Lit("/pull/")];
    var p5 := [Group(Segment)] + p6;
    var p4 := [Lit("/")] + p5;
    assert [Group(Segment)] + p4 == LinkHead()[3..];
    ScanLit("/pull/", u, []);
    assert Scan(t5, p6) == Some(([], u));
    KeepsPath(repo);
    assert t5[0] == '/';
    ScanGroup(repo, t5, Segment, p6);
    assert [repo] + [] == [repo];
    ScanLit("/", t4, p5);
    KeepsPath(owner);
    assert t3[0] == '/';
    ScanGroup(owner, t3, Segment, p4);
    assert [owner] + [repo] == [owner, repo];
  }

  /** The head of a rendered link scans to its label, owner and repository. */
  lemma {:induction false} LinkHeadScans(text: string, pr: PrRef, u: string)
    requires LinkLabel(text) && PathName(pr.owner) && PathName(pr.repo)
    ensures Scan("[" + (text + ("](https://github.com/" + (pr.owner + ("/" + (pr.repo + ("/pull/" + u)))))), LinkHead())
      == Some(([text, pr.owner, pr.repo], u))
  {
    var t2 := pr.owner + ("/" + (pr.repo + ("/pull/" + u)));
    var t1 := "](https://github.com/" + t2;
    var t0 := text + t1;
    var p3 := LinkHead()[3..];
    var p2 := [Lit("](https://github.com/")] + p3;
    var p1 := [Group(Label)] + p2;
    assert [Lit("[")] + p1 == LinkHead();
    PathScans(pr.owner, pr.repo, u);
    ScanLit("](https://github.com/", t2, p3);
    KeepsLabel(text);
    assert t1[0] == ']';
    ScanGroup(text, t1, Label, p2);
    assert [text] + [pr.owner, pr.repo] == [text, pr.owner, pr.repo];
    ScanLit("[", t0, p1);
  }

  /** After the head, the rendered pull number and `)` give back the number. */
  lemma NumberTail(n: nat, rest: string)
    ensures var ds := NatToString(n); var u := ds + (")" + rest);
      Run(u, 0, IsDigit) == |ds| && StartsWith(u[|ds|..], ")") && NumberAt(u, 0) == n
  {
    var ds := NatToString(n);
    var u := ds + (")" + rest);
    assert u[|ds|] == ')';
    RunExact(u, 0, |ds|, IsDigit);
    assert u[|ds|..] == ")" + rest;
    assert u[..|ds|] == ds;
    NatToStringValue(n);
  }

  lemma KeepsPath(w: string)
    requires PathName(w)
    ensures w != [] && forall i | 0 <= i < |w| :: Keeps(Segment)(w[i])
  {
  }

  lemma KeepsLabel(w: string)
    requires LinkLabel(w)
    ensures w != [] && forall i | 0 <= i < |w| :: Keeps(Label)(w[i])
  {
  }

  /** A rendered pull-request link parses back to the same owner, repository and number. */
  lemma PrLinkRoundTrip(text: string, pr: PrRef, rest: string)
    requires LinkLabel(text) && PathName(pr.owner) && PathName(pr.repo)
    ensures PrLinkAt(PrLinkText(text, pr) + rest, 0) == Some(pr)
  {
    var u := NatToString(pr.number) + (")" + rest);
    var s := "[" + (text + ("](https://github.com/" + (pr.owner + ("/" + (pr.repo + ("/pull/" + u))))));
    assert PrLinkText(text, pr) + rest == s;
    assert s[0..] == s;
    LinkHeadScans(text, pr, u);
    NumberTail(pr.number, rest);
  }

  /** Where the text holds no `[`, no link starts. */
  lemma NoLinkBefore(row: string, q: nat)
    requires q < |row| && row[q] != '['
    ensures PrLinkAt(row, q).None?
  {
    assert LinkHead()[0] == Lit("[");
    assert row[q..][0] == row[q];
  }

  /** In a row whose text before a rendered link holds no `[`, that link is the one found. */
  lemma PrLinkFirst(prefix: string, text: string, pr: PrRef, rest: string)
    requires forall i | 0 <= i < |prefix| :: prefix[i] != '['
    requires LinkLabel(text) && PathName(pr.owner) && PathName(pr.repo)
    ensures PrLink(prefix + (PrLinkText(text, pr) + rest)) == Some(pr)
  {
    var link := PrLinkText(text, pr) + rest;
    var row := prefix + link;
    PrLinkRoundTrip(text, pr, rest);
    assert row[|prefix|..] == link && link[0..] == link;
    assert PrLinkAt(row, |prefix|) == Some(pr);
    forall q | 0 <= q < |prefix|
      ensures PrLinkAt(row, q).None?
    {
      assert row[q] == prefix[q];
      NoLinkBefore(row, q);
    }
    PrLinkLeftmost(row);
  }

  /** The new cell's link to issue `n` of the pull request's repository. */
  function IssueLink(pr: PrRef, n: nat): string {
    "[#" + NatToString(n) + "](https://github.com/" + pr.owner + "/" + pr.repo + "/issues/" + NatToString(n) + ")"
  }

  /**
   * The `Related Issue` cell of a row, given how each pull request's issue is
   * looked up: the issue link when the row links a pull request whose issue
   * is known and non-zero (`if issue_num:`), a blank otherwise.
   */
  predicate HasIssue(row: string, issueOf: PrRef -> Option<nat>) {
    PrLink(row).Some? && issueOf(PrLink(row).value).Some? && issueOf(PrLink(row).value).value != 0
  }

  function Cell(row: string, issueOf: PrRef -> Option<nat>): string {
    if HasIssue(row, issueOf) then IssueLink(PrLink(row).value, issueOf(PrLink(row).value).value)
    else " "
  }

  // ---------------------------------------------------------------------------
  // Scanning a file
  // ---------------------------------------------------------------------------

  /** What the scan makes of a line. */
  datatype Role = Plain | Header | Separator | Row

  /**
   * The outer `while` loop from a line it is about to test: a header opens a
   * table, any other line is copied.
   */
  function Roles(lines: seq<string>): (r: seq<Role>)
    ensures |r| == |lines|
    decreases |lines|, 0
  {
    if lines == [] then []
    else if StartsTable(lines[0]) then [Header] + AfterHeader(lines[1..])
    else [Plain] + Roles(lines[1..])
  }

  /** Just after a header: an optional separator line, then the rows. */
  function AfterHeader(lines: seq<string>): (r: seq<Role>)
    ensures |r| == |lines|
    decreases |lines|, 2
  {
    if lines != [] && IsSeparator(lines[0]) then [Separator] + Rows(lines[1..])
    else Rows(lines)
  }

  /** The inner `while`: data rows, until a line that is not one. */
  function Rows(lines: seq<string>): (r: seq<Role>)
    ensures |r| == |lines|
    decreases |lines|, 1
  {
    if lines != [] && IsDataRow(lines[0]) then [Row] + Rows(lines[1..])
    else Roles(lines)
  }

  /** The role of a line given the role of the line before it. */
  function Next(prev: Role, line: string): (r: Role)
    ensures r == Separator ==> prev == Header
    ensures r == Row ==> prev != Plain && IsDataRow(line)
  {
    if prev == Header && IsSeparator(line) then Separator
    else if prev != Plain && IsDataRow(line) then Row
    else if StartsTable(line) then Header
    else Plain
  }

  /** A line is a header exactly when it opens a table and is neither a separator nor a row in its place. */
  lemma NextHeader(prev: Role, line: string)
    ensures Next(prev, line) == Header <==>
      StartsTable(line) && !(prev == Header && IsSeparator(line)) && !(prev != Plain && IsDataRow(line))
  {
  }

  /** The roles line by line, as a state machine started after `prev`. */
  function RolesFrom(prev: Role, lines: seq<string>): (r: seq<Role>)
    ensures |r| == |lines|
    decreases |lines|
  {
    if lines == [] then [] else
      var role := Next(prev, lines[0]);
      [role] + RolesFrom(role, lines[1..])
  }

  /** After a separator and after a row the machine behaves alike. */
  lemma NextAfterSeparator(line: string)
    ensures Next(Separator, line) == Next(Row, line)
  {
  }

  lemma {:induction false} RolesFromSeparator(lines: seq<string>)
    ensures RolesFrom(Separator, lines) == RolesFrom(Row, lines)
  {
    if lines != [] {
      NextAfterSeparator(lines[0]);
    }
  }

  /**
   * The nested loops assign every line the role the state machine does:
   * from the start of the file, after a header, and inside a table.
   */
  lemma {:induction false} RolesAreMachine(lines: seq<string>)
    ensures Roles(lines) == RolesFrom(Plain, lines)
    ensures AfterHeader(lines) == RolesFrom(Header, lines)
    ensures Rows(lines) == RolesFrom(Row, lines)
    decreases |lines|
  {
    if lines != [] {
      RolesAreMachine(lines[1..]);
      RolesFromSeparator(lines[1..]);
    }
  }

  // ---------------------------------------------------------------------------
  // Rewriting a file
  // ---------------------------------------------------------------------------

  /** What a table line gains after its trailing blanks are cut: the new column. */
  function Suffix(role: Role, cell: string): string {
    match role
    case Header => " Related Issue |\n"
    case Separator => "---------------|\n"
    case _ => " " + cell + " |\n"
  }

  /** A line as the scan writes it back: table lines grow a cell, the rest is copied. */
  function Rewrite(role: Role, line: string, issueOf: PrRef -> Option<nat>): string {
    match role
    case Plain => line
    case Row => TrimRight(line) + Suffix(Row, Cell(line, issueOf))
    case _ => TrimRight(line) + Suffix(role, "")
  }

  /** The first role is the machine's step from `prev`; the others are those of the rest. */
  lemma RolesFromHead(prev: Role, lines: seq<string>)
    requires lines != []
    ensures RolesFrom(prev, lines)[0] == Next(prev, lines[0])
    ensures forall i | 1 <= i < |lines| :: RolesFrom(prev, lines)[i] == RolesFrom(Next(prev, lines[0]), lines[1..])[i - 1]
  {
    var rest := RolesFrom(Next(prev, lines[0]), lines[1..]);
    assert RolesFrom(prev, lines) == [Next(prev, lines[0])] + rest;
  }

  /** Each role is the machine's step from the role of the line before. */
  lemma {:induction false} RolesFromSteps(prev: Role, lines: seq<string>)
    ensures forall i | 0 <= i < |lines| ::
      RolesFrom(prev, lines)[i] == Next(if i == 0 then prev else RolesFrom(prev, lines)[i - 1], lines[i])
    decreases |lines|
  {
    if lines != [] {
      var r := RolesFrom(prev, lines);
      var rest := RolesFrom(Next(prev, lines[0]), lines[1..]);
      RolesFromSteps(Next(prev, lines[0]), lines[1..]);
      RolesFromHead(prev, lines);
      forall i | 1 <= i < |lines|
        ensures r[i] == Next(r[i - 1], lines[i])
      {
        assert lines[1..][i - 1] == lines[i];
        assert r[i] == rest[i - 1];
      }
    }
  }

  /** What the roles the machine assigns from the start of a file tell about each line. */
  predicate Shaped(roles: seq<Role>, lines: seq<string>)
    requires |roles| == |lines|
  {
    forall i | 0 <= i < |lines| ::
      (roles[i] == Header ==> StartsTable(lines[i])) &&
      (roles[i] == Separator ==> 0 < i && roles[i - 1] == Header && IsSeparator(lines[i])) &&
      (roles[i] == Row ==> 0 < i && roles[i - 1] != Plain && IsDataRow(lines[i])) &&
      (roles[i] == Plain ==> !StartsTable(lines[i]))
  }

  lemma MachineShaped(lines: seq<string>)
    ensures Shaped(RolesFrom(Plain, lines), lines)
  {
    var r := RolesFrom(Plain, lines);
    RolesFromSteps(Plain, lines);
    forall i | 0 <= i < |lines|
      ensures (r[i] == Header ==> StartsTable(lines[i]))
      ensures (r[i] == Separator ==> 0 < i && r[i - 1] == Header && IsSeparator(lines[i]))
      ensures (r[i] == Row ==> 0 < i && r[i - 1] != Plain && IsDataRow(lines[i]))
      ensures (r[i] == Plain ==> !StartsTable(lines[i]))
    {
      var before := if i == 0 then Plain else r[i - 1];
      assert r[i] == Next(before, lines[i]);
      NextHeader(before, lines[i]);
    }
  }

  /**
   * The shape of a scanned file: a header is a line opening a table; a
   * separator comes right after a header; a data row comes right after a
   * header, a separator or another row; every other line is plain, and a
   * plain line never opens a table.
   */
  lemma RolesShape(lines: seq<string>)
    ensures Shaped(Roles(lines), lines)
  {
    RolesAreMachine(lines);
    MachineShaped(lines);
  }

  /** The number of `true` entries. */
  function CountTrue(bs: seq<bool>): (n: nat)
    ensures n <= |bs|
  {
    if bs == [] then 0 else (if bs[0] then 1 else 0) + CountTrue(bs[1..])
  }

  lemma {:induction false} CountTrueMono(a: seq<bool>, b: seq<bool>)
    requires |a| == |b| && forall i | 0 <= i < |a| :: a[i] ==> b[i]
    ensures CountTrue(a) <= CountTrue(b)
  {
    if a != [] {
      CountTrueMono(a[1..], b[1..]);
    }
  }

  lemma {:induction false} CountTruePositive(bs: seq<bool>)
    ensures CountTrue(bs) > 0 <==> exists i | 0 <= i < |bs| :: bs[i]
  {
    if bs != [] {
      CountTruePositive(bs[1..]);
      if !bs[0] && exists i | 0 <= i < |bs| :: bs[i] {
        var i :| 0 <= i < |bs| && bs[i];
        assert bs[1..][i - 1];
      }
    }
  }

  lemma RowFlagsCount(roles: seq<Role>)
    ensures CountTrue(RowFlags(roles)) > 0 <==> exists i | 0 <= i < |roles| :: roles[i] == Row
  {
    var rows := RowFlags(roles);
    CountTruePositive(rows);
    if exists i | 0 <= i < |roles| :: roles[i] == Row {
      var i :| 0 <= i < |roles| && roles[i] == Row;
      assert rows[i];
    }
  }

  /** What `process_file` returns, with the lines it would write. */
  datatype Outcome = Outcome(lines: seq<string>, modified: bool, prs: nat, issues: nat)

  function RowFlags(roles: seq<Role>): seq<bool> {
    seq(|roles|, i requires 0 <= i < |roles| => roles[i] == Row)
  }

  function LinkFlags(roles: seq<Role>, lines: seq<string>): seq<bool>
    requires |roles| == |lines|
  {
    seq(|lines|, i requires 0 <= i < |lines| => roles[i] == Row && PrLink(lines[i]).Some?)
  }

  function IssueFlags(roles: seq<Role>, lines: seq<string>, issueOf: PrRef -> Option<nat>): seq<bool>
    requires |roles| == |lines|
  {
    seq(|lines|, i requires 0 <= i < |lines| => roles[i] == Row && HasIssue(lines[i], issueOf))
  }

  function RewriteAll(roles: seq<Role>, lines: seq<string>, issueOf: PrRef -> Option<nat>): (r: seq<string>)
    requires |roles| == |lines|
    ensures |r| == |lines|
  {
    seq(|lines|, i requires 0 <= i < |lines| => Rewrite(roles[i], lines[i], issueOf))
  }

  /**
   * `process_file` on the lines of a file: the rewritten lines; whether any
   * data row was given a cell (only then is the file written); how many rows
   * linked a pull request, and how many of those got an issue.
   */
  function Process(lines: seq<string>, issueOf: PrRef -> Option<nat>): (o: Outcome)
    ensures |o.lines| == |lines|
    ensures o.issues <= o.prs
  {
    var roles := Roles(lines);
    CountTrueMono(IssueFlags(roles, lines, issueOf), LinkFlags(roles, lines));
    Outcome(RewriteAll(roles, lines, issueOf), CountTrue(RowFlags(roles)) > 0,
            CountTrue(LinkFlags(roles, lines)), CountTrue(IssueFlags(roles, lines, issueOf)))
  }

  /**
   * Lines outside tables are written back unchanged; a table line keeps its
   * text up to its trailing blanks and gains a cell closed by a bar.
   */
  lemma ProcessKeeps(lines: seq<string>, issueOf: PrRef -> Option<nat>)
    ensures forall i | 0 <= i < |lines| && Roles(lines)[i] == Plain ::
      Process(lines, issueOf).lines[i] == lines[i]
    ensures forall i | 0 <= i < |lines| && Roles(lines)[i] != Plain ::
      StartsWith(Process(lines, issueOf).lines[i], TrimRight(lines[i])) &&
      EndsWith(Process(lines, issueOf).lines[i], "|\n")
  {
    var roles := Roles(lines);
    forall i | 0 <= i < |lines| && roles[i] != Plain
      ensures StartsWith(Process(lines, issueOf).lines[i], TrimRight(lines[i]))
      ensures EndsWith(Process(lines, issueOf).lines[i], "|\n")
    {
      AppendedCell(roles[i], lines[i], issueOf);
    }
  }

  /**
   * What each table line gains: a header the `Related Issue` column, a
   * separator its dashes, and a data row the issue link of the pull request
   * it links when that issue is known and non-zero, a blank cell otherwise.
   */
  lemma CellsAppended(lines: seq<string>, issueOf: PrRef -> Option<nat>, i: nat)
    requires i < |lines|
    ensures Roles(lines)[i] == Header ==>
      Process(lines, issueOf).lines[i] == TrimRight(lines[i]) + " Related Issue |\n"
    ensures Roles(lines)[i] == Separator ==>
      Process(lines, issueOf).lines[i] == TrimRight(lines[i]) + "---------------|\n"
    ensures Roles(lines)[i] == Row && !HasIssue(lines[i], issueOf) ==>
      Process(lines, issueOf).lines[i] == TrimRight(lines[i]) + "   |\n"
    ensures Roles(lines)[i] == Row && HasIssue(lines[i], issueOf) ==>
      var pr := PrLink(lines[i]).value;
      Process(lines, issueOf).lines[i] == TrimRight(lines[i]) + (" " + IssueLink(pr, issueOf(pr).value) + " |\n")
  {
    var roles := Roles(lines);
    RewrittenAt(roles, lines, issueOf, i);
    RewriteCell(roles[i], lines[i], issueOf);
  }

  /** The `i`-th line of the output is the `i`-th line rewritten for its role. */
  lemma RewrittenAt(roles: seq<Role>, lines: seq<string>, issueOf: PrRef -> Option<nat>, i: nat)
    requires |roles| == |lines| && i < |lines| && roles == Roles(lines)
    ensures Process(lines, issueOf).lines[i] == Rewrite(roles[i], lines[i], issueOf)
  {
  }

  /** The text one table line gains, by role. */
  lemma RewriteCell(role: Role, line: string, issueOf: PrRef -> Option<nat>)
    ensures role == Header ==> Rewrite(role, line, issueOf) == TrimRight(line) + " Related Issue |\n"
    ensures role == Separator ==> Rewrite(role, line, issueOf) == TrimRight(line) + "---------------|\n"
    ensures role == Row && !HasIssue(line, issueOf) ==> Rewrite(role, line, issueOf) == TrimRight(line) + "   |\n"
    ensures role == Row && HasIssue(line, issueOf) ==>
      var pr := PrLink(line).value;
      Rewrite(role, line, issueOf) == TrimRight(line) + (" " + IssueLink(pr, issueOf(pr).value) + " |\n")
  {
  }

  /**
   * The file is rewritten exactly when some data row follows a PR-table
   * header: a header alone changes lines but does not mark the file modified.
   */
  lemma ProcessModified(lines: seq<string>, issueOf: PrRef -> Option<nat>)
    ensures Process(lines, issueOf).modified <==> exists i | 0 <= i < |lines| :: Roles(lines)[i] == Row
  {
    assert Process(lines, issueOf).modified == (CountTrue(RowFlags(Roles(lines))) > 0);
    RowFlagsCount(Roles(lines));
  }

  /** Every new column ends the line with a closing bar. */
  lemma SuffixCloses(role: Role, cell: string)
    ensures EndsWith(Suffix(role, cell), "|\n")
  {
    var u := Suffix(role, cell);
    assert u[|u| - 2..] == "|\n";
  }

  lemma AppendKeeps(t: string, u: string)
    requires EndsWith(u, "|\n")
    ensures StartsWith(t + u, t) && EndsWith(t + u, "|\n")
  {
    assert (t + u)[..|t|] == t;
    assert (t + u)[|t + u| - 2..] == u[|u| - 2..];
  }

  /** A rewritten table line keeps the line's text and ends with a new closing bar. */
  lemma AppendedCell(role: Role, line: string, issueOf: PrRef -> Option<nat>)
    requires role != Plain
    ensures StartsWith(Rewrite(role, line, issueOf), TrimRight(line))
    ensures EndsWith(Rewrite(role, line, issueOf), "|\n")
  {
    var cell := if role == Row then Cell(line, issueOf) else "";
    SuffixCloses(role, cell);
    AppendKeeps(TrimRight(line), Suffix(role, cell));
  }

  /** A rewritten header carries the new column's name. */
  lemma HeaderMarked(t: string)
    ensures Contains(t + Suffix(Header, ""), "Related Issue")
  {
    var u := t + Suffix(Header, "");
    assert u[|t| + 1..][..13] == "Related Issue";
  }

  lemma {:induction false} MachineAllPlain(lines: seq<string>)
    requires forall i | 0 <= i < |lines| :: !StartsTable(lines[i])
    ensures forall i | 0 <= i < |lines| :: RolesFrom(Plain, lines)[i] == Plain
    decreases |lines|
  {
    if lines != [] {
      MachineAllPlain(lines[1..]);
      assert RolesFrom(Plain, lines) == [Plain] + RolesFrom(Plain, lines[1..]);
    }
  }

  /** A file with no table to open is left as it is and not written. */
  lemma AllPlainProcess(lines: seq<string>, issueOf: PrRef -> Option<nat>)
    requires forall i | 0 <= i < |lines| :: Roles(lines)[i] == Plain
    ensures Process(lines, issueOf) == Outcome(lines, false, 0, 0)
  {
    PlainUntouched(Roles(lines), lines, issueOf);
  }

  /** Lines that are all plain are copied, and no flag is raised for them. */
  lemma PlainUntouched(roles: seq<Role>, lines: seq<string>, issueOf: PrRef -> Option<nat>)
    requires |roles| == |lines| && forall i | 0 <= i < |lines| :: roles[i] == Plain
    ensures RewriteAll(roles, lines, issueOf) == lines
    ensures CountTrue(RowFlags(roles)) == 0 && CountTrue(LinkFlags(roles, lines)) == 0
    ensures CountTrue(IssueFlags(roles, lines, issueOf)) == 0
  {
    assert RewriteAll(roles, lines, issueOf) == lines;
    CountTruePositive(RowFlags(roles));
    CountTruePositive(LinkFlags(roles, lines));
    CountTruePositive(IssueFlags(roles, lines, issueOf));
  }

  /**
   * Running the script again changes nothing and writes nothing, provided no
   * rewritten separator or data row itself reads as a PR-table header: each
   * processed header now names the `Related Issue` column.
   */
  lemma ProcessAgain(lines: seq<string>, issueOf: PrRef -> Option<nat>)
    requires forall i | 0 <= i < |lines| && (Roles(lines)[i] == Separator || Roles(lines)[i] == Row) ::
      !StartsTable(Process(lines, issueOf).lines[i])
    ensures Process(Process(lines, issueOf).lines, issueOf) == Outcome(Process(lines, issueOf).lines, false, 0, 0)
  {
    RewrittenNoHeader(lines, issueOf);
    NoHeaderUntouched(Process(lines, issueOf).lines, issueOf);
  }

  /** Under the same proviso, no line of the output reads as a PR-table header without the new column. */
  lemma RewrittenNoHeader(lines: seq<string>, issueOf: PrRef -> Option<nat>)
    requires forall i | 0 <= i < |lines| && (Roles(lines)[i] == Separator || Roles(lines)[i] == Row) ::
      !StartsTable(Process(lines, issueOf).lines[i])
    ensures forall i | 0 <= i < |lines| :: !StartsTable(Process(lines, issueOf).lines[i])
  {
    RolesShape(lines);
    RewriteNoHeader(Roles(lines), lines, issueOf);
  }

  /** A rewritten header names the new column, and a plain line stays plain. */
  lemma RewriteNoHeader(roles: seq<Role>, lines: seq<string>, issueOf: PrRef -> Option<nat>)
    requires |roles| == |lines| && Shaped(roles, lines)
    requires forall i | 0 <= i < |lines| && (roles[i] == Separator || roles[i] == Row) ::
      !StartsTable(RewriteAll(roles, lines, issueOf)[i])
    ensures forall i | 0 <= i < |lines| :: !StartsTable(RewriteAll(roles, lines, issueOf)[i])
  {
    var out := RewriteAll(roles, lines, issueOf);
    forall i | 0 <= i < |lines|
      ensures !StartsTable(out[i])
    {
      if roles[i] == Header {
        assert out[i] == TrimRight(lines[i]) + Suffix(Header, "");
        HeaderMarked(TrimRight(lines[i]));
      } else if roles[i] == Plain {
        assert out[i] == lines[i];
      }
    }
  }

  /** A file with no table header to process is left exactly as it is, and nothing is counted. */
  lemma NoHeaderUntouched(lines: seq<string>, issueOf: PrRef -> Option<nat>)
    requires forall i | 0 <= i < |lines| :: !StartsTable(lines[i])
    ensures Process(lines, issueOf) == Outcome(lines, false, 0, 0)
  {
    MachineAllPlain(lines);
    RolesAreMachine(lines);
    AllPlainProcess(lines, issueOf);
  }
}

=== FILE: job_runner.dfy ===
/**
 * The batch runner of run.py (`run_batch`): list the open issues carrying the
 * work labels, run the investigation agent once per issue, in list order, and
 * summarise. The issue listing and the agent are parameters: `list` answers a
 * label filter and a limit with the issues found (empty when the listing
 * fails), and `run` answers a prompt with the agent's exit code.
 */
module JobRunner {
  import opened Text

  datatype Issue = Issue(number: nat, title: string)

  datatype Status = Success | Failed

  datatype JobResult = JobResult(number: nat, title: string, status: Status)

  /** Either nothing to do (with the labels that found nothing), or one result per issue and the success count. */
  datatype Report =
    | NoIssues(labels: seq<string>)
    | Summary(results: seq<JobResult>, successes: nat, total: nat)

  /** The label filter: always `status/todo`, plus `release/v<version>` when a version is given. */
  function Labels(version: Option<string>): (r: seq<string>)
    ensures |r| >= 1 && r[0] == "status/todo"
    ensures |r| == 2 <==> version.Some? && version.value != ""
    ensures |r| == 2 ==> r[1] == "release/v" + version.value
    ensures !(version.Some? && version.value != "") ==> r == ["status/todo"]
  {
    if version.Some? && version.value != "" then ["status/todo", "release/v" + version.value]
    else ["status/todo"]
  }

  /** The `--limit` handed to the listing: the count when given and non-zero, else 1000. */
  function LimitArg(count: Option<nat>): (r: nat)
    ensures r > 0
    ensures count.Some? && count.value > 0 ==> r == count.value
    ensures !(count.Some? && count.value > 0) ==> r == 1000
  {
    if count.Some? && count.value != 0 then count.value else 1000
  }

  function PrMode(noPr: bool): string {
    if noPr then " Push directly to main." else " Use PR workflow (create branch, pull request, and auto-merge)."
  }

  function LangInstruction(lang: Option<string>): string {
    if lang.Some? && lang.value != "" then " Output in language code '" + lang.value + "'." else ""
  }

  /** The text of the prompt before the issue number. */
  const PromptLead := "Investigate GitHub Issue #"

  /**
   * The prompt the agent receives for one issue: the sentence naming the
   * issue, then the workflow instruction, then the language instruction.
   */
  function Prompt(issue: Issue, lang: Option<string>, noPr: bool): string {
    Layout(PromptLead, NatToString(issue.number), "." + PrMode(noPr), LangInstruction(lang))
  }

  function Layout(lead: string, n: string, mid: string, tail: string): string {
    lead + n + mid + tail
  }

  /**
   * The prompt opens with the sentence naming the issue, ends with the
   * language instruction, holds the workflow instruction between them, and
   * the digits after `#` read back as the issue number.
   */
  lemma PromptShape(issue: Issue, lang: Option<string>, noPr: bool)
    ensures var p := Prompt(issue, lang, noPr);
      var head := PromptLead + NatToString(issue.number) + ".";
      && StartsWith(p, head)
      && EndsWith(p, LangInstruction(lang))
      && |p| == |head| + |PrMode(noPr)| + |LangInstruction(lang)|
      && p[|head|..|p| - |LangInstruction(lang)|] == PrMode(noPr)
    ensures NumberAt(Prompt(issue, lang, noPr), |PromptLead|) == issue.number
  {
    PrModeLead(noPr);
    PromptPieces(PromptLead, issue.number, "." + PrMode(noPr), LangInstruction(lang));
  }

  /** The workflow instruction follows a full stop. */
  lemma PrModeLead(noPr: bool)
    ensures ("." + PrMode(noPr))[0] == '.' && ("." + PrMode(noPr))[1..] == PrMode(noPr)
  {
  }

  /** The layout of a prompt, for any lead, middle after the full stop, and tail. */
  lemma PromptPieces(lead: string, number: nat, mid: string, tail: string)
    requires mid != [] && mid[0] == '.'
    ensures var p := Layout(lead, NatToString(number), mid, tail);
      var head := lead + NatToString(number) + ".";
      && StartsWith(p, head)
      && EndsWith(p, tail)
      && |p| == |head| + |mid[1..]| + |tail|
      && p[|head|..|p| - |tail|] == mid[1..]
    ensures NumberAt(Layout(lead, NatToString(number), mid, tail), |lead|) == number
  {
    NatToStringValue(number);
    assert [mid[0]] == ".";
    Pieces(lead, NatToString(number), mid, tail);
  }

  /** How a lead, a digit string, a middle opening with a non-digit and a tail lay out. */
  lemma Pieces(lead: string, n: string, mid: string, tail: string)
    requires AllDigits(n) && mid != [] && !IsDigit(mid[0])
    ensures var p := Layout(lead, n, mid, tail);
      var head := lead + n + [mid[0]];
      && StartsWith(p, head)
      && EndsWith(p, tail)
      && |p| == |head| + |mid[1..]| + |tail|
      && p[|head|..|p| - |tail|] == mid[1..]
      && Run(p, |lead|, IsDigit) == |n|
      && p[|lead|..|lead| + |n|] == n
  {
    var p := lead + n + mid + tail;
    assert p[|lead|..|lead| + |n|] == n;
    assert p[|lead| + |n|] == mid[0];
    RunExact(p, |lead|, |n|, IsDigit);
    assert p[..|lead + n + [mid[0]]|] == lead + n + [mid[0]];
    assert p[|lead + n + [mid[0]]|..|p| - |tail|] == mid[1..];
  }

  /** How many results report success, counting from the front. */
  function Successes(rs: seq<JobResult>): nat
  {
    if rs == [] then 0
    else Successes(rs[..|rs| - 1]) + (if rs[|rs| - 1].status == Success then 1 else 0)
  }

  lemma SuccessesSnoc(rs: seq<JobResult>, r: JobResult)
    ensures Successes(rs + [r]) == Successes(rs) + (if r.status == Success then 1 else 0)
  {
    assert (rs + [r])[..|rs|] == rs;
  }

  /** The success count never exceeds the number of results. */
  lemma {:induction false} SuccessesBound(rs: seq<JobResult>)
    ensures Successes(rs) <= |rs|
  {
    if rs != [] {
      SuccessesBound(rs[..|rs| - 1]);
    }
  }

  /** The success count is the number of results whose status is `Success`. */
  lemma {:induction false} SuccessesCount(rs: seq<JobResult>)
    ensures Successes(rs) == |Filter(rs, (r: JobResult) => r.status == Success)|
  {
    if rs != [] {
      var last := rs[|rs| - 1];
      SuccessesCount(rs[..|rs| - 1]);
      assert rs == rs[..|rs| - 1] + [last];
      FilterConcat(rs[..|rs| - 1], [last], (r: JobResult) => r.status == Success);
    }
  }

  /** The result the runner records for one issue, given the agent's exit code. */
  predicate RecordedAs(r: JobResult, issue: Issue, code: int) {
    r.number == issue.number && r.title == issue.title && (r.status == Success <==> code == 0)
  }

  /** The prompt of every issue, in order. */
  predicate PromptsOf(calls: seq<string>, issues: seq<Issue>, prompt: Issue -> string) {
    |calls| == |issues| && forall i :: 0 <= i < |issues| ==> calls[i] == prompt(issues[i])
  }

  /**
   * The loop of `run_batch`: the agent is called once per issue, in order,
   * with that issue's prompt, and each result records the exit code of that
   * call. `calls` is the sequence of prompts the agent received.
   */
  method RunAll(issues: seq<Issue>, prompt: Issue -> string, run: string -> int)
    returns (results: seq<JobResult>, successes: nat, calls: seq<string>)
    ensures PromptsOf(calls, issues, prompt)
    ensures |results| == |issues|
    ensures forall i :: 0 <= i < |issues| ==> RecordedAs(results[i], issues[i], run(calls[i]))
    ensures successes == Successes(results) <= |issues|
  {
    results := [];
    successes := 0;
    calls := [];
    var i := 0;
    while i < |issues|
      invariant 0 <= i <= |issues|
      invariant |results| == i
      invariant PromptsOf(calls, issues[..i], prompt)
      invariant forall j :: 0 <= j < i ==> RecordedAs(results[j], issues[j], run(calls[j]))
      invariant successes == Successes(results)
    {
      var issue := issues[i];
      var p := prompt(issue);
      var code := run(p);
      calls := calls + [p];
      var status := if code == 0 then Success else Failed;
      var r := JobResult(issue.number, issue.title, status);
      SuccessesSnoc(results, r);
      results := results + [r];
      if status == Success {
        successes := successes + 1;
      }
      i := i + 1;
    }
    assert issues[..i] == issues;
    SuccessesBound(results);
  }

  /**
   * `run_batch`: an empty listing yields `NoIssues` and calls the agent for
   * nothing; otherwise the agent is called once per issue, in order, whatever
   * the earlier exit codes were, and the summary holds one result per issue
   * and the number of successes.
   */
  method RunBatch(count: Option<nat>, lang: Option<string>, noPr: bool, version: Option<string>,
                  list: (seq<string>, nat) -> seq<Issue>, run: string -> int) returns (report: Report, calls: seq<string>)
    ensures var issues := list(Labels(version), LimitArg(count));
      && (issues == [] <==> report.NoIssues?)
      && (report.NoIssues? ==> report.labels == Labels(version) && calls == [])
      && PromptsOf(calls, issues, (issue: Issue) => Prompt(issue, lang, noPr))
      && (report.Summary? ==>
            && report.total == |issues| == |report.results|
            && (forall i :: 0 <= i < |issues| ==>
                  RecordedAs(report.results[i], issues[i], run(Prompt(issues[i], lang, noPr))))
            && report.successes == Successes(report.results)
            && report.successes <= report.total)
  {
    var labels := Labels(version);
    var issues := list(labels, LimitArg(count));
    if issues == [] {
      return NoIssues(labels), [];
    }
    var results, successes;
    results, successes, calls := RunAll(issues, (issue: Issue) => Prompt(issue, lang, noPr), run);
    report := Summary(results, successes, |issues|);
  }
}

=== FILE: mcp_server.dfy ===
/**
 * The documentation-search MCP server of mcp_server.py: the paging and
 * formatting `search` applies to the hits the search API returns, the JSON-RPC
 * 2.0 dispatch of `handle_request`, and the stdio loop that answers one request
 * per line. The HTTP fetch is a parameter `fetch` answering (query, version,
 * types) with the API's hit list or with the message of the exception raised
 * while fetching or decoding. Requests and responses are records rather than
 * JSON text.
 */
module McpServer {
  import opened Text

  // ---------------------------------------------------------------------------
  // Search results and paging
  // ---------------------------------------------------------------------------

  /** The `content` of a hit: absent, JSON `null`, or a string. */
  datatype Content = Missing | JsonNull | Text(text: string)

  /** One entry of the API's `results` list; any of its keys may be absent. */
  datatype Hit = Hit(title: Option<string>, url: Option<string>, kind: Option<string>, content: Content)

  /** One entry of the page the tool returns. */
  datatype Item = Item(title: string, url: string, kind: string, snippet: string)

  /** The object `search` returns. */
  datatype Page = Page(query: string, version: string, total: nat, offset: nat, limit: nat,
                       hasMore: bool, results: seq<Item>)

  /** The site that relative `DOCS` URLs are resolved against. */
  const DocsSite := "https://docs.opensearch.org"

  /** The longest snippet kept from a hit's content. */
  const SnippetLength := 300

  /** `r.get("content", "")` for a hit whose content is not `null`. */
  function ContentText(c: Content): string {
    if c.Text? then c.text else ""
  }

  /**
   * The exception formatting a hit raises, in the order the source reads its
   * keys: `KeyError` for a missing `url`, `type` or `title`, and `TypeError`
   * for slicing a `null` content.
   */
  function Fault(h: Hit): (r: Option<string>)
    ensures r.None? <==> h.url.Some? && h.kind.Some? && h.title.Some? && !h.content.JsonNull?
    ensures h.url.None? ==> r == Some("'url'")
    ensures h.url.Some? && h.kind.None? ==> r == Some("'type'")
    ensures h.url.Some? && h.kind.Some? && h.title.None? ==> r == Some("'title'")
  {
    if h.url.None? then Some("'url'")
    else if h.kind.None? then Some("'type'")
    else if h.title.None? then Some("'title'")
    else if h.content.JsonNull? then Some("'NoneType' object is not subscriptable")
    else None
  }

  /** Every hit can be formatted. */
  predicate Sound(hits: seq<Hit>) {
    forall i | 0 <= i < |hits| :: Fault(hits[i]).None?
  }

  /**
   * A hit as the page shows it: `DOCS` URLs made absolute, other URLs kept,
   * and the content cut to its first 300 characters.
   */
  function Format(h: Hit): (r: Item)
    requires Fault(h).None?
    ensures r.title == h.title.value && r.kind == h.kind.value
    ensures h.kind.value == "DOCS" ==> StartsWith(r.url, DocsSite) && r.url[|DocsSite|..] == h.url.value
    ensures h.kind.value != "DOCS" ==> r.url == h.url.value
    ensures |r.snippet| == Min(SnippetLength, |ContentText(h.content)|)
    ensures r.snippet <= ContentText(h.content)
  {
    var content := ContentText(h.content);
    Item(h.title.value,
         if h.kind.value == "DOCS" then DocsSite + h.url.value else h.url.value,
         h.kind.value,
         content[..Min(SnippetLength, |content|)])
  }

  /** Every hit formatted, in order. */
  function FormatAll(hits: seq<Hit>): (r: seq<Item>)
    requires Sound(hits)
    ensures |r| == |hits|
  {
    seq(|hits|, i requires 0 <= i < |hits| => Format(hits[i]))
  }

  /** `all[offset:offset + limit]` for natural `offset` and `limit`. */
  function Window(all: seq<Hit>, offset: nat, limit: nat): (r: seq<Hit>)
    ensures |r| == if offset >= |all| then 0 else Min(limit, |all| - offset)
    ensures forall i | 0 <= i < |r| :: r[i] == all[offset + i]
  {
    if offset >= |all| then [] else all[offset..Min(offset + limit, |all|)]
  }

  /** The page `search` builds from the hits the API returned. */
  function SearchPage(query: string, version: string, limit: nat, offset: nat, all: seq<Hit>): (r: Page)
    requires Sound(Window(all, offset, limit))
    ensures r.query == query && r.version == version && r.offset == offset && r.limit == limit
    ensures r.total == |all|
    ensures r.hasMore <==> offset + limit < |all|
    ensures |r.results| <= limit
    ensures |r.results| == if offset >= |all| then 0 else Min(limit, |all| - offset)
    ensures forall i | 0 <= i < |r.results| :: r.results[i] == Format(all[offset + i])
  {
    Page(query, version, |all|, offset, limit, offset + limit < |all|, FormatAll(Window(all, offset, limit)))
  }

  /** `hasMore` holds exactly when the page at `offset + limit` is not empty. */
  lemma HasMoreMeansNextPage(query: string, version: string, limit: nat, offset: nat, all: seq<Hit>)
    requires limit > 0 && Sound(all)
    ensures SearchPage(query, version, limit, offset, all).hasMore <==>
      SearchPage(query, version, limit, offset + limit, all).results != []
  {
  }

  /**
   * The items a client collects by asking for the page at `offset` and, while
   * `hasMore` holds, for the page `limit` further on.
   */
  function Browse(query: string, version: string, limit: nat, offset: nat, all: seq<Hit>): seq<Item>
    requires limit > 0 && Sound(all)
    decreases if offset <= |all| then |all| - offset else 0
  {
    var page := SearchPage(query, version, limit, offset, all);
    if page.hasMore then page.results + Browse(query, version, limit, offset + limit, all)
    else page.results
  }

  /** The formatted hits of a page are the matching slice of all formatted hits. */
  lemma PageSlice(query: string, version: string, limit: nat, offset: nat, all: seq<Hit>, hi: nat)
    requires Sound(all) && offset <= hi <= |all| && hi == Min(offset + limit, |all|)
    ensures Sound(Window(all, offset, limit))
    ensures SearchPage(query, version, limit, offset, all).results == FormatAll(all)[offset..hi]
  {
    var w := Window(all, offset, limit);
    forall i | 0 <= i < |w|
      ensures Fault(w[i]).None?
    {
      assert w[i] == all[offset + i];
    }
    var f := FormatAll(all);
    var r := SearchPage(query, version, limit, offset, all).results;
    forall i | 0 <= i < |r|
      ensures r[i] == f[offset..hi][i]
    {
      assert r[i] == Format(all[offset + i]);
    }
  }

  /** A page with more behind it is followed by what browsing on from the next offset collects. */
  lemma BrowseUnfold(query: string, version: string, limit: nat, offset: nat, all: seq<Hit>)
    requires limit > 0 && Sound(all) && Sound(Window(all, offset, limit)) && offset + limit < |all|
    ensures Browse(query, version, limit, offset, all)
      == SearchPage(query, version, limit, offset, all).results + Browse(query, version, limit, offset + limit, all)
  {
  }

  /** A page with more behind it is a full window, followed by what browsing on from the next offset collects. */
  lemma BrowseFront(query: string, version: string, limit: nat, offset: nat, all: seq<Hit>)
    requires limit > 0 && Sound(all) && offset + limit < |all|
    ensures Browse(query, version, limit, offset, all)
      == FormatAll(all)[offset..offset + limit] + Browse(query, version, limit, offset + limit, all)
  {
    PageSlice(query, version, limit, offset, all, offset + limit);
    BrowseUnfold(query, version, limit, offset, all);
  }

  /** Browsing from a page with more behind it collects everything from `offset` on, when browsing from the next offset does. */
  lemma BrowseStep(query: string, version: string, limit: nat, offset: nat, all: seq<Hit>)
    requires limit > 0 && Sound(all) && offset + limit < |all|
    requires Browse(query, version, limit, offset + limit, all) == FormatAll(all)[offset + limit..]
    ensures Browse(query, version, limit, offset, all) == FormatAll(all)[offset..]
  {
    BrowseFront(query, version, limit, offset, all);
    SuffixSplit(FormatAll(all), offset, offset + limit,
                Browse(query, version, limit, offset, all), Browse(query, version, limit, offset + limit, all));
  }

  /** A page without more behind it is everything from `offset` on. */
  lemma BrowseLast(query: string, version: string, limit: nat, offset: nat, all: seq<Hit>)
    requires limit > 0 && Sound(all) && offset <= |all| <= offset + limit
    ensures Browse(query, version, limit, offset, all) == FormatAll(all)[offset..]
  {
    PageSlice(query, version, limit, offset, all, |all|);
  }

  /** Following `hasMore` from `offset` sees every later hit exactly once, in order. */
  lemma {:induction false} BrowseSeesAll(query: string, version: string, limit: nat, offset: nat, all: seq<Hit>)
    requires limit > 0 && Sound(all) && offset <= |all|
    ensures Browse(query, version, limit, offset, all) == FormatAll(all)[offset..]
    decreases |all| - offset
  {
    if offset + limit < |all| {
      BrowseSeesAll(query, version, limit, offset + limit, all);
      BrowseStep(query, version, limit, offset, all);
    } else {
      BrowseLast(query, version, limit, offset, all);
    }
  }

  // ---------------------------------------------------------------------------
  // Requests and responses
  // ---------------------------------------------------------------------------

  /** A JSON-RPC request id; an absent id reads as `Null`. */
  datatype Id = Null | Number(n: int) | Str(s: string)

  /** The `arguments` of a `tools/call`; an absent key is `None`. */
  datatype Args = Args(query: Option<string>, version: Option<string>, types: Option<string>,
                       limit: Option<nat>, offset: Option<nat>)

  /** A request: its `method`, `id`, and the `name` and `arguments` of its `params`. */
  datatype Request = Request(methodName: Option<string>, id: Id, tool: Option<string>, args: Args)

  /** One argument of the tool's input schema: its name and JSON type. */
  datatype Property = Property(name: string, kind: string)

  /** The advertised tool: name, properties in schema order, and required arguments. */
  datatype Tool = Tool(name: string, properties: seq<Property>, required: seq<string>)

  datatype Result =
    | Initialized(protocolVersion: string, serverName: string, serverVersion: string)
    | ToolList(tools: seq<Tool>)
    /** The page, sent back as its JSON text in one `text` content block. */
    | SearchText(page: Page)
    /** A failed search: `Error: <exception>` as text, with `isError: true`. */
    | ToolError(text: string)

  datatype Body = Ok(result: Result) | Error(code: int, message: string)

  datatype Response = Response(jsonrpc: string, id: Id, body: Body)

  /** JSON-RPC's "method not found" code (section 5.1 of the JSON-RPC 2.0 specification). */
  const MethodNotFound := -32601

  /** The fetch of the search API: the hit list, or the message of the exception it raised. */
  datatype Fetch = Hits(all: seq<Hit>) | Raised(message: string)

  /** The one tool the server offers. */
  function SearchTool(): Tool {
    Tool("search",
         [Property("query", "string"), Property("version", "string"), Property("types", "string"),
          Property("limit", "integer"), Property("offset", "integer")],
         ["query"])
  }

  /** What the fetch answers for the arguments, the defaults filled in. */
  function Fetched(args: Args, fetch: (string, string, string) -> Fetch): Fetch
    requires args.query.Some?
  {
    fetch(args.query.value, args.version.GetOr("3.0"), args.types.GetOr("docs,blogs"))
  }

  /** What `search` returns once the hits are fetched: the page, or the exception formatting it raised. */
  datatype Searched = Found(page: Page) | Failed(message: string)

  /** Position of the first hit of `hits` that cannot be formatted. */
  function FirstFault(hits: seq<Hit>): (r: Option<nat>)
    ensures r.None? <==> Sound(hits)
    ensures r.Some? ==> r.value < |hits| && Fault(hits[r.value]).Some?
    ensures r.Some? ==> forall j | 0 <= j < r.value :: Fault(hits[j]).None?
  {
    var p := (i: nat) => i < |hits| && Fault(hits[i]).Some?;
    assert forall i: nat :: p(i) == (i < |hits| && Fault(hits[i]).Some?);
    FirstWhere(0, |hits|, p)
  }

  /**
   * `search` after the fetch: only the hits of the requested window are
   * formatted, so the first of them that cannot be fails the search, and hits
   * outside the window are never looked at.
   */
  function Search(query: string, version: string, limit: nat, offset: nat, all: seq<Hit>): (r: Searched)
    ensures r.Failed? <==> !Sound(Window(all, offset, limit))
    ensures r.Failed? ==> exists i | 0 <= i < |Window(all, offset, limit)| ::
      && Fault(Window(all, offset, limit)[i]) == Some(r.message)
      && forall j | 0 <= j < i :: Fault(Window(all, offset, limit)[j]).None?
    ensures r.Found? ==> r.page == SearchPage(query, version, limit, offset, all)
  {
    var window := Window(all, offset, limit);
    match FirstFault(window)
    case Some(i) => Failed(Fault(window[i]).value)
    case None => Found(SearchPage(query, version, limit, offset, all))
  }

  /** Two hit lists of the same length that agree on the window search alike, whatever lies outside it. */
  lemma SearchLooksOnlyAtWindow(query: string, version: string, limit: nat, offset: nat, a: seq<Hit>, b: seq<Hit>)
    requires |a| == |b|
    requires forall i | offset <= i < offset + limit && i < |a| :: a[i] == b[i]
    ensures Search(query, version, limit, offset, a) == Search(query, version, limit, offset, b)
  {
    assert Window(a, offset, limit) == Window(b, offset, limit);
  }

  /** The search of a `tools/call` with the defaults filled in, for a call that names a query. */
  function SearchArgs(args: Args, all: seq<Hit>): Searched
    requires args.query.Some?
  {
    Search(args.query.value, args.version.GetOr("3.0"), args.limit.GetOr(10), args.offset.GetOr(0), all)
  }

  /**
   * A `tools/call` of `search`: the query is required (a missing one raises
   * `KeyError('query')` before anything is fetched), the other arguments take
   * their defaults, and any exception becomes a tool error.
   */
  function CallSearch(args: Args, fetch: (string, string, string) -> Fetch): (r: Result)
    ensures args.query.None? ==> r == ToolError("Error: 'query'")
    ensures args.query.Some? && Fetched(args, fetch).Raised? ==>
      r == ToolError("Error: " + Fetched(args, fetch).message)
    ensures args.query.Some? && Fetched(args, fetch).Hits? && SearchArgs(args, Fetched(args, fetch).all).Failed? ==>
      r == ToolError("Error: " + SearchArgs(args, Fetched(args, fetch).all).message)
    ensures args.query.Some? && Fetched(args, fetch).Hits? && SearchArgs(args, Fetched(args, fetch).all).Found? ==>
      r == SearchText(SearchArgs(args, Fetched(args, fetch).all).page)
  {
    if args.query.None? then ToolError("Error: 'query'")
    else
      match Fetched(args, fetch)
      case Raised(m) => ToolError("Error: " + m)
      case Hits(all) =>
        match SearchArgs(args, all)
        case Failed(m) => ToolError("Error: " + m)
        case Found(page) => SearchText(page)
  }

  /** The requests the server answers with a result rather than an error or silence. */
  predicate Served(req: Request) {
    req.methodName == Some("initialize") || req.methodName == Some("tools/list") ||
    (req.methodName == Some("tools/call") && req.tool == Some("search"))
  }

  /** `handle_request`: `None` is the absent response to a notification. */
  function HandleRequest(req: Request, fetch: (string, string, string) -> Fetch): (r: Option<Response>)
    ensures r.None? <==> req.methodName == Some("notifications/initialized")
    ensures r.Some? ==> r.value.jsonrpc == "2.0" && r.value.id == req.id
    ensures r.Some? ==> (r.value.body.Ok? <==> Served(req))
    ensures r.Some? && r.value.body.Error? ==> r.value.body == Error(MethodNotFound, "Method not found")
    ensures req.methodName == Some("initialize") ==> r == Some(Response("2.0", req.id, Ok(Initialized("2024-11-05", "opensearch-docs", "1.0.0"))))
    ensures req.methodName == Some("tools/list") ==> r == Some(Response("2.0", req.id, Ok(ToolList([SearchTool()]))))
    ensures req.methodName == Some("tools/call") && req.tool == Some("search") ==>
      r == Some(Response("2.0", req.id, Ok(CallSearch(req.args, fetch))))
  {
    if req.methodName == Some("initialize") then
      Some(Response("2.0", req.id, Ok(Initialized("2024-11-05", "opensearch-docs", "1.0.0"))))
    else if req.methodName == Some("tools/list") then
      Some(Response("2.0", req.id, Ok(ToolList([SearchTool()]))))
    else if req.methodName == Some("tools/call") && req.tool == Some("search") then
      Some(Response("2.0", req.id, Ok(CallSearch(req.args, fetch))))
    else if req.methodName == Some("notifications/initialized") then None
    else Some(Response("2.0", req.id, Error(MethodNotFound, "Method not found")))
  }

  /**
   * A tool error is a result, never a JSON-RPC error: a search call always
   * answers `Ok`, and its result is a tool error exactly when the query is
   * missing, the fetch raised, or a hit of the requested page cannot be
   * formatted.
   */
  lemma SearchNeverErrors(req: Request, fetch: (string, string, string) -> Fetch)
    requires req.methodName == Some("tools/call") && req.tool == Some("search")
    ensures HandleRequest(req, fetch).Some?
    ensures HandleRequest(req, fetch).value.body.Ok?
    ensures CallSearch(req.args, fetch).ToolError? <==>
      || req.args.query.None?
      || Fetched(req.args, fetch).Raised?
      || !Sound(Window(Fetched(req.args, fetch).all, req.args.offset.GetOr(0), req.args.limit.GetOr(10)))
  {
  }

  // ---------------------------------------------------------------------------
  // The stdio loop
  // ---------------------------------------------------------------------------

  /**
   * `main`: one entry per input line, `None` for a blank line or one that is
   * not JSON (both skipped). The output holds the responses in input order;
   * notifications print nothing.
   */
  function Serve(lines: seq<Option<Request>>, fetch: (string, string, string) -> Fetch): (out: seq<Response>)
    ensures |out| <= |lines|
  {
    if lines == [] then []
    else
      var rest := Serve(lines[1..], fetch);
      match lines[0]
      case None => rest
      case Some(req) =>
        match HandleRequest(req, fetch)
        case None => rest
        case Some(resp) => [resp] + rest
  }

  /** The requests in `lines` that are not notifications. */
  function Answered(lines: seq<Option<Request>>): seq<Request> {
    if lines == [] then []
    else
      var rest := Answered(lines[1..]);
      if lines[0].Some? && lines[0].value.methodName != Some("notifications/initialized") then [lines[0].value] + rest
      else rest
  }

  /** The loop answers exactly the parsed non-notification requests, in order, each with its own id. */
  lemma {:induction false} ServeAnswers(lines: seq<Option<Request>>, fetch: (string, string, string) -> Fetch)
    ensures |Serve(lines, fetch)| == |Answered(lines)|
    ensures forall i | 0 <= i < |Answered(lines)| ::
      Some(Serve(lines, fetch)[i]) == HandleRequest(Answered(lines)[i], fetch)
  {
    if lines != [] {
      ServeAnswers(lines[1..], fetch);
    }
  }
}

=== FILE: refactor_references.dfy ===
/**
 * The report refactoring of scripts/refactor_references.py: a feature report is
 * cut into its `## ` sections, and rewritten with the sections in the house
 * order (Summary, Details, Limitations, Change History, References, Related
 * Feature Report). The old `## Related PRs` section is folded into
 * `## References` as a `### Pull Requests` subsection, and the reference links
 * are sorted into Documentation, Blog Posts and Issues subsections. Reading and
 * writing the file are left to the caller: the model maps the old text to the
 * new one.
 */
module RefactorReferences {
  import opened Text

  // ---------------------------------------------------------------------------
  // Lines that start with a marker
  // ---------------------------------------------------------------------------

  function Marked(m: string): string -> bool {
    (l: string) => StartsWith(l, m)
  }

  /** The lines of `s` (split at `\n`) that start with `m`, in order. */
  function MarkedLines(s: string, m: string): seq<string> {
    Filter(Split(s, '\n'), Marked(m))
  }

  /** The marked lines of each piece, one piece after another. */
  function MarkedPieces(pieces: seq<string>, m: string): seq<string>
    decreases |pieces|
  {
    if pieces == [] then [] else MarkedLines(pieces[0], m) + MarkedPieces(pieces[1..], m)
  }

  /** The string ends in a character that is not whitespace. */
  predicate SolidEnd(h: string) { h != [] && !IsSpace(h[|h| - 1]) }

  /** Every line ends in a character that is not whitespace. */
  predicate SolidEnds(lines: seq<string>) {
    forall l | l in lines :: l != [] && !IsSpace(l[|l| - 1])
  }

  lemma MarkedEmpty(m: string)
    requires m != []
    ensures MarkedLines("", m) == []
  {
    assert Split("", '\n') == [""];
  }

  /** A piece without a newline is one line. */
  lemma MarkedLine(l: string, m: string)
    requires '\n' !in l
    ensures MarkedLines(l, m) == if StartsWith(l, m) then [l] else []
  {
    SplitNoSep(l, '\n');
  }

  lemma MarkedConcat(a: string, b: string, m: string)
    ensures MarkedLines(a + ['\n'] + b, m) == MarkedLines(a, m) + MarkedLines(b, m)
  {
    SplitConcat(a, '\n', b);
    FilterConcat(Split(a, '\n'), Split(b, '\n'), Marked(m));
  }

  lemma {:induction false} MarkedPiecesConcat(p: seq<string>, q: seq<string>, m: string)
    ensures MarkedPieces(p + q, m) == MarkedPieces(p, m) + MarkedPieces(q, m)
    decreases |p|
  {
    if p == [] {
      assert p + q == q;
    } else {
      MarkedPiecesConcat(p[1..], q, m);
      TailOfConcat(p, q);
      AppendAssoc(MarkedLines(p[0], m), MarkedPieces(p[1..], m), MarkedPieces(q, m));
    }
  }

  /** The marked lines of joined pieces are those of each piece in turn. */
  lemma {:induction false} MarkedJoin(pieces: seq<string>, m: string)
    requires m != []
    ensures MarkedLines(Join(pieces, '\n'), m) == MarkedPieces(pieces, m)
    decreases |pieces|
  {
    if pieces == [] {
      MarkedEmpty(m);
    } else if |pieces| == 1 {
      assert MarkedPieces(pieces[1..], m) == [];
    } else {
      MarkedJoin(pieces[1..], m);
      MarkedConcat(pieces[0], Join(pieces[1..], '\n'), m);
    }
  }

  lemma MarkedSnocNewline(x: string, m: string)
    requires m != []
    ensures MarkedLines(x + ['\n'], m) == MarkedLines(x, m)
  {
    SplitConcat(x, '\n', []);
    assert x + ['\n'] == x + ['\n'] + [];
    assert Split([], '\n') == [[]];
    FilterConcat(Split(x, '\n'), [[]], Marked(m));
  }

  /** Dropping a line the filter rejects from the end changes nothing. */
  lemma FilterSnocRejected(init: seq<string>, x: string, m: string)
    requires !StartsWith(x, m)
    ensures Filter(init + [x], Marked(m)) == Filter(init, Marked(m))
  {
    FilterConcat(init, [x], Marked(m));
    assert Filter([x], Marked(m)) == [];
  }

  /** A last line that grows by a space is marked only if it has a blank end. */
  lemma GrownUnmarked(parts: seq<string>, last: string, c: char, m: string)
    requires IsSpace(c) && last + [c] in parts
    requires SolidEnds(Filter(parts, Marked(m)))
    ensures !StartsWith(last + [c], m) && !StartsWith(last, m)
  {
    var grown := last + [c];
    assert grown[|grown| - 1] == c;
    if |m| <= |last| {
      assert grown[..|m|] == last[..|m|];
    }
  }

  lemma MarkedSnocOther(x: string, c: char, m: string)
    requires m != [] && c != '\n' && IsSpace(c)
    requires SolidEnds(MarkedLines(x + [c], m))
    ensures MarkedLines(x + [c], m) == MarkedLines(x, m)
  {
    SplitSnoc(x, c, '\n');
    var parts := Split(x, '\n');
    var init, last := parts[..|parts| - 1], parts[|parts| - 1];
    assert parts == init + [last];
    var grownParts := init + [last + [c]];
    assert Split(x + [c], '\n') == grownParts;
    assert last + [c] in grownParts;
    GrownUnmarked(grownParts, last, c, m);
    FilterSnocRejected(init, last + [c], m);
    FilterSnocRejected(init, last, m);
  }

  /** One trailing whitespace character never adds or removes a marked line whose end is solid. */
  lemma MarkedSnocSpace(x: string, c: char, m: string)
    requires m != [] && IsSpace(c)
    requires SolidEnds(MarkedLines(x + [c], m))
    ensures MarkedLines(x + [c], m) == MarkedLines(x, m)
  {
    if c == '\n' {
      MarkedSnocNewline(x, m);
    } else {
      MarkedSnocOther(x, c, m);
    }
  }

  /**
   * `rstrip()` keeps every marked line when each of them ends in a
   * non-whitespace character.
   */
  lemma {:induction false} MarkedTrimRight(s: string, m: string)
    requires m != []
    requires SolidEnds(MarkedLines(s, m))
    ensures MarkedLines(TrimRight(s), m) == MarkedLines(s, m)
    decreases |s|
  {
    if s != [] && IsSpace(s[|s| - 1]) {
      var x := s[..|s| - 1];
      assert s == x + [s[|s| - 1]];
      MarkedSnocSpace(x, s[|s| - 1], m);
      MarkedTrimRight(x, m);
    }
  }

  /** Text with no marked line keeps none after `rstrip()`. */
  lemma UnmarkedTrimRight(s: string, m: string)
    requires m != [] && MarkedLines(s, m) == []
    ensures MarkedLines(TrimRight(s), m) == []
  {
    MarkedTrimRight(s, m);
  }

  // ---------------------------------------------------------------------------
  // parse_sections
  // ---------------------------------------------------------------------------

  /** A line opening a section. */
  predicate IsHeader(line: string) { StartsWith(line, "## ") }

  /** The section name a header line opens: the rest of the line, stripped. */
  function HeaderName(line: string): string
    requires IsHeader(line)
  {
    Trim(line[3..])
  }

  /** The scan state: sections closed so far, the open section's name and its lines. */
  datatype Scan = Scan(sections: map<string, string>, current: string, block: seq<string>)

  /** Close the open section; a section with no lines at all is not recorded. */
  function Flush(sc: Scan): map<string, string> {
    if sc.block != [] then sc.sections[sc.current := Join(sc.block, '\n')] else sc.sections
  }

  function ScanLine(sc: Scan, line: string): Scan {
    if IsHeader(line) then Scan(Flush(sc), HeaderName(line), []) else sc.(block := sc.block + [line])
  }

  function ScanLines(sc: Scan, lines: seq<string>): Scan
    decreases |lines|
  {
    if lines == [] then sc else ScanLines(ScanLine(sc, lines[0]), lines[1..])
  }

  /** Before any header, lines belong to the section named `preamble`. */
  const Start := Scan(map[], "preamble", [])

  /** Every recorded section body is free of header lines, and so is the open block. */
  predicate Clean(sc: Scan) {
    && (forall k | k in sc.sections :: MarkedLines(sc.sections[k], "## ") == [])
    && (forall i :: 0 <= i < |sc.block| ==> '\n' !in sc.block[i] && !IsHeader(sc.block[i]))
  }

  lemma FlushClean(sc: Scan)
    requires Clean(sc)
    ensures forall k | k in Flush(sc) :: MarkedLines(Flush(sc)[k], "## ") == []
  {
    if sc.block != [] {
      SplitJoin(sc.block, '\n');
      FilterNone(sc.block, Marked("## "));
    }
  }

  lemma {:induction false} ScanLinesClean(sc: Scan, lines: seq<string>)
    requires Clean(sc)
    requires forall i :: 0 <= i < |lines| ==> '\n' !in lines[i]
    ensures Clean(ScanLines(sc, lines))
    decreases |lines|
  {
    if lines != [] {
      if IsHeader(lines[0]) {
        FlushClean(sc);
      }
      ScanLinesClean(ScanLine(sc, lines[0]), lines[1..]);
    }
  }

  /** The sections of a list of lines. */
  function ParseLines(lines: seq<string>): map<string, string> {
    Flush(ScanLines(Start, lines))
  }

  /** `parse_sections`: the sections of a report, by name; no body holds a header line. */
  function ParseSections(content: string): (sections: map<string, string>)
    ensures forall k | k in sections :: MarkedLines(sections[k], "## ") == []
  {
    var lines := Split(content, '\n');
    ScanLinesClean(Start, lines);
    FlushClean(ScanLines(Start, lines));
    ParseLines(lines)
  }

  lemma {:induction false} ScanLinesConcat(sc: Scan, a: seq<string>, b: seq<string>)
    ensures ScanLines(sc, a + b) == ScanLines(ScanLines(sc, a), b)
    decreases |a|
  {
    if a == [] {
      assert a + b == b;
    } else {
      TailOfConcat(a, b);
      ScanLinesConcat(ScanLine(sc, a[0]), a[1..], b);
    }
  }

  /** Lines that are not headers pile up in the open section. */
  lemma {:induction false} ScanLinesPlain(sc: Scan, lines: seq<string>)
    requires forall i :: 0 <= i < |lines| ==> !IsHeader(lines[i])
    ensures ScanLines(sc, lines) == sc.(block := sc.block + lines)
    decreases |lines|
  {
    if lines != [] {
      ScanLinesPlain(ScanLine(sc, lines[0]), lines[1..]);
      AppendAssoc(sc.block, [lines[0]], lines[1..]);
      assert [lines[0]] + lines[1..] == lines;
    }
  }

  /** A report without any `## ` line is all preamble. */
  lemma NoHeadersAllPreamble(content: string)
    requires forall l | l in Split(content, '\n') :: !IsHeader(l)
    ensures ParseSections(content) == map["preamble" := content]
  {
    var lines := Split(content, '\n');
    ScanLinesPlain(Start, lines);
    assert [] + lines == lines;
    JoinSplit(content, '\n');
  }

  /** The lines before the first header are recorded as `preamble` when that header is met. */
  lemma PreambleBeforeFirstHeader(pre: seq<string>, h: string)
    requires pre != [] && IsHeader(h)
    requires forall i :: 0 <= i < |pre| ==> !IsHeader(pre[i])
    ensures ScanLines(Start, pre + [h]) == Scan(map["preamble" := Join(pre, '\n')], HeaderName(h), [])
  {
    ScanLinesConcat(Start, pre, [h]);
    ScanLinesPlain(Start, pre);
    assert [] + pre == pre;
  }

  lemma HeaderPair(sc: Scan, h1: string, h2: string)
    requires IsHeader(h1) && IsHeader(h2)
    ensures ScanLines(sc, [h1, h2]) == ScanLines(sc, [h2])
  {
    assert [h1, h2][1..] == [h2];
    assert [h2][1..] == [];
  }

  /** A header directly followed by another header records nothing for the first. */
  lemma EmptySectionDropped(pre: seq<string>, h1: string, h2: string, post: seq<string>)
    requires IsHeader(h1) && IsHeader(h2)
    ensures ParseLines(pre + [h1, h2] + post) == ParseLines(pre + [h2] + post)
  {
    var sc := ScanLines(Start, pre);
    ScanLinesConcat(Start, pre + [h1, h2], post);
    ScanLinesConcat(Start, pre + [h2], post);
    ScanLinesConcat(Start, pre, [h1, h2]);
    ScanLinesConcat(Start, pre, [h2]);
    HeaderPair(sc, h1, h2);
  }

  /** Headers of other names neither overwrite a recorded section nor reopen it. */
  lemma {:induction false} OtherSectionsKeep(sc: Scan, lines: seq<string>, name: string)
    requires name in sc.sections && sc.current != name
    requires forall i :: 0 <= i < |lines| && IsHeader(lines[i]) ==> HeaderName(lines[i]) != name
    ensures var r := ScanLines(sc, lines);
      name in r.sections && r.sections[name] == sc.sections[name] && r.current != name
    decreases |lines|
  {
    if lines != [] {
      OtherSectionsKeep(ScanLine(sc, lines[0]), lines[1..], name);
    }
  }

  /**
   * A section's recorded body is its last non-empty block: whatever came
   * earlier, including an earlier section of the same name, is overwritten,
   * and the sections after it, none of the same name, leave it alone.
   */
  lemma LastBlockWins(pre: seq<string>, h: string, body: seq<string>, post: seq<string>)
    requires IsHeader(h) && body != []
    requires forall i :: 0 <= i < |body| ==> !IsHeader(body[i])
    requires post == [] || IsHeader(post[0])
    requires forall i :: 0 <= i < |post| && IsHeader(post[i]) ==> HeaderName(post[i]) != HeaderName(h)
    ensures var sections := ParseLines(pre + [h] + body + post);
      HeaderName(h) in sections && sections[HeaderName(h)] == Join(body, '\n')
  {
    ReachBody(pre, h, body);
    ScanLinesConcat(Start, pre + [h] + body, post);
    AfterBody(Scan(Flush(ScanLines(Start, pre)), HeaderName(h), body), post);
  }

  /** An open non-empty section is recorded, and kept, once the rest holds only sections of other names. */
  lemma AfterBody(sc: Scan, post: seq<string>)
    requires sc.block != []
    requires post == [] || IsHeader(post[0])
    requires forall i :: 0 <= i < |post| && IsHeader(post[i]) ==> HeaderName(post[i]) != sc.current
    ensures var sections := Flush(ScanLines(sc, post));
      sc.current in sections && sections[sc.current] == Join(sc.block, '\n')
  {
    if post != [] {
      var closed := ScanLine(sc, post[0]);
      assert ScanLines(sc, post) == ScanLines(closed, post[1..]);
      forall i | 0 <= i < |post[1..]| && IsHeader(post[1..][i])
        ensures HeaderName(post[1..][i]) != sc.current
      {
        assert post[1..][i] == post[i + 1];
      }
      OtherSectionsKeep(closed, post[1..], sc.current);
      FlushKeeps(ScanLines(closed, post[1..]), sc.current);
    }
  }

  /** After a header and the lines of its section, that section is open with exactly those lines. */
  lemma ReachBody(pre: seq<string>, h: string, body: seq<string>)
    requires IsHeader(h)
    requires forall i :: 0 <= i < |body| ==> !IsHeader(body[i])
    ensures ScanLines(Start, pre + [h] + body) == Scan(Flush(ScanLines(Start, pre)), HeaderName(h), body)
  {
    var sc := ScanLines(Start, pre);
    AppendAssoc(pre, [h], body);
    ScanLinesConcat(Start, pre, [h] + body);
    assert ([h] + body)[1..] == body;
    ScanLinesPlain(ScanLine(sc, h), body);
    assert [] + body == body;
  }

  /** Closing a section of another name keeps a recorded one. */
  lemma FlushKeeps(sc: Scan, name: string)
    requires name in sc.sections && sc.current != name
    ensures name in Flush(sc) && Flush(sc)[name] == sc.sections[name]
  {
  }

  // ---------------------------------------------------------------------------
  // extract_references_parts
  // ---------------------------------------------------------------------------

  /** `#\d+\]` starting at position `k`. */
  predicate NumberRefAt(s: string, k: nat) {
    k < |s| && s[k] == '#' && exists e | k + 1 < e < |s| :: AllDigits(s[k + 1..e]) && s[e] == ']'
  }

  // `\[.*issue.*#\d+\]` somewhere in a lower-cased line: an opening bracket,
  // later the word `issue`, later a `#`-number closed by a bracket. Lines come
  // from splitting at newlines, so `.` matches every character of them.
  predicate IssueBracket(lo: string) {
    exists j | 0 <= j <= |lo| - 5 ::
      && StartsWith(lo[j..], "issue")
      && '[' in lo[..j]
      && exists k | j + 5 <= k < |lo| :: NumberRefAt(lo, k)
  }

  // `github\.com/.*/issues/` somewhere in a lower-cased line.
  predicate IssueUrl(lo: string) {
    exists i | 0 <= i <= |lo| - 11 :: StartsWith(lo[i..], "github.com/") && Contains(lo[i + 11..], "/issues/")
  }

  /** The three case-insensitive searches, each on the lower-cased line. */
  predicate MentionsIssue(line: string) { IssueBracket(Lower(line)) || IssueUrl(Lower(line)) }

  predicate MentionsBlog(line: string) { Contains(Lower(line), "blog") || Contains(Lower(line), "announcement") }

  predicate MentionsDocs(line: string) {
    Contains(Lower(line), "docs.opensearch.org") || Contains(Lower(line), "documentation")
  }

  datatype Bucket = IssueRef | BlogRef | DocRef | OtherRef

  /** The first search that matches decides the bucket: issue, then blog, then documentation. */
  function Classify(line: string): Bucket {
    if MentionsIssue(line) then IssueRef
    else if MentionsBlog(line) then BlogRef
    else if MentionsDocs(line) then DocRef
    else OtherRef
  }

  /** A stripped reference line worth keeping: not blank, not a heading. */
  predicate IsRefItem(line: string) { line != "" && !StartsWith(line, "#") }

  /** The reference lines that are kept, stripped, in order. */
  function Kept(lines: seq<string>): seq<string>
    decreases |lines|
  {
    if lines == [] then []
    else (if IsRefItem(Trim(lines[0])) then [Trim(lines[0])] else []) + Kept(lines[1..])
  }

  datatype Parts = Parts(docs: seq<string>, blogs: seq<string>, issues: seq<string>, other: seq<string>)

  const NoParts := Parts([], [], [], [])

  function Bucketed(p: Parts, b: Bucket): seq<string> {
    match b
    case IssueRef => p.issues
    case BlogRef => p.blogs
    case DocRef => p.docs
    case OtherRef => p.other
  }

  function Add(p: Parts, line: string): Parts {
    match Classify(line)
    case IssueRef => p.(issues := p.issues + [line])
    case BlogRef => p.(blogs := p.blogs + [line])
    case DocRef => p.(docs := p.docs + [line])
    case OtherRef => p.(other := p.other + [line])
  }

  /** What one stripped line adds: itself to its bucket when it is kept, nothing otherwise. */
  function Take(p: Parts, line: string): Parts {
    if IsRefItem(line) then Add(p, line) else p
  }

  function ExtractFrom(lines: seq<string>, p: Parts): Parts
    decreases |lines|
  {
    if lines == [] then p else ExtractFrom(lines[1..], Take(p, Trim(lines[0])))
  }

  /** `extract_references_parts` */
  function ExtractParts(refs: string): Parts {
    ExtractFrom(Split(Trim(refs), '\n'), NoParts)
  }

  /** The lines of `refs` the extraction looks at. */
  function RefItems(refs: string): seq<string> { Kept(Split(Trim(refs), '\n')) }

  function InBucket(b: Bucket): string -> bool {
    (l: string) => Classify(l) == b
  }

  function Single(line: string): seq<string> { if IsRefItem(line) then [line] else [] }

  lemma TakeBucketed(p: Parts, line: string, b: Bucket)
    ensures Bucketed(Take(p, line), b) == Bucketed(p, b) + Filter(Single(line), InBucket(b))
  {
    if IsRefItem(line) {
      assert Filter([line], InBucket(b)) == if Classify(line) == b then [line] else [];
    }
  }

  lemma KeptCons(lines: seq<string>)
    requires lines != []
    ensures Kept(lines) == Single(Trim(lines[0])) + Kept(lines[1..])
  {
  }

  lemma {:induction false} ExtractFromBucket(lines: seq<string>, p: Parts, b: Bucket)
    ensures Bucketed(ExtractFrom(lines, p), b) == Bucketed(p, b) + Filter(Kept(lines), InBucket(b))
    decreases |lines|
  {
    if lines != [] {
      var line := Trim(lines[0]);
      var rest := Kept(lines[1..]);
      ExtractFromBucket(lines[1..], Take(p, line), b);
      TakeBucketed(p, line, b);
      KeptCons(lines);
      FilterConcat(Single(line), rest, InBucket(b));
      AppendAssoc(Bucketed(p, b), Filter(Single(line), InBucket(b)), Filter(rest, InBucket(b)));
    }
  }

  /** Each bucket holds exactly the kept lines the classifier sends there, in their original order. */
  lemma ExtractPartsBuckets(refs: string, b: Bucket)
    ensures Bucketed(ExtractParts(refs), b) == Filter(RefItems(refs), InBucket(b))
  {
    ExtractFromBucket(Split(Trim(refs), '\n'), NoParts, b);
  }

  /** Parts whose buckets are the four filters of one sequence hold each of its elements exactly once. */
  lemma BucketsPartition(p: Parts, items: seq<string>)
    requires forall b :: Bucketed(p, b) == Filter(items, InBucket(b))
    ensures multiset(p.issues) + multiset(p.blogs) + multiset(p.docs) + multiset(p.other) == multiset(items)
  {
    assert Bucketed(p, IssueRef) == p.issues && Bucketed(p, BlogRef) == p.blogs;
    assert Bucketed(p, DocRef) == p.docs && Bucketed(p, OtherRef) == p.other;
    forall x
      ensures (multiset(p.issues) + multiset(p.blogs) + multiset(p.docs) + multiset(p.other))[x] == multiset(items)[x]
    {
      FilterMultiset(items, InBucket(IssueRef), x);
      FilterMultiset(items, InBucket(BlogRef), x);
      FilterMultiset(items, InBucket(DocRef), x);
      FilterMultiset(items, InBucket(OtherRef), x);
    }
  }

  /** The four buckets together hold every kept line exactly once. */
  lemma ExtractPartsPartition(refs: string)
    ensures var p := ExtractParts(refs);
      multiset(p.issues) + multiset(p.blogs) + multiset(p.docs) + multiset(p.other) == multiset(RefItems(refs))
  {
    forall b
      ensures Bucketed(ExtractParts(refs), b) == Filter(RefItems(refs), InBucket(b))
    {
      ExtractPartsBuckets(refs, b);
    }
    BucketsPartition(ExtractParts(refs), RefItems(refs));
  }

  /** Every kept line is stripped, non-empty, on one line, and not a heading. */
  lemma {:induction false} KeptItems(lines: seq<string>)
    requires forall i :: 0 <= i < |lines| ==> '\n' !in lines[i]
    ensures forall l | l in Kept(lines) :: IsRefItem(l) && '\n' !in l
    decreases |lines|
  {
    if lines != [] {
      KeptItems(lines[1..]);
      var t := Trim(lines[0]);
      assert forall i :: 0 <= i < |t| ==> t[i] in lines[0] by {
        assert TrimLeft(lines[0]) == lines[0][|lines[0]| - |TrimLeft(lines[0])|..];
      }
    }
  }

  // ---------------------------------------------------------------------------
  // format_pr_table
  // ---------------------------------------------------------------------------

  /** A line of the pull-request table: not blank, and starting with `|` or `-`. */
  predicate IsTableLine(l: string) { Trim(l) != "" && (StartsWith(l, "|") || StartsWith(l, "-")) }

  function TableLines(prs: string): seq<string> { Filter(Split(Trim(prs), '\n'), IsTableLine) }

  /** `format_pr_table`: the table lines of the old `Related PRs` body, joined back. */
  function FormatPrTable(prs: string): string {
    Join(TableLines(prs), '\n')
  }

  /** A table line is never empty. */
  lemma TableLineNonEmpty(l: string)
    requires IsTableLine(l)
    ensures l != []
  {
  }

  /** A join of parts whose first part is non-empty is non-empty. */
  lemma JoinNonEmpty(parts: seq<string>, sep: char)
    requires parts != [] && parts[0] != []
    ensures Join(parts, sep) != []
  {
    JoinHead(parts, sep);
  }

  /** Table lines come from splitting at newlines, so none of them holds one. */
  lemma TableLinesOneLine(prs: string)
    ensures forall i :: 0 <= i < |TableLines(prs)| ==> '\n' !in TableLines(prs)[i]
  {
    var parts := Split(Trim(prs), '\n');
    var tl := TableLines(prs);
    forall i | 0 <= i < |tl|
      ensures '\n' !in tl[i]
    {
      assert tl[i] in tl;
      assert tl[i] in parts;
    }
  }

  /** The table is empty exactly when no line qualifies, and splits back into the qualifying lines. */
  lemma FormatPrTableLines(prs: string)
    ensures FormatPrTable(prs) == "" <==> TableLines(prs) == []
    ensures TableLines(prs) != [] ==> Split(FormatPrTable(prs), '\n') == TableLines(prs)
  {
    var tl := TableLines(prs);
    if tl != [] {
      assert tl[0] in tl;
      TableLineNonEmpty(tl[0]);
      JoinNonEmpty(tl, '\n');
      TableLinesOneLine(prs);
      SplitJoin(tl, '\n');
    }
  }

  // ---------------------------------------------------------------------------
  // build_references_section
  // ---------------------------------------------------------------------------

  /** `sections.get(name, '')` */
  function Get(sections: map<string, string>, name: string): string {
    if name in sections then sections[name] else ""
  }

  /** A subsection when `c` holds: its heading, its lines, and a blank line; nothing otherwise. */
  function Subsection(c: bool, heading: string, body: seq<string>): seq<string> {
    if c then [heading] + body + [""] else []
  }

  /** The subsections that have content, in the order Documentation, Blog Posts, Pull Requests, Issues. */
  function ReferenceLines(p: Parts, table: string): seq<string> {
    Subsection(p.docs != [] || p.other != [], "### Documentation", p.docs + p.other)
    + Subsection(p.blogs != [], "### Blog Posts", p.blogs)
    + Subsection(table != "", "### Pull Requests", [table])
    + Subsection(p.issues != [], "### Issues (Design / RFC)", p.issues)
  }

  /** The subsections joined into lines, without trailing whitespace. */
  function ReferencesBody(p: Parts, table: string): string {
    TrimRight(Join(ReferenceLines(p, table), '\n'))
  }

  /** `build_references_section`: the References body built from the old References and Related PRs sections. */
  function BuildReferencesSection(sections: map<string, string>): string {
    ReferencesBody(ExtractParts(Get(sections, "References")), FormatPrTable(Get(sections, "Related PRs")))
  }

  function When(c: bool, x: string): seq<string> { if c then [x] else [] }

  /** The subsection headings the References body should carry, from what each subsection would hold. */
  function ReferenceHeadings(p: Parts, hasTable: bool): seq<string> {
    When(p.docs != [] || p.other != [], "### Documentation")
    + When(p.blogs != [], "### Blog Posts")
    + When(hasTable, "### Pull Requests")
    + When(p.issues != [], "### Issues (Design / RFC)")
  }

  /** Lines that are single lines and do not start with `#`. */
  predicate PlainLines(ls: seq<string>) {
    forall i :: 0 <= i < |ls| ==> '\n' !in ls[i] && !StartsWith(ls[i], "#")
  }

  lemma {:induction false} PlainPieces(ls: seq<string>)
    requires PlainLines(ls)
    ensures MarkedPieces(ls, "#") == []
    decreases |ls|
  {
    if ls != [] {
      MarkedLine(ls[0], "#");
      PlainPieces(ls[1..]);
    }
  }

  /** The kept reference lines are plain. */
  lemma RefItemsPlain(refs: string)
    ensures PlainLines(RefItems(refs))
  {
    KeptItems(Split(Trim(refs), '\n'));
    var items := RefItems(refs);
    forall i | 0 <= i < |items|
      ensures '\n' !in items[i] && !StartsWith(items[i], "#")
    {
      assert items[i] in items;
    }
  }

  /** A filter of plain lines is plain. */
  lemma FilterPlain(ls: seq<string>, f: string -> bool)
    requires PlainLines(ls)
    ensures PlainLines(Filter(ls, f))
  {
    var r := Filter(ls, f);
    forall i | 0 <= i < |r|
      ensures '\n' !in r[i] && !StartsWith(r[i], "#")
    {
      assert r[i] in r;
    }
  }

  /** One bucket of the extraction holds plain lines only. */
  lemma BucketPlain(refs: string, b: Bucket)
    ensures PlainLines(Bucketed(ExtractParts(refs), b))
  {
    ExtractPartsBuckets(refs, b);
    RefItemsPlain(refs);
    FilterPlain(RefItems(refs), InBucket(b));
  }

  /** Every bucket of the extraction holds plain lines only. */
  lemma PartsPlain(refs: string)
    ensures var p := ExtractParts(refs);
      PlainLines(p.docs) && PlainLines(p.blogs) && PlainLines(p.issues) && PlainLines(p.other)
  {
    BucketPlain(refs, DocRef);
    BucketPlain(refs, BlogRef);
    BucketPlain(refs, IssueRef);
    BucketPlain(refs, OtherRef);
  }

  /** Every table line starts with `|` or `-`. */
  lemma TableLinesStart(prs: string)
    ensures forall i :: 0 <= i < |TableLines(prs)| ==> StartsWith(TableLines(prs)[i], "|") || StartsWith(TableLines(prs)[i], "-")
    ensures forall i :: 0 <= i < |TableLines(prs)| ==> !StartsWith(TableLines(prs)[i], "#")
  {
    var tl := TableLines(prs);
    forall i | 0 <= i < |tl|
      ensures StartsWith(tl[i], "|") || StartsWith(tl[i], "-")
      ensures !StartsWith(tl[i], "#")
    {
      assert tl[i] in tl;
      assert IsTableLine(tl[i]);
    }
  }

  /** The pull-request table holds no line starting with `#`. */
  lemma TableUnmarked(prs: string)
    ensures MarkedLines(FormatPrTable(prs), "#") == []
  {
    var tl := TableLines(prs);
    FormatPrTableLines(prs);
    if tl == [] {
      MarkedEmpty("#");
    } else {
      TableLinesStart(prs);
      FilterNone(tl, Marked("#"));
    }
  }

  /** A subsection contributes its heading, and only that, to the lines starting with marker `m`. */
  lemma SubsectionPieces(c: bool, heading: string, body: seq<string>, m: string)
    requires m != [] && HeadingShape(heading, m)
    requires MarkedPieces(body, m) == []
    ensures MarkedPieces(Subsection(c, heading, body), m) == When(c, heading)
  {
    if c {
      MarkedLine(heading, m);
      MarkedEmpty(m);
      SinglePiece("", m);
      MarkedPiecesConcat([heading], body, m);
      MarkedPiecesConcat([heading] + body, [""], m);
    }
  }

  lemma PlainConcat(a: seq<string>, b: seq<string>)
    requires PlainLines(a) && PlainLines(b)
    ensures PlainLines(a + b)
  {
  }

  lemma FourPieces(a: seq<string>, b: seq<string>, c: seq<string>, d: seq<string>, m: string)
    ensures MarkedPieces(a + b + c + d, m) == MarkedPieces(a, m) + MarkedPieces(b, m) + MarkedPieces(c, m) + MarkedPieces(d, m)
  {
    MarkedPiecesConcat(a, b, m);
    MarkedPiecesConcat(a + b, c, m);
    MarkedPiecesConcat(a + b + c, d, m);
  }

  lemma SinglePiece(x: string, m: string)
    ensures MarkedPieces([x], m) == MarkedLines(x, m)
  {
    assert [x][1..] == [];
  }

  /** A subsection heading is one line starting with `#`. */
  predicate HeadingShape(h: string, m: string) { '\n' !in h && StartsWith(h, m) }

  lemma HeadingsShape()
    ensures HeadingShape("### Documentation", "#") && HeadingShape("### Blog Posts", "#")
    ensures HeadingShape("### Pull Requests", "#") && HeadingShape("### Issues (Design / RFC)", "#")
  {
  }

  lemma ReferenceLinesHeadings(p: Parts, table: string)
    requires PlainLines(p.docs) && PlainLines(p.blogs) && PlainLines(p.issues) && PlainLines(p.other)
    requires MarkedLines(table, "#") == []
    ensures MarkedPieces(ReferenceLines(p, table), "#") == ReferenceHeadings(p, table != "")
  {
    PlainConcat(p.docs, p.other);
    PlainPieces(p.docs + p.other);
    PlainPieces(p.blogs);
    PlainPieces(p.issues);
    SinglePiece(table, "#");
    HeadingsShape();
    var a := Subsection(p.docs != [] || p.other != [], "### Documentation", p.docs + p.other);
    var b := Subsection(p.blogs != [], "### Blog Posts", p.blogs);
    var c := Subsection(table != "", "### Pull Requests", [table]);
    var d := Subsection(p.issues != [], "### Issues (Design / RFC)", p.issues);
    SubsectionPieces(p.docs != [] || p.other != [], "### Documentation", p.docs + p.other, "#");
    SubsectionPieces(p.blogs != [], "### Blog Posts", p.blogs, "#");
    SubsectionPieces(table != "", "### Pull Requests", [table], "#");
    SubsectionPieces(p.issues != [], "### Issues (Design / RFC)", p.issues, "#");
    FourPieces(a, b, c, d, "#");
  }

  lemma SolidConcat(a: seq<string>, b: seq<string>)
    requires SolidEnds(a) && SolidEnds(b)
    ensures SolidEnds(a + b)
  {
  }

  lemma WhenSolid(c: bool, x: string)
    requires SolidEnd(x)
    ensures SolidEnds(When(c, x))
  {
  }

  /** Four optional headings that each end in a non-whitespace character. */
  lemma FourSolid(c1: bool, h1: string, c2: bool, h2: string, c3: bool, h3: string, c4: bool, h4: string)
    requires SolidEnd(h1) && SolidEnd(h2) && SolidEnd(h3) && SolidEnd(h4)
    ensures SolidEnds(When(c1, h1) + When(c2, h2) + When(c3, h3) + When(c4, h4))
  {
    WhenSolid(c1, h1);
    WhenSolid(c2, h2);
    WhenSolid(c3, h3);
    WhenSolid(c4, h4);
    SolidConcat(When(c1, h1), When(c2, h2));
    SolidConcat(When(c1, h1) + When(c2, h2), When(c3, h3));
    SolidConcat(When(c1, h1) + When(c2, h2) + When(c3, h3), When(c4, h4));
  }

  lemma SubsectionHeadingsSolid()
    ensures SolidEnd("### Documentation") && SolidEnd("### Blog Posts")
    ensures SolidEnd("### Pull Requests") && SolidEnd("### Issues (Design / RFC)")
  {
  }

  /** Every subsection heading ends in a letter or a parenthesis, never in whitespace. */
  lemma HeadingsSolid(p: Parts, hasTable: bool)
    ensures SolidEnds(ReferenceHeadings(p, hasTable))
  {
    SubsectionHeadingsSolid();
    FourSolid(p.docs != [] || p.other != [], "### Documentation", p.blogs != [], "### Blog Posts",
              hasTable, "### Pull Requests", p.issues != [], "### Issues (Design / RFC)");
  }

  /**
   * The lines of the References body that start with `#` are exactly the
   * headings of the subsections that have content, in the order
   * Documentation (documentation and other links), Blog Posts, Pull Requests,
   * Issues.
   */
  lemma BuildReferencesHeadings(sections: map<string, string>)
    ensures var p := ExtractParts(Get(sections, "References"));
      MarkedLines(BuildReferencesSection(sections), "#") ==
        ReferenceHeadings(p, TableLines(Get(sections, "Related PRs")) != [])
  {
    var p := ExtractParts(Get(sections, "References"));
    var prs := Get(sections, "Related PRs");
    var table := FormatPrTable(prs);
    PartsPlain(Get(sections, "References"));
    TableUnmarked(prs);
    FormatPrTableLines(prs);
    ReferenceLinesHeadings(p, table);
    var joined := Join(ReferenceLines(p, table), '\n');
    MarkedJoin(ReferenceLines(p, table), "#");
    HeadingsSolid(p, table != "");
    MarkedTrimRight(joined, "#");
  }

  /** No bucket is filled when there is no reference line. */
  lemma NoItemsNoParts(refs: string, b: Bucket)
    requires RefItems(refs) == []
    ensures Bucketed(ExtractParts(refs), b) == []
  {
    ExtractPartsBuckets(refs, b);
  }

  lemma EmptyParts(p: Parts)
    requires forall b: Bucket :: Bucketed(p, b) == []
    ensures p == NoParts
  {
    assert Bucketed(p, DocRef) == [] && Bucketed(p, BlogRef) == [];
    assert Bucketed(p, IssueRef) == [] && Bucketed(p, OtherRef) == [];
  }

  /** Without any reference line or table line the References body is empty. */
  lemma BuildReferencesEmpty(sections: map<string, string>)
    requires RefItems(Get(sections, "References")) == []
    requires TableLines(Get(sections, "Related PRs")) == []
    ensures BuildReferencesSection(sections) == ""
  {
    var refs := Get(sections, "References");
    forall b: Bucket
      ensures Bucketed(ExtractParts(refs), b) == []
    {
      NoItemsNoParts(refs, b);
    }
    EmptyParts(ExtractParts(refs));
    FormatPrTableLines(Get(sections, "Related PRs"));
    EmptyBody();
  }

  lemma EmptyBody()
    ensures ReferencesBody(NoParts, "") == ""
  {
    assert ReferenceLines(NoParts, "") == [];
  }

  // ---------------------------------------------------------------------------
  // refactor_file
  // ---------------------------------------------------------------------------

  /** `re.match(r'^# .+', content)`: the first line, when it is a title. */
  function Title(content: string): (r: Option<string>)
    ensures r.None? <==> !(StartsWith(content, "# ") && |content| > 2 && content[2] != '\n')
    ensures r.Some? ==> |r.value| > 2 && StartsWith(r.value, "# ") && '\n' !in r.value
    ensures r.Some? ==> StartsWith(content, r.value) && (|r.value| == |content| || content[|r.value|] == '\n')
  {
    if StartsWith(content, "# ") && |content| > 2 && content[2] != '\n' then
      match IndexOf(content, '\n')
      case None => Some(content)
      case Some(i) => Some(content[..i])
    else None
  }

  /** The title line and a blank line, when the document has a title. */
  function TitleLines(content: string): seq<string> {
    match Title(content)
    case Some(t) => [t, ""]
    case None => []
  }

  /** A kept section, its trailing whitespace removed, under its `## ` heading. */
  function SectionLines(sections: map<string, string>, name: string): seq<string> {
    Subsection(name in sections, Heading(name), [TrimRight(Get(sections, name))])
  }

  /** The References section: a blank line, and the rebuilt body unless it is empty. */
  function ReferencesLines(sections: map<string, string>): seq<string> {
    var body := BuildReferencesSection(sections);
    Subsection("References" in sections || "Related PRs" in sections, Heading("References"),
               [""] + When(body != "", body))
  }

  /** The lines of the rebuilt report, section by section in the house order. */
  function DocumentLines(content: string, sections: map<string, string>): seq<string> {
    TitleLines(content)
    + SectionLines(sections, "Summary")
    + SectionLines(sections, "Details")
    + SectionLines(sections, "Limitations")
    + SectionLines(sections, "Change History")
    + ReferencesLines(sections)
    + SectionLines(sections, "Related Feature Report")
  }

  /** The rebuilt report ends in exactly one newline. */
  function NewContent(content: string): (r: string)
    ensures EndsWith(r, "\n")
    ensures |r| >= 2 ==> !IsSpace(r[|r| - 2])
  {
    TrimRight(Join(DocumentLines(content, ParseSections(content)), '\n')) + "\n"
  }

  /** What `refactor_file` reports, and the text it writes when it writes one. */
  datatype Refactored = Refactored(changed: bool, message: string, written: Option<string>)

  /**
   * `refactor_file` on the text of a report: nothing to do without a
   * `Related PRs` or `Change History` section; otherwise the rebuilt report
   * is written when it differs from the old one.
   */
  function RefactorFile(content: string): (r: Refactored)
    ensures var sections := ParseSections(content);
      "Related PRs" !in sections && "Change History" !in sections ==> r == Refactored(false, "No changes needed", None)
    ensures r.changed <==> r.written.Some?
    ensures r.changed ==> r.written == Some(NewContent(content)) && NewContent(content) != content && r.message == "Refactored"
    ensures !r.changed ==> r.message == "No changes needed"
    ensures var sections := ParseSections(content);
      ("Related PRs" in sections || "Change History" in sections) && NewContent(content) != content ==> r.changed
  {
    var sections := ParseSections(content);
    if "Related PRs" !in sections && "Change History" !in sections then Refactored(false, "No changes needed", None)
    else
      var updated := NewContent(content);
      if updated != content then Refactored(true, "Refactored", Some(updated))
      else Refactored(false, "No changes needed", None)
  }

  /** The heading line of a section. */
  function Heading(name: string): string { "## " + name }

  /** The `## ` headings the rebuilt report should carry, in the house order. */
  function ExpectedHeadings(sections: map<string, string>): seq<string> {
    When("Summary" in sections, Heading("Summary"))
    + When("Details" in sections, Heading("Details"))
    + When("Limitations" in sections, Heading("Limitations"))
    + When("Change History" in sections, Heading("Change History"))
    + When("References" in sections || "Related PRs" in sections, Heading("References"))
    + When("Related Feature Report" in sections, Heading("Related Feature Report"))
  }

  /** Lines starting with `## ` are among those starting with `#`. */
  lemma {:induction false} FilterNarrow(ls: seq<string>)
    ensures Filter(Filter(ls, Marked("#")), Marked("## ")) == Filter(ls, Marked("## "))
  {
    if ls != [] {
      FilterNarrow(ls[1..]);
      if StartsWith(ls[0], "## ") {
        assert ls[0][..1] == ls[0][..3][..1];
      }
    }
  }

  lemma NarrowMarked(s: string)
    ensures MarkedLines(s, "## ") == Filter(MarkedLines(s, "#"), Marked("## "))
  {
    FilterNarrow(Split(s, '\n'));
  }

  /** No References subsection heading is a `## ` line. */
  lemma ReferenceHeadingsDeep(p: Parts, hasTable: bool)
    ensures Filter(ReferenceHeadings(p, hasTable), Marked("## ")) == []
  {
    var hs := ReferenceHeadings(p, hasTable);
    var a := When(p.docs != [] || p.other != [], "### Documentation");
    var b := When(p.blogs != [], "### Blog Posts");
    var c := When(hasTable, "### Pull Requests");
    var d := When(p.issues != [], "### Issues (Design / RFC)");
    SubHeading("### Documentation", p.docs != [] || p.other != []);
    SubHeading("### Blog Posts", p.blogs != []);
    SubHeading("### Pull Requests", hasTable);
    SubHeading("### Issues (Design / RFC)", p.issues != []);
    FilterConcat(a, b, Marked("## "));
    FilterConcat(a + b, c, Marked("## "));
    FilterConcat(a + b + c, d, Marked("## "));
  }

  lemma SubHeading(h: string, c: bool)
    requires |h| >= 3 && h[..3] == "###"
    ensures Filter(When(c, h), Marked("## ")) == []
  {
    if c {
      assert !StartsWith(h, "## ") by {
        assert h[2] == '#';
      }
      assert Filter([h], Marked("## ")) == Filter([h][1..], Marked("## "));
    }
  }

  /** The rebuilt References body is empty or ends in a character that is not whitespace. */
  lemma ReferencesSolidEnd(sections: map<string, string>)
    ensures BuildReferencesSection(sections) == "" || SolidEnd(BuildReferencesSection(sections))
  {
    var p := ExtractParts(Get(sections, "References"));
    var table := FormatPrTable(Get(sections, "Related PRs"));
    TrimRightSolid(Join(ReferenceLines(p, table), '\n'));
  }

  lemma TrimRightSolid(s: string)
    ensures TrimRight(s) == "" || SolidEnd(TrimRight(s))
  {
  }

  /** The rebuilt References body holds no `## ` line. */
  lemma ReferencesBodyUnmarked(sections: map<string, string>)
    ensures MarkedLines(BuildReferencesSection(sections), "## ") == []
  {
    var p := ExtractParts(Get(sections, "References"));
    BuildReferencesHeadings(sections);
    NarrowMarked(BuildReferencesSection(sections));
    ReferenceHeadingsDeep(p, TableLines(Get(sections, "Related PRs")) != []);
  }

  /** The title contributes no `## ` line: its second character is a space. */
  lemma TitlePieces(content: string)
    ensures MarkedPieces(TitleLines(content), "## ") == []
  {
    match Title(content)
    case Some(t) =>
      assert !StartsWith(t, "## ") by {
        assert t[1] == ' ';
      }
      MarkedLine(t, "## ");
      MarkedEmpty("## ");
      assert TitleLines(content)[1..] == [""];
      SinglePiece("", "## ");
    case None =>
  }

  /** A kept section contributes its heading and nothing else: its body holds no header line. */
  lemma SectionPieces(sections: map<string, string>, name: string)
    requires forall k | k in sections :: MarkedLines(sections[k], "## ") == []
    requires '\n' !in name
    ensures MarkedPieces(SectionLines(sections, name), "## ") == When(name in sections, Heading(name))
  {
    var body := Get(sections, name);
    if name !in sections {
      MarkedEmpty("## ");
    }
    UnmarkedTrimRight(body, "## ");
    SinglePiece(TrimRight(body), "## ");
    HeadingOf(name);
    SubsectionPieces(name in sections, Heading(name), [TrimRight(body)], "## ");
  }

  /** A section name on one line gives a heading on one line. */
  lemma HeadingOf(name: string)
    requires '\n' !in name
    ensures HeadingShape(Heading(name), "## ")
  {
    assert Heading(name)[..3] == "## ";
  }

  /** A section name ending in a non-whitespace character gives such a heading. */
  lemma HeadingSolid(name: string)
    requires SolidEnd(name)
    ensures SolidEnd(Heading(name))
  {
    assert Heading(name)[|Heading(name)| - 1] == name[|name| - 1];
  }

  /** The names of the sections the rebuilt report may carry. */
  lemma SectionNames()
    ensures '\n' !in "Summary" && '\n' !in "Details" && '\n' !in "Limitations"
    ensures '\n' !in "Change History" && '\n' !in "References" && '\n' !in "Related Feature Report"
    ensures SolidEnd("Summary") && SolidEnd("Details") && SolidEnd("Limitations")
    ensures SolidEnd("Change History") && SolidEnd("References") && SolidEnd("Related Feature Report")
  {
  }

  /** A subsection whose body is a blank line and then an unmarked text contributes only its heading. */
  lemma BlankThenBodyPieces(c: bool, heading: string, body: string, m: string)
    requires m != [] && HeadingShape(heading, m)
    requires MarkedLines(body, m) == []
    ensures MarkedPieces(Subsection(c, heading, [""] + When(body != "", body)), m) == When(c, heading)
  {
    MarkedEmpty(m);
    SinglePiece("", m);
    SinglePiece(body, m);
    assert MarkedPieces(When(body != "", body), m) == [];
    MarkedPiecesConcat([""], When(body != "", body), m);
    SubsectionPieces(c, heading, [""] + When(body != "", body), m);
  }

  lemma ReferencesPieces(sections: map<string, string>)
    ensures MarkedPieces(ReferencesLines(sections), "## ")
      == When("References" in sections || "Related PRs" in sections, Heading("References"))
  {
    var body := BuildReferencesSection(sections);
    var c := "References" in sections || "Related PRs" in sections;
    ReferencesBodyUnmarked(sections);
    SectionNames();
    HeadingOf("References");
    BlankThenBodyPieces(c, Heading("References"), body, "## ");
  }

  lemma SevenPieces(t: seq<string>, a: seq<string>, b: seq<string>, c: seq<string>, d: seq<string>,
                    e: seq<string>, f: seq<string>, m: string)
    ensures MarkedPieces(t + a + b + c + d + e + f, m)
      == MarkedPieces(t, m) + MarkedPieces(a, m) + MarkedPieces(b, m) + MarkedPieces(c, m)
         + MarkedPieces(d, m) + MarkedPieces(e, m) + MarkedPieces(f, m)
  {
    FourPieces(t, a, b, c, m);
    FourPieces(t + a + b + c, d, e, f, m);
  }

  /** Seven pieces whose headings are known contribute those headings, in order. */
  lemma PiecesSum(t: seq<string>, a: seq<string>, b: seq<string>, c: seq<string>, d: seq<string>,
                  e: seq<string>, f: seq<string>, sections: map<string, string>)
    requires MarkedPieces(t, "## ") == []
    requires MarkedPieces(a, "## ") == When("Summary" in sections, Heading("Summary"))
    requires MarkedPieces(b, "## ") == When("Details" in sections, Heading("Details"))
    requires MarkedPieces(c, "## ") == When("Limitations" in sections, Heading("Limitations"))
    requires MarkedPieces(d, "## ") == When("Change History" in sections, Heading("Change History"))
    requires MarkedPieces(e, "## ") == When("References" in sections || "Related PRs" in sections, Heading("References"))
    requires MarkedPieces(f, "## ") == When("Related Feature Report" in sections, Heading("Related Feature Report"))
    ensures MarkedPieces(t + a + b + c + d + e + f, "## ") == ExpectedHeadings(sections)
  {
    SevenPieces(t, a, b, c, d, e, f, "## ");
    assert [] + MarkedPieces(a, "## ") == MarkedPieces(a, "## ");
  }

  /** The rebuilt report's lines contribute exactly the expected `## ` headings. */
  lemma DocumentPieces(content: string, sections: map<string, string>)
    requires forall k | k in sections :: MarkedLines(sections[k], "## ") == []
    ensures MarkedPieces(DocumentLines(content, sections), "## ") == ExpectedHeadings(sections)
  {
    SectionNames();
    TitlePieces(content);
    SectionPieces(sections, "Summary");
    SectionPieces(sections, "Details");
    SectionPieces(sections, "Limitations");
    SectionPieces(sections, "Change History");
    ReferencesPieces(sections);
    SectionPieces(sections, "Related Feature Report");
    PiecesSum(TitleLines(content), SectionLines(sections, "Summary"), SectionLines(sections, "Details"),
              SectionLines(sections, "Limitations"), SectionLines(sections, "Change History"),
              ReferencesLines(sections), SectionLines(sections, "Related Feature Report"), sections);
  }

  /** Six optional headings that each end in a non-whitespace character. */
  lemma SixSolid(c1: bool, h1: string, c2: bool, h2: string, c3: bool, h3: string,
                 c4: bool, h4: string, c5: bool, h5: string, c6: bool, h6: string)
    requires SolidEnd(h1) && SolidEnd(h2) && SolidEnd(h3) && SolidEnd(h4) && SolidEnd(h5) && SolidEnd(h6)
    ensures SolidEnds(When(c1, h1) + When(c2, h2) + When(c3, h3) + When(c4, h4) + When(c5, h5) + When(c6, h6))
  {
    FourSolid(c1, h1, c2, h2, c3, h3, c4, h4);
    WhenSolid(c5, h5);
    WhenSolid(c6, h6);
    SolidConcat(When(c1, h1) + When(c2, h2) + When(c3, h3) + When(c4, h4), When(c5, h5));
    SolidConcat(When(c1, h1) + When(c2, h2) + When(c3, h3) + When(c4, h4) + When(c5, h5), When(c6, h6));
  }

  lemma ExpectedSolid(sections: map<string, string>)
    ensures SolidEnds(ExpectedHeadings(sections))
  {
    SectionNames();
    HeadingSolid("Summary");
    HeadingSolid("Details");
    HeadingSolid("Limitations");
    HeadingSolid("Change History");
    HeadingSolid("References");
    HeadingSolid("Related Feature Report");
    SixSolid("Summary" in sections, Heading("Summary"), "Details" in sections, Heading("Details"),
             "Limitations" in sections, Heading("Limitations"), "Change History" in sections, Heading("Change History"),
             "References" in sections || "Related PRs" in sections, Heading("References"),
             "Related Feature Report" in sections, Heading("Related Feature Report"));
  }

  /**
   * The `## ` lines of the rebuilt report are exactly the headings of the
   * sections it keeps, in the order Summary, Details, Limitations, Change
   * History, References, Related Feature Report.
   */
  lemma NewContentHeadings(content: string)
    ensures MarkedLines(NewContent(content), "## ") == ExpectedHeadings(ParseSections(content))
  {
    var sections := ParseSections(content);
    var lines := DocumentLines(content, sections);
    var joined := Join(lines, '\n');
    DocumentPieces(content, sections);
    MarkedJoin(lines, "## ");
    ExpectedSolid(sections);
    MarkedTrimRight(joined, "## ");
    MarkedSnocNewline(TrimRight(joined), "## ");
  }

  /** The names of the sections the rebuilt report keeps. */
  const KeptNames: set<string> := {"Summary", "Details", "Limitations", "Change History", "References", "Related Feature Report"}

  /** `Related PRs` is none of the names the rebuilt report keeps. */
  lemma RelatedPrsNotKept()
    ensures "Related PRs" !in KeptNames
  {
    assert "Related PRs"[0] != "Summary"[0] && "Related PRs"[0] != "Details"[0] && "Related PRs"[0] != "Limitations"[0];
    assert "Related PRs"[0] != "Change History"[0] && "Related PRs"[2] != "References"[2];
    assert "Related PRs"[8] != "Related Feature Report"[8];
  }

  /** Every expected heading is the heading of a kept name. */
  lemma ExpectedNames(sections: map<string, string>)
    ensures forall h | h in ExpectedHeadings(sections) :: |h| >= 3 && h[3..] in KeptNames
  {
    forall h | h in ExpectedHeadings(sections)
      ensures |h| >= 3 && h[3..] in KeptNames
    {
      if h == Heading("Summary") {
        HeadingName("Summary");
      } else if h == Heading("Details") {
        HeadingName("Details");
      } else if h == Heading("Limitations") {
        HeadingName("Limitations");
      } else if h == Heading("Change History") {
        HeadingName("Change History");
      } else if h == Heading("References") {
        HeadingName("References");
      } else {
        assert h == Heading("Related Feature Report");
        HeadingName("Related Feature Report");
      }
    }
  }

  lemma HeadingName(name: string)
    ensures |Heading(name)| >= 3 && Heading(name)[3..] == name
  {
  }

  /** The old `Related PRs` section never survives as a heading of the rebuilt report. */
  lemma RelatedPrsDropped(content: string)
    ensures Heading("Related PRs") !in MarkedLines(NewContent(content), "## ")
  {
    NewContentHeadings(content);
    ExpectedNames(ParseSections(content));
    RelatedPrsNotKept();
    assert Heading("Related PRs")[3..] == "Related PRs";
  }
}

=== FILE: release_notes.dfy ===
/**
 * The release-notes extractor of run.py: a fold over the lines of one
 * changelog document that carries the running (category, component) state,
 * updates it on header lines, and turns list lines carrying a pull-request
 * token and a long enough name into items; plus the per-category tally that
 * `fetch_release_notes` builds over the items of all fetched documents.
 */
module ReleaseNotes {
  import opened Text

  datatype Category = Breaking | Feature | Enhancement | Bugfix | Deprecation

  datatype Item = Item(name: string, category: Category, repository: string, pr: nat, description: string)

  /** The running state of the scan: the current category and plugin component. */
  datatype ScanState = ScanState(category: Option<Category>, component: Option<string>)

  const InitialState := ScanState(None, None)

  /** Header keywords, in the order the scan tries them. */
  const CategoryKeys: seq<(string, Category)> := [
    ("breaking", Breaking),
    ("feature", Feature),
    ("enhancement", Enhancement),
    ("bug fix", Bugfix),
    ("bugfix", Bugfix),
    ("deprecat", Deprecation),
    ("added", Feature)
  ]

  /** Repository names a list line may mention, in the order of the alternation. */
  const PluginKeywords: seq<string> := [
    "k-nn", "knn", "neural-search", "ml-commons", "sql", "security", "alerting",
    "anomaly-detection", "index-management", "observability", "reporting",
    "notifications", "geospatial", "cross-cluster-replication", "asynchronous-search"
  ]

  const MinNameLength := 5
  const MaxNameLength := 200
  const MaxDescriptionLength := 300

  // ---------------------------------------------------------------------------
  // Header lines
  // ---------------------------------------------------------------------------

  /** `line.lstrip("#").strip().lower()` */
  function HeaderText(line: string): string {
    Lower(Trim(DropWhile(line, c => c == '#')))
  }

  /** The index of the first category key, in table order, contained in the header. */
  function FirstCategoryKey(header: string): (r: Option<nat>)
    ensures r.Some? ==> r.value < |CategoryKeys| && Contains(header, CategoryKeys[r.value].0)
    ensures r.Some? ==> forall j :: 0 <= j < r.value ==> !Contains(header, CategoryKeys[j].0)
    ensures r.None? ==> forall j :: 0 <= j < |CategoryKeys| ==> !Contains(header, CategoryKeys[j].0)
  {
    var p := (k: nat) => k < |CategoryKeys| && Contains(header, CategoryKeys[k].0);
    var r := FirstWhere(0, |CategoryKeys|, p);
    assert forall k: nat :: p(k) == (k < |CategoryKeys| && Contains(header, CategoryKeys[k].0));
    r
  }

  function HeaderCategory(header: string): Option<Category> {
    match FirstCategoryKey(header)
    case Some(k) => Some(CategoryKeys[k].1)
    case None => None
  }

  /** Length of the run of `\w` characters at the front of `s`. */
  function WordRun(s: string): (n: nat)
    ensures n <= |s|
    ensures forall i :: 0 <= i < n ==> IsWordChar(s[i])
    ensures n < |s| ==> !IsWordChar(s[n])
  {
    RunSpan(s, 0, IsWordChar);
    Run(s, 0, IsWordChar)
  }

  /** `opensearch[- ](\w+)` matches at position `i`. */
  predicate ComponentAt(h: string, i: nat) {
    i + 12 <= |h| && h[i..i + 10] == "opensearch" && (h[i + 10] == '-' || h[i + 10] == ' ') && IsWordChar(h[i + 11])
  }

  /** No match of `opensearch[- ](\w+)` starts before `i`. */
  predicate LeftmostComponent(h: string, i: nat) {
    forall j :: 0 <= j < i ==> !ComponentAt(h, j)
  }

  /** `w` is the whole run of word characters after the `opensearch-` or `opensearch ` at `i`. */
  predicate ComponentRunAt(h: string, i: nat, w: string) {
    && i + 11 + |w| <= |h|
    && h[i + 11..i + 11 + |w|] == w
    && (i + 11 + |w| == |h| || !IsWordChar(h[i + 11 + |w|]))
  }

  /** Group 1 of the leftmost `opensearch[- ](\w+)` match in the header. */
  function HeaderComponent(h: string): (r: Option<string>)
    ensures r.None? <==> forall i :: 0 <= i < |h| ==> !ComponentAt(h, i)
    ensures r.Some? ==> r.value != [] && forall j :: 0 <= j < |r.value| ==> IsWordChar(r.value[j])
    ensures r.Some? ==> exists i :: 0 <= i < |h| && ComponentAt(h, i) && LeftmostComponent(h, i) && ComponentRunAt(h, i, r.value)
  {
    var p := (i: nat) => ComponentAt(h, i);
    var first := FirstWhere(0, |h|, p);
    assert forall i: nat :: p(i) == ComponentAt(h, i);
    match first
    case None => None
    case Some(i) =>
      var rest := h[i + 11..];
      var w := rest[..WordRun(rest)];
      assert h[i + 11..i + 11 + |w|] == w;
      assert ComponentRunAt(h, i, w);
      Some(w)
  }

  /**
   * The state after a header line (already stripped, starting with `#`): the
   * category of the first key the header contains, or the old category; and
   * the component named after "opensearch", where `core` and `build` mean none.
   */
  function HeaderStep(st: ScanState, line: string): (r: ScanState)
    ensures HeaderCategory(HeaderText(line)).None? ==> r.category == st.category
    ensures HeaderCategory(HeaderText(line)).Some? ==> r.category == HeaderCategory(HeaderText(line))
    ensures r.component != st.component ==>
      && r.category.Some?
      && HeaderComponent(HeaderText(line)).Some?
      && (r.component.None? <==> HeaderComponent(HeaderText(line)).value in {"core", "build"})
      && (r.component.Some? ==> r.component == HeaderComponent(HeaderText(line)))
    ensures Contains(HeaderText(line), "opensearch") && r.category.Some? && HeaderComponent(HeaderText(line)).Some? ==>
      r.component == (if HeaderComponent(HeaderText(line)).value in {"core", "build"} then None else HeaderComponent(HeaderText(line)))
    ensures !(Contains(HeaderText(line), "opensearch") && r.category.Some? && HeaderComponent(HeaderText(line)).Some?) ==>
      r.component == st.component
  {
    var header := HeaderText(line);
    var category := match HeaderCategory(header) case Some(c) => Some(c) case None => st.category;
    var component :=
      if Contains(header, "opensearch") && category.Some? then
        match HeaderComponent(header)
        case None => st.component
        case Some(c) => if c in {"core", "build"} then None else Some(c)
      else st.component;
    ScanState(category, component)
  }

  /** Reading the same header twice leaves the state as reading it once. */
  lemma HeaderStepIdempotent(st: ScanState, line: string)
    ensures HeaderStep(HeaderStep(st, line), line) == HeaderStep(st, line)
  {
  }

  // ---------------------------------------------------------------------------
  // The pull-request number of a list line
  // ---------------------------------------------------------------------------

  /** `#(\d+)` matches at position `i`. */
  predicate HashNumberAt(s: string, i: nat) {
    i + 1 < |s| && s[i] == '#' && IsDigit(s[i + 1])
  }

  /** Where the digits of a `\[#?(\d+)\]` match starting at `i` begin. */
  function BracketDigitsStart(s: string, i: nat): (j: nat)
    requires i < |s|
    ensures j <= |s|
  {
    if i + 1 < |s| && s[i + 1] == '#' then i + 2 else i + 1
  }

  /** `\[#?(\d+)\]` matches at position `i`. */
  predicate BracketNumberAt(s: string, i: nat) {
    && i < |s| && s[i] == '['
    && var j := BracketDigitsStart(s, i);
       var n := DigitRun(s[j..]);
       n > 0 && j + n < |s| && s[j + n] == ']'
  }

  /** Position of the leftmost `#(\d+)` match. */
  function FirstHashNumber(line: string): (r: Option<nat>)
    ensures r.Some? ==> r.value < |line| && HashNumberAt(line, r.value)
    ensures r.Some? ==> forall j :: 0 <= j < r.value ==> !HashNumberAt(line, j)
    ensures r.None? ==> forall j :: 0 <= j < |line| ==> !HashNumberAt(line, j)
  {
    var p := (i: nat) => HashNumberAt(line, i);
    assert forall i: nat :: p(i) == HashNumberAt(line, i);
    FirstWhere(0, |line|, p)
  }

  /** Position of the leftmost `\[#?(\d+)\]` match. */
  function FirstBracketNumber(line: string): (r: Option<nat>)
    ensures r.Some? ==> r.value < |line| && BracketNumberAt(line, r.value)
    ensures r.Some? ==> forall j :: 0 <= j < r.value ==> !BracketNumberAt(line, j)
    ensures r.None? ==> forall j :: 0 <= j < |line| ==> !BracketNumberAt(line, j)
  {
    var p := (i: nat) => BracketNumberAt(line, i);
    assert forall i: nat :: p(i) == BracketNumberAt(line, i);
    FirstWhere(0, |line|, p)
  }

  /** `re.search(r"#(\d+)", line) or re.search(r"\[#?(\d+)\]", line)`, as the number matched. */
  function PrNumber(line: string): Option<nat> {
    match FirstHashNumber(line)
    case Some(i) => Some(NumberAt(line, i + 1))
    case None =>
      match FirstBracketNumber(line)
      case Some(i) => Some(NumberAt(line, BracketDigitsStart(line, i)))
      case None => None
  }

  /** A line has a number exactly when one of the two patterns matches somewhere. */
  lemma PrNumberFound(line: string)
    ensures PrNumber(line).None? <==>
      && (forall i :: 0 <= i < |line| ==> !HashNumberAt(line, i))
      && (forall i :: 0 <= i < |line| ==> !BracketNumberAt(line, i))
  {
  }

  /** The leftmost `#digits` gives the number. */
  lemma PrNumberHash(line: string, i: nat)
    requires i < |line| && HashNumberAt(line, i) && forall j :: 0 <= j < i ==> !HashNumberAt(line, j)
    ensures PrNumber(line) == Some(NumberAt(line, i + 1))
  {
    var h := FirstHashNumber(line);
    assert h.Some?;
    assert h.value == i;
  }

  /** Without any `#digits`, the leftmost bracketed number gives the number. */
  lemma PrNumberBracket(line: string, i: nat)
    requires forall k :: 0 <= k < |line| ==> !HashNumberAt(line, k)
    requires i < |line| && BracketNumberAt(line, i) && forall j :: 0 <= j < i ==> !BracketNumberAt(line, j)
    ensures PrNumber(line) == Some(NumberAt(line, BracketDigitsStart(line, i)))
  {
    var b := FirstBracketNumber(line);
    assert FirstHashNumber(line).None?;
    assert b.Some?;
    assert b.value == i;
  }

  // ---------------------------------------------------------------------------
  // The display name of a list line
  // ---------------------------------------------------------------------------

  /** What one substitution pattern does at the front of the remaining text. */
  datatype Match = NoMatch | Match(len: nat, replacement: string)

  /** `re.sub(pattern, repl, s)` for a pattern given by what it matches at the front of a string. */
  function SubAll(s: string, m: string -> Match): string
    decreases |s|
  {
    if s == [] then ""
    else
      match m(s)
      case Match(n, repl) =>
        if 0 < n <= |s| then repl + SubAll(s[n..], m) else [s[0]] + SubAll(s[1..], m)
      case NoMatch => [s[0]] + SubAll(s[1..], m)
  }

  /** `\[([^\]]+)\]\([^)]+\)` replaced by its group 1. */
  function LinkMatch(t: string): Match {
    if t == [] || t[0] != '[' then NoMatch
    else
      match IndexOf(t[1..], ']')
      case None => NoMatch
      case Some(a) =>
        if a == 0 || 2 + a >= |t| || t[2 + a] != '(' then NoMatch
        else
          match IndexOf(t[3 + a..], ')')
          case None => NoMatch
          case Some(b) => if b == 0 then NoMatch else Match(4 + a + b, t[1..1 + a])
  }

  /** `\(#\d+\)` removed. */
  function ParenPrMatch(t: string): Match {
    if |t| < 2 || t[0] != '(' || t[1] != '#' then NoMatch
    else
      var n := DigitRun(t[2..]);
      if n > 0 && 2 + n < |t| && t[2 + n] == ')' then Match(3 + n, "") else NoMatch
  }

  /** `#\d+` removed. */
  function HashPrMatch(t: string): Match {
    if t == [] || t[0] != '#' then NoMatch
    else
      var n := DigitRun(t[1..]);
      if n > 0 then Match(1 + n, "") else NoMatch
  }

  /** `re.sub(r"^\s*[-*]\s*", "", s)`: removing the list marker drops a prefix. */
  function StripListMarker(s: string): (r: string)
    ensures |r| <= |s| && r == s[|s| - |r|..]
  {
    var t := TrimLeft(s);
    if t != [] && (t[0] == '-' || t[0] == '*') then
      MarkerDroppedSuffix(s);
      TrimLeft(t[1..])
    else
      assert s[|s| - |s|..] == s;
      s
  }

  /** What is left once the first character after the indent and the blanks after it are dropped ends `s`. */
  lemma MarkerDroppedSuffix(s: string)
    requires TrimLeft(s) != []
    ensures |TrimLeft(TrimLeft(s)[1..])| <= |s| && TrimLeft(TrimLeft(s)[1..]) == s[|s| - |TrimLeft(TrimLeft(s)[1..])|..]
  {
    var t := TrimLeft(s);
    var u := TrimLeft(t[1..]);
    SuffixOfSuffix(t, t[1..], u);
    SuffixOfSuffix(s, t, u);
  }

  predicate NotSpace(c: char) { !IsSpace(c) }

  /** Removing whitespace from the front leaves the other characters as they were. */
  lemma {:induction false} TrimLeftKeepsText(s: string)
    ensures Filter(TrimLeft(s), NotSpace) == Filter(s, NotSpace)
    decreases |s|
  {
    if s != [] && IsSpace(s[0]) {
      TrimLeftKeepsText(s[1..]);
    }
  }

  /** `re.sub(r"\s+", " ", s)`: every maximal whitespace run becomes one space. */
  function CollapseSpaces(s: string): (r: string)
    ensures forall i :: 0 <= i < |r| && IsSpace(r[i]) ==> r[i] == ' '
    ensures forall i :: 0 <= i < |r| - 1 ==> !(IsSpace(r[i]) && IsSpace(r[i + 1]))
    ensures s == [] <==> r == []
    ensures r != [] ==> (IsSpace(r[0]) <==> IsSpace(s[0]))
    ensures Filter(r, NotSpace) == Filter(s, NotSpace)
    decreases |s|
  {
    if s == [] then ""
    else if IsSpace(s[0]) then
      var rest := TrimLeft(s);
      TrimLeftKeepsText(s);
      var r := " " + CollapseSpaces(rest);
      assert r[1..] == CollapseSpaces(rest);
      r
    else
      var r := [s[0]] + CollapseSpaces(s[1..]);
      assert r[1..] == CollapseSpaces(s[1..]);
      r
  }

  /** Whitespace in `s` is single spaces only. */
  predicate SingleSpaced(s: string) {
    && (forall i :: 0 <= i < |s| && IsSpace(s[i]) ==> s[i] == ' ')
    && (forall i :: 0 <= i < |s| - 1 ==> !(IsSpace(s[i]) && IsSpace(s[i + 1])))
  }

  /** Stripping the ends of a single-spaced string keeps it single-spaced. */
  lemma TrimSingleSpaced(c: string)
    requires SingleSpaced(c)
    ensures SingleSpaced(Trim(c))
  {
    var l := TrimLeft(c);
    var off := |c| - |l|;
    assert l == c[off..];
    assert SingleSpaced(l) by {
      forall i | 0 <= i < |l| - 1
        ensures !(IsSpace(l[i]) && IsSpace(l[i + 1]))
      {
        assert l[i] == c[off + i] && l[i + 1] == c[off + i + 1];
      }
    }
    var r := TrimRight(l);
    assert r == l[..|r|];
  }

  /**
   * The display name: links reduced to their text, `(#N)` and `#N` removed,
   * the list marker removed, whitespace runs collapsed, and the ends stripped.
   */
  function DisplayName(line: string): (r: string)
    ensures r != [] ==> !IsSpace(r[0]) && !IsSpace(r[|r| - 1])
    ensures SingleSpaced(r)
  {
    var unlinked := SubAll(line, LinkMatch);
    var noParen := SubAll(unlinked, ParenPrMatch);
    var noHash := SubAll(noParen, HashPrMatch);
    var c := CollapseSpaces(StripListMarker(noHash));
    TrimSingleSpaced(c);
    Trim(c)
  }

  /** No `#` in `s` is directly followed by a digit: no `#\d+` reference is left. */
  predicate NoHashDigit(s: string) {
    forall i :: 0 <= i < |s| - 1 ==> !(s[i] == '#' && IsDigit(s[i + 1]))
  }

  lemma NoHashDigitSlice(s: string, lo: nat, hi: nat)
    requires lo <= hi <= |s| && NoHashDigit(s)
    ensures NoHashDigit(s[lo..hi])
  {
    var t := s[lo..hi];
    forall i | 0 <= i < |t| - 1
      ensures !(t[i] == '#' && IsDigit(t[i + 1]))
    {
      assert t[i] == s[lo + i] && t[i + 1] == s[lo + i + 1];
    }
  }

  /** Removing the `#\d+` references never leaves a digit at the front unless one was there. */
  lemma {:induction false} HashSubFront(x: string)
    requires x == [] || !IsDigit(x[0])
    ensures var r := SubAll(x, HashPrMatch); r == [] || !IsDigit(r[0])
    decreases |x|
  {
    if x != [] {
      var m := HashPrMatch(x);
      if m.Match? && 0 < m.len <= |x| {
        HashSubFront(x[m.len..]);
      }
    }
  }

  /** After removing the `#\d+` references, no `#` is followed by a digit. */
  lemma {:induction false} HashSubClean(x: string)
    ensures NoHashDigit(SubAll(x, HashPrMatch))
    decreases |x|
  {
    if x != [] {
      var m := HashPrMatch(x);
      if m.Match? && 0 < m.len <= |x| {
        HashSubClean(x[m.len..]);
      } else {
        var t := SubAll(x[1..], HashPrMatch);
        HashSubClean(x[1..]);
        if x[0] == '#' {
          HashSubFront(x[1..]);
        }
        var r := [x[0]] + t;
        assert SubAll(x, HashPrMatch) == r;
        forall i | 0 <= i < |r| - 1
          ensures !(r[i] == '#' && IsDigit(r[i + 1]))
        {
          if i > 0 {
            assert r[i] == t[i - 1] && r[i + 1] == t[i];
          }
        }
      }
    }
  }

  /** The first character of a collapsed string: a space for a blank, else the character itself. */
  lemma CollapseFront(s: string)
    requires s != []
    ensures CollapseSpaces(s)[0] == if IsSpace(s[0]) then ' ' else s[0]
  {
  }

  /** Collapsing whitespace creates no `#` followed by a digit. */
  lemma {:induction false} CollapseClean(s: string)
    requires NoHashDigit(s)
    ensures NoHashDigit(CollapseSpaces(s))
    decreases |s|
  {
    if s != [] {
      var r := CollapseSpaces(s);
      var rest := if IsSpace(s[0]) then TrimLeft(s) else s[1..];
      NoHashDigitSlice(s, |s| - |rest|, |s|);
      CollapseClean(rest);
      var t := CollapseSpaces(rest);
      var c := if IsSpace(s[0]) then ' ' else s[0];
      assert r == [c] + t;
      if s[0] == '#' && rest != [] {
        CollapseFront(rest);
      }
      ConsNoHashDigit(c, t);
    }
  }

  /** One character ahead of a text without `#\d` adds none unless it is a `#` before a digit. */
  lemma ConsNoHashDigit(c: char, t: string)
    requires NoHashDigit(t)
    requires c == '#' && t != [] ==> !IsDigit(t[0])
    ensures NoHashDigit([c] + t)
  {
    var r := [c] + t;
    forall i | 0 <= i < |r| - 1
      ensures !(r[i] == '#' && IsDigit(r[i + 1]))
    {
      if i > 0 {
        assert r[i] == t[i - 1] && r[i + 1] == t[i];
      }
    }
  }

  /** No `#\d+` reference survives in a display name. */
  lemma DisplayNameNoReference(line: string)
    ensures NoHashDigit(DisplayName(line))
  {
    var noParen := SubAll(SubAll(line, LinkMatch), ParenPrMatch);
    HashSubClean(noParen);
    Tidied(SubAll(noParen, HashPrMatch));
  }

  /** Removing the marker, collapsing whitespace and stripping create no `#` followed by a digit. */
  lemma Tidied(x: string)
    requires NoHashDigit(x)
    ensures NoHashDigit(Trim(CollapseSpaces(StripListMarker(x))))
  {
    StripClean(x);
    CollapseClean(StripListMarker(x));
    TrimClean(CollapseSpaces(StripListMarker(x)));
  }

  lemma StripClean(x: string)
    requires NoHashDigit(x)
    ensures NoHashDigit(StripListMarker(x))
  {
    var m := StripListMarker(x);
    NoHashDigitSlice(x, |x| - |m|, |x|);
  }

  lemma TrimClean(c: string)
    requires NoHashDigit(c)
    ensures NoHashDigit(Trim(c))
  {
    var l := TrimLeft(c);
    NoHashDigitSlice(c, |c| - |l|, |c|);
    NoHashDigitSlice(l, 0, |TrimRight(l)|);
  }

  /** A substitution whose pattern matches nowhere leaves the text as it is. */
  lemma {:induction false} SubAllNoMatch(s: string, m: string -> Match)
    requires forall k :: 0 <= k < |s| ==> m(s[k..]).NoMatch?
    ensures SubAll(s, m) == s
    decreases |s|
  {
    if s != [] {
      assert m(s[0..]).NoMatch?;
      assert s[0..] == s;
      forall k | 0 <= k < |s[1..]|
        ensures m(s[1..][k..]).NoMatch?
      {
        assert s[1..][k..] == s[k + 1..];
      }
      SubAllNoMatch(s[1..], m);
    }
  }

  /** Removing whitespace from the back leaves the other characters as they were. */
  lemma {:induction false} TrimRightKeepsText(s: string)
    ensures Filter(TrimRight(s), NotSpace) == Filter(s, NotSpace)
    decreases |s|
  {
    if s != [] && IsSpace(s[|s| - 1]) {
      var init := s[..|s| - 1];
      TrimRightKeepsText(init);
      assert s == init + [s[|s| - 1]];
      FilterConcat(init, [s[|s| - 1]], NotSpace);
    }
  }

  /**
   * A line with no `[` and no `#` holds no link and no pull-request reference,
   * so its display name keeps exactly its non-blank characters after the list
   * marker, in order.
   */
  lemma DisplayNamePlain(line: string)
    requires forall k :: 0 <= k < |line| ==> line[k] != '[' && line[k] != '#'
    ensures Filter(DisplayName(line), NotSpace) == Filter(StripListMarker(line), NotSpace)
  {
    forall k | 0 <= k < |line|
      ensures LinkMatch(line[k..]).NoMatch? && ParenPrMatch(line[k..]).NoMatch? && HashPrMatch(line[k..]).NoMatch?
    {
      assert line[k..][0] == line[k];
      if k + 1 < |line| {
        assert line[k..][1] == line[k + 1];
      }
    }
    SubAllNoMatch(line, LinkMatch);
    SubAllNoMatch(line, ParenPrMatch);
    SubAllNoMatch(line, HashPrMatch);
    var c := CollapseSpaces(StripListMarker(line));
    TrimLeftKeepsText(c);
    TrimRightKeepsText(TrimLeft(c));
  }

  /** `[text](url)` at the front is replaced by `text`. */
  lemma LinkReduced(text: string, url: string, rest: string)
    requires text != [] && ']' !in text
    requires url != [] && ')' !in url
    ensures SubAll("[" + text + "](" + url + ")" + rest, LinkMatch) == text + SubAll(rest, LinkMatch)
  {
    var t := "[" + text + "](" + url + ")" + rest;
    assert t[1..] == text + [']'] + ("(" + url + ")" + rest);
    IndexOfAfter(text, ']', "(" + url + ")" + rest);
    assert t[3 + |text|..] == url + [')'] + rest;
    IndexOfAfter(url, ')', rest);
    assert t[1..1 + |text|] == text;
    assert LinkMatch(t) == Match(4 + |text| + |url|, text);
    assert t[4 + |text| + |url|..] == rest;
  }

  // ---------------------------------------------------------------------------
  // The repository of an item
  // ---------------------------------------------------------------------------

  /** Python's `\b` at position `p`: a word character on exactly one side. */
  predicate WordBoundary(s: string, p: int) {
    (0 < p <= |s| && IsWordChar(s[p - 1])) != (0 <= p < |s| && IsWordChar(s[p]))
  }

  /** The keyword matches at position `i` with a word boundary on both sides. */
  predicate KeywordAt(s: string, i: nat, kw: string) {
    i <= |s| && StartsWith(s[i..], kw) && WordBoundary(s, i) && WordBoundary(s, i + |kw|)
  }

  /** The first alternative of the keyword alternation that matches at `i`. */
  function KeywordIndexAt(s: string, i: nat): (r: Option<nat>)
    ensures r.Some? ==> r.value < |PluginKeywords| && KeywordAt(s, i, PluginKeywords[r.value])
    ensures r.None? ==> forall k :: 0 <= k < |PluginKeywords| ==> !KeywordAt(s, i, PluginKeywords[k])
  {
    var p := (k: nat) => k < |PluginKeywords| && KeywordAt(s, i, PluginKeywords[k]);
    var r := FirstWhere(0, |PluginKeywords|, p);
    assert forall k: nat :: p(k) == (k < |PluginKeywords| && KeywordAt(s, i, PluginKeywords[k]));
    r
  }

  /** Position of the leftmost match of `\b(k-nn|knn|...)\b` in `s`. */
  function PluginPosition(s: string): (r: Option<nat>)
    ensures r.Some? ==> r.value < |s| && KeywordIndexAt(s, r.value).Some?
    ensures r.Some? ==> forall j :: 0 <= j < r.value ==> KeywordIndexAt(s, j).None?
    ensures r.None? ==> forall j :: 0 <= j < |s| ==> KeywordIndexAt(s, j).None?
  {
    var p := (i: nat) => KeywordIndexAt(s, i).Some?;
    assert forall i: nat :: p(i) == KeywordIndexAt(s, i).Some?;
    FirstWhere(0, |s|, p)
  }

  /** Group 1 of the leftmost match of `\b(k-nn|knn|...)\b` in `s`. */
  function PluginMatch(s: string): (r: Option<string>)
    ensures r.Some? ==> r.value in PluginKeywords
    ensures r.None? ==> forall i, k :: 0 <= i < |s| && 0 <= k < |PluginKeywords| ==> !KeywordAt(s, i, PluginKeywords[k])
    ensures r.Some? ==>
      exists i :: 0 <= i < |s| && KeywordAt(s, i, r.value) &&
        (forall j, k :: 0 <= j < i && 0 <= k < |PluginKeywords| ==> !KeywordAt(s, j, PluginKeywords[k]))
  {
    match PluginPosition(s)
    case None =>
      assert forall i, k :: 0 <= i < |s| && 0 <= k < |PluginKeywords| ==> !KeywordAt(s, i, PluginKeywords[k]) by {
        forall i, k | 0 <= i < |s| && 0 <= k < |PluginKeywords|
          ensures !KeywordAt(s, i, PluginKeywords[k])
        {
          assert KeywordIndexAt(s, i).None?;
        }
      }
      None
    case Some(i) =>
      var kw := PluginKeywords[KeywordIndexAt(s, i).value];
      assert forall j, k :: 0 <= j < i && 0 <= k < |PluginKeywords| ==> !KeywordAt(s, j, PluginKeywords[k]) by {
        forall j, k | 0 <= j < i && 0 <= k < |PluginKeywords|
          ensures !KeywordAt(s, j, PluginKeywords[k])
        {
          assert KeywordIndexAt(s, j).None?;
        }
      }
      Some(kw)
  }

  /** The default repository of a document, from the repository it was fetched from. */
  function DefaultRepository(repo: string): (r: string)
    ensures Lower(repo) in {"opensearch", "opensearch-build"} ==> r == "opensearch"
    ensures Lower(repo) !in {"opensearch", "opensearch-build"} ==> r == Lower(repo)
  {
    var lower := Lower(repo);
    if lower == "opensearch" || lower == "opensearch-build" then "opensearch"
    else if lower == "opensearch-dashboards" then "opensearch-dashboards"
    else lower
  }

  /**
   * The repository of an item: the leftmost plugin keyword in the lower-cased
   * line (`knn` spelt `k-nn`), else the header component, else the default.
   */
  function ResolveRepository(lowerLine: string, component: Option<string>, defaultRepo: string): (r: string)
    ensures PluginMatch(lowerLine) == Some("knn") ==> r == "k-nn"
    ensures PluginMatch(lowerLine).Some? && PluginMatch(lowerLine) != Some("knn") ==> r == PluginMatch(lowerLine).value
    ensures PluginMatch(lowerLine).None? && component.Some? && component.value != "" ==> r == component.value
    ensures PluginMatch(lowerLine).None? && (component.None? || component.value == "") ==> r == defaultRepo
  {
    var fromContext := if component.Some? && component.value != "" then component.value else defaultRepo;
    match PluginMatch(lowerLine)
    case Some(kw) => if kw == "knn" then "k-nn" else kw
    case None => fromContext
  }

  // ---------------------------------------------------------------------------
  // Items and the scan
  // ---------------------------------------------------------------------------

  /** What every emitted item satisfies: bounded name, description extending it. */
  predicate WellFormedItem(it: Item) {
    && MinNameLength <= |it.name| <= MaxNameLength
    && |it.description| <= MaxDescriptionLength
    && StartsWith(it.description, it.name)
  }

  /** `name[:200]` as the name and `name[:300]` as the description. */
  function MakeItem(name: string, category: Category, repository: string, pr: nat): (it: Item)
    requires |name| >= MinNameLength
    ensures WellFormedItem(it) && StartsWith(name, it.description)
    ensures it.category == category && it.repository == repository && it.pr == pr
    ensures |it.name| == Min(MaxNameLength, |name|) && |it.description| == Min(MaxDescriptionLength, |name|)
  {
    var short := name[..Min(MaxNameLength, |name|)];
    var long := name[..Min(MaxDescriptionLength, |name|)];
    assert long[..|short|] == short;
    Item(short, category, repository, pr, long)
  }

  /** The item of a list line (stripped, starting with `-` or `*`) under a category. */
  function ListItem(line: string, category: Category, component: Option<string>, defaultRepo: string): (r: Option<Item>)
    ensures PrNumber(line).None? ==> r.None?
    ensures |DisplayName(line)| < MinNameLength ==> r.None?
    ensures PrNumber(line).Some? && |DisplayName(line)| >= MinNameLength ==> r.Some?
    ensures r.Some? ==>
      && WellFormedItem(r.value)
      && Some(r.value.pr) == PrNumber(line)
      && r.value.category == category
      && StartsWith(DisplayName(line), r.value.description)
      && |r.value.name| == Min(MaxNameLength, |DisplayName(line)|)
      && |r.value.description| == Min(MaxDescriptionLength, |DisplayName(line)|)
      && r.value.repository == ResolveRepository(Lower(line), component, defaultRepo)
  {
    match PrNumber(line)
    case None => None
    case Some(pr) =>
      var name := DisplayName(line);
      if |name| < MinNameLength then None
      else Some(MakeItem(name, category, ResolveRepository(Lower(line), component, defaultRepo), pr))
  }

  predicate IsHeaderLine(raw: string) { StartsWith(Trim(raw), "#") }

  predicate IsListLine(line: string) { StartsWith(line, "-") || StartsWith(line, "*") }

  /** A header line is never a list line. */
  lemma HeaderNotList(raw: string)
    ensures IsHeaderLine(raw) ==> !IsListLine(Trim(raw))
  {
    if IsHeaderLine(raw) {
      assert Trim(raw)[0] == '#';
    }
  }

  /**
   * The item a line yields under the state the scan has when it reaches the
   * line: only a list line under a category yields one.
   */
  function Emit(st: ScanState, raw: string, defaultRepo: string): Option<Item> {
    var line := Trim(raw);
    if IsListLine(line) && st.category.Some? then ListItem(line, st.category.value, st.component, defaultRepo)
    else None
  }

  /**
   * One line of the scan: the new state, and the item the line yields if any.
   * A header line moves the state on and yields nothing; any other line keeps
   * the state, and yields the item it has under that state.
   */
  function Step(st: ScanState, raw: string, defaultRepo: string): (r: (ScanState, Option<Item>))
    ensures IsHeaderLine(raw) ==> r.0 == HeaderStep(st, Trim(raw)) && r.1.None?
    ensures !IsHeaderLine(raw) ==> r.0 == st
    ensures r.1 == Emit(st, raw, defaultRepo)
    ensures r.1.Some? ==> WellFormedItem(r.1.value) && r.0.category == Some(r.1.value.category)
  {
    HeaderNotList(raw);
    var line := Trim(raw);
    var st' := if StartsWith(line, "#") then HeaderStep(st, line) else st;
    if IsListLine(line) && st'.category.Some? then
      (st', ListItem(line, st'.category.value, st'.component, defaultRepo))
    else (st', None)
  }

  function ParseLines(lines: seq<string>, st: ScanState, defaultRepo: string): seq<Item>
    decreases |lines|
  {
    if lines == [] then []
    else
      var next := Step(st, lines[0], defaultRepo);
      var rest := ParseLines(lines[1..], next.0, defaultRepo);
      if next.1.Some? then [next.1.value] + rest else rest
  }

  /** Every item of the scan is well formed, and no line yields more than one. */
  lemma {:induction false} ParseLinesWellFormed(lines: seq<string>, st: ScanState, defaultRepo: string)
    ensures var items := ParseLines(lines, st, defaultRepo);
      |items| <= |lines| && forall i :: 0 <= i < |items| ==> WellFormedItem(items[i])
    decreases |lines|
  {
    if lines != [] {
      var next := Step(st, lines[0], defaultRepo);
      ParseLinesWellFormed(lines[1..], next.0, defaultRepo);
      PrependWellFormed(next.1, ParseLines(lines[1..], next.0, defaultRepo), |lines| - 1);
    }
  }

  lemma PrependWellFormed(x: Option<Item>, rest: seq<Item>, n: nat)
    requires x.Some? ==> WellFormedItem(x.value)
    requires |rest| <= n && forall i :: 0 <= i < |rest| ==> WellFormedItem(rest[i])
    ensures var r := if x.Some? then [x.value] + rest else rest;
      |r| <= n + 1 && forall i :: 0 <= i < |r| ==> WellFormedItem(r[i])
  {
    if x.Some? {
      WellFormedConcat([x.value], rest);
    }
  }

  /** The state after the header lines among the first `i` lines, starting from `st`. */
  function StateAt(lines: seq<string>, st: ScanState, i: nat): ScanState
    requires i <= |lines|
  {
    if i == 0 then st
    else
      var before := StateAt(lines, st, i - 1);
      if IsHeaderLine(lines[i - 1]) then HeaderStep(before, Trim(lines[i - 1])) else before
  }

  /** `f` of each line and the state the header lines before it leave. */
  function Along<T>(lines: seq<string>, st: ScanState, f: (ScanState, string) -> T): (r: seq<T>)
    ensures |r| == |lines|
  {
    seq(|lines|, i requires 0 <= i < |lines| => f(StateAt(lines, st, i), lines[i]))
  }

  /** What each line yields under the state the header lines before it leave. */
  function Emissions(lines: seq<string>, st: ScanState, defaultRepo: string): (r: seq<Option<Item>>)
    ensures |r| == |lines|
  {
    Along(lines, st, (s, l) => Emit(s, l, defaultRepo))
  }

  /** The values of the present entries, in order. */
  function Values<T>(xs: seq<Option<T>>): seq<T> {
    if xs == [] then [] else (if xs[0].Some? then [xs[0].value] else []) + Values(xs[1..])
  }

  /** Starting one line later from the state the first line leaves is the same as not skipping it. */
  lemma {:induction false} StateAtShift(lines: seq<string>, st: ScanState, i: nat)
    requires i < |lines|
    ensures StateAt(lines[1..], StateAt(lines, st, 1), i) == StateAt(lines, st, i + 1)
  {
    if i > 0 {
      StateAtShift(lines, st, i - 1);
      assert lines[1..][i - 1] == lines[i];
    }
  }

  /** Along a non-empty run of lines: the first line's value, then the rest's from the state it leaves. */
  lemma AlongCons<T>(lines: seq<string>, st: ScanState, f: (ScanState, string) -> T)
    requires lines != []
    ensures Along(lines, st, f) == [f(st, lines[0])] + Along(lines[1..], StateAt(lines, st, 1), f)
  {
    var e := Along(lines, st, f);
    var e' := Along(lines[1..], StateAt(lines, st, 1), f);
    forall i | 0 <= i < |e'|
      ensures e'[i] == e[i + 1]
    {
      AlongShift(lines, st, f, i);
    }
    assert e[0] == f(StateAt(lines, st, 0), lines[0]);
  }

  /** Entry `i` of what follows the first line is entry `i + 1` of the whole. */
  lemma AlongShift<T>(lines: seq<string>, st: ScanState, f: (ScanState, string) -> T, i: nat)
    requires i + 1 < |lines|
    ensures Along(lines[1..], StateAt(lines, st, 1), f)[i] == Along(lines, st, f)[i + 1]
  {
    var a := StateAt(lines[1..], StateAt(lines, st, 1), i);
    var b := StateAt(lines, st, i + 1);
    StateAtShift(lines, st, i);
    assert Along(lines[1..], StateAt(lines, st, 1), f)[i] == f(a, lines[1..][i]);
    assert Along(lines, st, f)[i + 1] == f(b, lines[i + 1]);
  }

  /** The emissions of a non-empty run of lines: the first line's, then the rest's from the state it leaves. */
  lemma EmissionsCons(lines: seq<string>, st: ScanState, defaultRepo: string)
    requires lines != []
    ensures Emissions(lines, st, defaultRepo)
      == [Emit(st, lines[0], defaultRepo)] + Emissions(lines[1..], StateAt(lines, st, 1), defaultRepo)
  {
    AlongCons(lines, st, (s, l) => Emit(s, l, defaultRepo));
  }

  lemma ValuesCons<T>(x: Option<T>, xs: seq<Option<T>>)
    ensures Values([x] + xs) == (if x.Some? then [x.value] else []) + Values(xs)
  {
    assert ([x] + xs)[1..] == xs;
  }

  /** One line of the scan: the item of the first line, then the rest scanned from the state it leaves. */
  lemma ParseLinesCons(lines: seq<string>, st: ScanState, defaultRepo: string)
    requires lines != []
    ensures ParseLines(lines, st, defaultRepo)
      == (if Emit(st, lines[0], defaultRepo).Some? then [Emit(st, lines[0], defaultRepo).value] else [])
         + ParseLines(lines[1..], StateAt(lines, st, 1), defaultRepo)
  {
    var next := Step(st, lines[0], defaultRepo);
    assert next.0 == StateAt(lines, st, 1);
  }

  /**
   * The scan emits, in line order, exactly the items of the list lines that
   * yield one under the state the header lines before them leave.
   */
  lemma {:induction false} ParseLinesEmits(lines: seq<string>, st: ScanState, defaultRepo: string)
    ensures ParseLines(lines, st, defaultRepo) == Values(Emissions(lines, st, defaultRepo))
    decreases |lines|
  {
    if lines != [] {
      ParseLinesCons(lines, st, defaultRepo);
      ParseLinesEmits(lines[1..], StateAt(lines, st, 1), defaultRepo);
      EmissionsCons(lines, st, defaultRepo);
      ValuesCons(Emit(st, lines[0], defaultRepo), Emissions(lines[1..], StateAt(lines, st, 1), defaultRepo));
    }
  }

  /** `parse_release_notes(content, repo)` */
  function ParseReleaseNotes(content: string, repo: string): (items: seq<Item>)
    ensures forall i :: 0 <= i < |items| ==> WellFormedItem(items[i])
  {
    ParseLinesWellFormed(Split(content, '\n'), InitialState, DefaultRepository(repo));
    ParseLines(Split(content, '\n'), InitialState, DefaultRepository(repo))
  }

  /**
   * `parse_release_notes` returns, in line order, the item of every list line
   * that yields one under the category and component the headers above it set.
   */
  lemma ParseReleaseNotesEmits(content: string, repo: string)
    ensures ParseReleaseNotes(content, repo)
      == Values(Emissions(Split(content, '\n'), InitialState, DefaultRepository(repo)))
  {
    ParseLinesEmits(Split(content, '\n'), InitialState, DefaultRepository(repo));
  }

  /**
   * Lines before the first header that names a category contribute nothing:
   * the category is still unset there, and a header without a category
   * leaves the state as it was.
   */
  lemma {:induction false} LinesBeforeHeaderIgnored(pre: seq<string>, rest: seq<string>, defaultRepo: string)
    requires forall i :: 0 <= i < |pre| ==>
      !IsHeaderLine(pre[i]) || HeaderCategory(HeaderText(Trim(pre[i]))).None?
    ensures ParseLines(pre + rest, InitialState, defaultRepo) == ParseLines(rest, InitialState, defaultRepo)
  {
    if pre != [] {
      assert Step(InitialState, pre[0], defaultRepo).0 == InitialState;
      assert (pre + rest)[0] == pre[0];
      assert (pre + rest)[1..] == pre[1..] + rest;
      LinesBeforeHeaderIgnored(pre[1..], rest, defaultRepo);
    } else {
      assert pre + rest == rest;
    }
  }

  /** A document without header lines yields no items. */
  lemma NoHeaderNoItems(content: string, repo: string)
    requires forall i :: 0 <= i < |Split(content, '\n')| ==> !IsHeaderLine(Split(content, '\n')[i])
    ensures ParseReleaseNotes(content, repo) == []
  {
    var lines := Split(content, '\n');
    LinesBeforeHeaderIgnored(lines, [], DefaultRepository(repo));
    assert lines + [] == lines;
  }

  // ---------------------------------------------------------------------------
  // The summary tally
  // ---------------------------------------------------------------------------

  datatype Summary = Summary(total: nat, breaking: nat, feature: nat, enhancement: nat, bugfix: nat, deprecation: nat)

  function CountOf(items: seq<Item>, c: Category): nat {
    |Filter(items, (it: Item) => it.category == c)|
  }

  /** `summary[cat] += 1` for one item. */
  function Bump(s: Summary, c: Category): Summary {
    match c
    case Breaking => s.(breaking := s.breaking + 1)
    case Feature => s.(feature := s.feature + 1)
    case Enhancement => s.(enhancement := s.enhancement + 1)
    case Bugfix => s.(bugfix := s.bugfix + 1)
    case Deprecation => s.(deprecation := s.deprecation + 1)
  }

  function CountFrom(items: seq<Item>, s: Summary): Summary
    decreases |items|
  {
    if items == [] then s else CountFrom(items[1..], Bump(s, items[0].category))
  }

  /** The summary of `fetch_release_notes`: the total and one count per category. */
  function Tally(items: seq<Item>): Summary {
    CountFrom(items, Summary(|items|, 0, 0, 0, 0, 0))
  }

  function CategorySum(s: Summary): nat {
    s.breaking + s.feature + s.enhancement + s.bugfix + s.deprecation
  }

  lemma CountOfCons(items: seq<Item>, c: Category)
    requires items != []
    ensures CountOf(items, c) == (if items[0].category == c then 1 else 0) + CountOf(items[1..], c)
  {
  }

  lemma {:induction false} CountFromCounts(items: seq<Item>, s: Summary)
    ensures CountFrom(items, s).total == s.total
    ensures CategorySum(CountFrom(items, s)) == CategorySum(s) + |items|
    ensures CountFrom(items, s).breaking == s.breaking + CountOf(items, Breaking)
    ensures CountFrom(items, s).feature == s.feature + CountOf(items, Feature)
    ensures CountFrom(items, s).enhancement == s.enhancement + CountOf(items, Enhancement)
    ensures CountFrom(items, s).bugfix == s.bugfix + CountOf(items, Bugfix)
    ensures CountFrom(items, s).deprecation == s.deprecation + CountOf(items, Deprecation)
    decreases |items|
  {
    if items != [] {
      CountFromCounts(items[1..], Bump(s, items[0].category));
      CountOfCons(items, Breaking);
      CountOfCons(items, Feature);
      CountOfCons(items, Enhancement);
      CountOfCons(items, Bugfix);
      CountOfCons(items, Deprecation);
    }
  }

  /** The tally counts each category, and the five counts add up to the total. */
  lemma TallyCounts(items: seq<Item>)
    ensures Tally(items).total == |items|
    ensures CategorySum(Tally(items)) == Tally(items).total
    ensures Tally(items).breaking == CountOf(items, Breaking)
    ensures Tally(items).feature == CountOf(items, Feature)
    ensures Tally(items).enhancement == CountOf(items, Enhancement)
    ensures Tally(items).bugfix == CountOf(items, Bugfix)
    ensures Tally(items).deprecation == CountOf(items, Deprecation)
  {
    CountFromCounts(items, Summary(|items|, 0, 0, 0, 0, 0));
  }

  // ---------------------------------------------------------------------------
  // All documents of a release
  // ---------------------------------------------------------------------------

  /** The changelog documents of a version, as (repository, path). */
  function Sources(version: string): seq<(string, string)> {
    [
      ("opensearch-build", "release-notes/opensearch-release-notes-" + version + ".md"),
      ("OpenSearch", "release-notes/opensearch.release-notes-" + version + ".md"),
      ("OpenSearch-Dashboards", "release-notes/opensearch-dashboards.release-notes-" + version + ".md")
    ]
  }

  datatype ReleaseData = ReleaseData(version: string, sources: seq<string>, summary: Summary, items: seq<Item>)

  lemma WellFormedConcat(a: seq<Item>, b: seq<Item>)
    requires forall i :: 0 <= i < |a| ==> WellFormedItem(a[i])
    requires forall i :: 0 <= i < |b| ==> WellFormedItem(b[i])
    ensures forall i :: 0 <= i < |a + b| ==> WellFormedItem((a + b)[i])
  {
  }

  /** Whether the document of a source could be fetched. */
  predicate Available(src: (string, string), fetch: (string, string) -> Option<string>) {
    fetch(src.0, src.1).Some?
  }

  /** The path recorded for a fetched source. */
  function SourcePath(src: (string, string)): string { src.0 + "/" + src.1 }

  /** What one source contributes: its path and parsed items when its document could be fetched. */
  function Contribution(src: (string, string), fetch: (string, string) -> Option<string>): (r: (seq<string>, seq<Item>))
    ensures Available(src, fetch) ==> r == ([SourcePath(src)], ParseReleaseNotes(fetch(src.0, src.1).value, src.0))
    ensures !Available(src, fetch) ==> r == ([], [])
    ensures forall i :: 0 <= i < |r.1| ==> WellFormedItem(r.1[i])
  {
    var content := fetch(src.0, src.1);
    if content.None? then ([], [])
    else ([SourcePath(src)], ParseReleaseNotes(content.value, src.0))
  }

  /**
   * Items of the documents that could be fetched, in source order; unavailable
   * ones are skipped. When every document is available, one path is recorded
   * per source, in order; when none is, nothing is collected.
   */
  function CollectFrom(srcs: seq<(string, string)>, fetch: (string, string) -> Option<string>): (r: (seq<string>, seq<Item>))
    ensures |r.0| <= |srcs|
    ensures forall i :: 0 <= i < |r.1| ==> WellFormedItem(r.1[i])
    ensures (forall i :: 0 <= i < |srcs| ==> Available(srcs[i], fetch)) ==>
      |r.0| == |srcs| && forall i :: 0 <= i < |srcs| ==> r.0[i] == SourcePath(srcs[i])
    ensures (forall i :: 0 <= i < |srcs| ==> !Available(srcs[i], fetch)) ==> r == ([], [])
  {
    if srcs == [] then ([], [])
    else
      var c := Contribution(srcs[0], fetch);
      var rest := CollectFrom(srcs[1..], fetch);
      CollectCons(srcs, fetch, c, rest);
      (c.0 + rest.0, c.1 + rest.1)
  }

  /** The first source's contribution ahead of what the others collect keeps what `CollectFrom` promises. */
  lemma CollectCons(srcs: seq<(string, string)>, fetch: (string, string) -> Option<string>, c: (seq<string>, seq<Item>), rest: (seq<string>, seq<Item>))
    requires srcs != [] && c == Contribution(srcs[0], fetch)
    requires |rest.0| <= |srcs| - 1
    requires forall i :: 0 <= i < |rest.1| ==> WellFormedItem(rest.1[i])
    requires (forall i :: 1 <= i < |srcs| ==> Available(srcs[i], fetch)) ==>
      |rest.0| == |srcs| - 1 && forall i :: 1 <= i < |srcs| ==> rest.0[i - 1] == SourcePath(srcs[i])
    requires (forall i :: 1 <= i < |srcs| ==> !Available(srcs[i], fetch)) ==> rest == ([], [])
    ensures |c.0 + rest.0| <= |srcs|
    ensures forall i :: 0 <= i < |c.1 + rest.1| ==> WellFormedItem((c.1 + rest.1)[i])
    ensures (forall i :: 0 <= i < |srcs| ==> Available(srcs[i], fetch)) ==>
      |c.0 + rest.0| == |srcs| && forall i :: 0 <= i < |srcs| ==> (c.0 + rest.0)[i] == SourcePath(srcs[i])
    ensures (forall i :: 0 <= i < |srcs| ==> !Available(srcs[i], fetch)) ==> (c.0 + rest.0, c.1 + rest.1) == ([], [])
  {
    WellFormedConcat(c.1, rest.1);
  }

  /** A single source contributes exactly its own path and items. */
  lemma CollectOne(src: (string, string), fetch: (string, string) -> Option<string>)
    ensures CollectFrom([src], fetch) ==
      if Available(src, fetch) then ([SourcePath(src)], ParseReleaseNotes(fetch(src.0, src.1).value, src.0)) else ([], [])
  {
    var c := Contribution(src, fetch);
    assert [src][1..] == [];
    assert CollectFrom([src], fetch) == (c.0 + [], c.1 + []);
    assert c.0 + [] == c.0 && c.1 + [] == c.1;
  }

  /** Pairwise concatenation is associative. */
  lemma PairAssoc(c: (seq<string>, seq<Item>), x: (seq<string>, seq<Item>), y: (seq<string>, seq<Item>))
    ensures (c.0 + (x.0 + y.0), c.1 + (x.1 + y.1)) == ((c.0 + x.0) + y.0, (c.1 + x.1) + y.1)
  {
    AppendAssoc(c.0, x.0, y.0);
    AppendAssoc(c.1, x.1, y.1);
  }

  /** Collecting from two runs of sources is collecting from each, the first run's paths and items first. */
  lemma {:induction false} CollectConcat(a: seq<(string, string)>, b: seq<(string, string)>, fetch: (string, string) -> Option<string>)
    ensures CollectFrom(a + b, fetch) == (CollectFrom(a, fetch).0 + CollectFrom(b, fetch).0, CollectFrom(a, fetch).1 + CollectFrom(b, fetch).1)
    decreases |a|
  {
    if a == [] {
      assert a + b == b;
      var y := CollectFrom(b, fetch);
      assert CollectFrom(a, fetch) == ([], []);
      assert [] + y.0 == y.0 && [] + y.1 == y.1;
    } else {
      TailOfConcat(a, b);
      CollectConcat(a[1..], b, fetch);
      var c, x, y := Contribution(a[0], fetch), CollectFrom(a[1..], fetch), CollectFrom(b, fetch);
      var xy := CollectFrom(a[1..] + b, fetch);
      assert CollectFrom(a + b, fetch) == (c.0 + xy.0, c.1 + xy.1);
      assert CollectFrom(a, fetch) == (c.0 + x.0, c.1 + x.1);
      PairAssoc(c, x, y);
    }
  }

  /** `fetch_release_notes` with the GitHub fetch as a parameter and without the timestamp. */
  function FetchReleaseNotes(version: string, fetch: (string, string) -> Option<string>): (d: ReleaseData)
    ensures d.summary.total == |d.items|
    ensures CategorySum(d.summary) == d.summary.total
    ensures |d.sources| <= 3
    ensures forall i :: 0 <= i < |d.items| ==> WellFormedItem(d.items[i])
    ensures d.version == version
    ensures d.summary.breaking == CountOf(d.items, Breaking)
    ensures d.summary.feature == CountOf(d.items, Feature)
    ensures d.summary.enhancement == CountOf(d.items, Enhancement)
    ensures d.summary.bugfix == CountOf(d.items, Bugfix)
    ensures d.summary.deprecation == CountOf(d.items, Deprecation)
    ensures (d.sources, d.items) == CollectFrom(Sources(version), fetch)
  {
    var (sources, items) := CollectFrom(Sources(version), fetch);
    TallyCounts(items);
    ReleaseData(version, sources, Tally(items), items)
  }
}

=== FILE: text.dfy ===
/**
 * Text primitives shared by the models: an option type, Python's notion of
 * whitespace, `strip`/`lstrip`/`rstrip`, ASCII case mapping, substring
 * search, `split`/`join` on one separator character, decimal digits,
 * filtering, and sorting of strings by code point.
 */
module Text {

  datatype Option<+T> = None | Some(value: T) {
    /** Python's `d.get(key, default)` once the lookup has been made. */
    function GetOr(default: T): T {
      match this
      case Some(v) => v
      case None => default
    }
  }

  function Min(a: int, b: int): int { if a <= b then a else b }

  lemma AppendAssoc<T>(a: seq<T>, b: seq<T>, c: seq<T>)
    ensures (a + b) + c == a + (b + c)
  {
  }

  /** A slice from `i` to `j` followed by the suffix from `j` is the suffix from `i`. */
  lemma SuffixSplit<T>(s: seq<T>, i: nat, j: nat, x: seq<T>, y: seq<T>)
    requires i <= j <= |s| && x == s[i..j] + y && y == s[j..]
    ensures x == s[i..]
  {
  }

  /** A suffix of a suffix of `s` is a suffix of `s`. */
  lemma SuffixOfSuffix<T>(s: seq<T>, t: seq<T>, u: seq<T>)
    requires |t| <= |s| && t == s[|s| - |t|..]
    requires |u| <= |t| && u == t[|t| - |u|..]
    ensures u == s[|s| - |u|..]
  {
    assert forall i | 0 <= i < |u| :: u[i] == t[|t| - |u| + i] == s[|s| - |u| + i];
  }

  /** A sequence is its part before `i`, its element at `i`, and its part after. */
  lemma Around<T>(s: seq<T>, i: nat)
    requires i < |s|
    ensures s == s[..i] + [s[i]] + s[i + 1..]
  {
  }

  lemma TailOfConcat<T>(a: seq<T>, b: seq<T>)
    requires a != []
    ensures (a + b)[0] == a[0] && (a + b)[1..] == a[1..] + b
  {
  }

  // ---------------------------------------------------------------------------
  // Character classes
  // ---------------------------------------------------------------------------

  /** The characters Python's `str.isspace` accepts, which is also the `\s` class of `re` on str. */
  predicate IsSpace(c: char) {
    || ('\t' <= c <= '\r')
    || ('\U{1c}' <= c <= ' ')
    || c == '\U{85}' || c == '\U{a0}' || c == '\U{1680}'
    || ('\U{2000}' <= c <= '\U{200a}')
    || c == '\U{2028}' || c == '\U{2029}' || c == '\U{202f}' || c == '\U{205f}' || c == '\U{3000}'
  }

  /** The `\d` class, restricted to ASCII digits. */
  predicate IsDigit(c: char) { '0' <= c <= '9' }

  /** The `\w` class, restricted to ASCII letters, digits and underscore. */
  predicate IsWordChar(c: char) { IsDigit(c) || ('a' <= c <= 'z') || ('A' <= c <= 'Z') || c == '_' }

  function LowerChar(c: char): char {
    if 'A' <= c <= 'Z' then (c as int + 32) as char else c
  }

  function UpperChar(c: char): char {
    if 'a' <= c <= 'z' then (c as int - 32) as char else c
  }

  /** `s.lower()` for ASCII letters; other characters are kept. */
  function Lower(s: string): (r: string)
    ensures |r| == |s|
  {
    seq(|s|, i requires 0 <= i < |s| => LowerChar(s[i]))
  }

  /** `s.upper()` for ASCII letters; other characters are kept. */
  function Upper(s: string): (r: string)
    ensures |r| == |s|
  {
    seq(|s|, i requires 0 <= i < |s| => UpperChar(s[i]))
  }

  // ---------------------------------------------------------------------------
  // Stripping
  // ---------------------------------------------------------------------------

  /** `s` without its longest prefix of characters satisfying `drop`. */
  function DropWhile(s: string, drop: char -> bool): (r: string)
    ensures |r| <= |s| && r == s[|s| - |r|..]
    ensures forall i :: 0 <= i < |s| - |r| ==> drop(s[i])
    ensures r != [] ==> !drop(r[0])
  {
    if s != [] && drop(s[0]) then DropWhile(s[1..], drop) else s
  }

  /** `s` without its longest suffix of characters satisfying `drop`. */
  function DropWhileEnd(s: string, drop: char -> bool): (r: string)
    ensures |r| <= |s| && r == s[..|r|]
    ensures forall i :: |r| <= i < |s| ==> drop(s[i])
    ensures r != [] ==> !drop(r[|r| - 1])
  {
    if s != [] && drop(s[|s| - 1]) then DropWhileEnd(s[..|s| - 1], drop) else s
  }

  /** `s.lstrip()` */
  function TrimLeft(s: string): string { DropWhile(s, IsSpace) }

  /** `s.rstrip()` */
  function TrimRight(s: string): string { DropWhileEnd(s, IsSpace) }

  /** `s.strip()` */
  function Trim(s: string): string { TrimRight(TrimLeft(s)) }

  /** A string with no whitespace at either end is its own `strip()`. */
  lemma TrimIdentity(s: string)
    requires s != [] ==> !IsSpace(s[0]) && !IsSpace(s[|s| - 1])
    ensures Trim(s) == s
  {
  }

  /** Dropping from the front removes exactly a droppable prefix followed by a kept character. */
  lemma {:induction false} DropWhilePrefix(pad: string, rest: string, drop: char -> bool)
    requires forall i :: 0 <= i < |pad| ==> drop(pad[i])
    requires rest != [] ==> !drop(rest[0])
    ensures DropWhile(pad + rest, drop) == rest
    decreases |pad|
  {
    if pad == [] {
      assert pad + rest == rest;
    } else {
      assert (pad + rest)[1..] == pad[1..] + rest;
      DropWhilePrefix(pad[1..], rest, drop);
    }
  }

  /** Dropping from the back removes exactly a droppable suffix preceded by a kept character. */
  lemma {:induction false} DropWhileEndSuffix(rest: string, pad: string, drop: char -> bool)
    requires forall i :: 0 <= i < |pad| ==> drop(pad[i])
    requires rest != [] ==> !drop(rest[|rest| - 1])
    ensures DropWhileEnd(rest + pad, drop) == rest
    decreases |pad|
  {
    if pad == [] {
      assert rest + pad == rest;
    } else {
      assert (rest + pad)[..|rest + pad| - 1] == rest + pad[..|pad| - 1];
      DropWhileEndSuffix(rest, pad[..|pad| - 1], drop);
    }
  }

  /** `strip()` around a string whose ends are not whitespace removes exactly the padding. */
  lemma TrimPadded(pad1: string, s: string, pad2: string)
    requires forall i :: 0 <= i < |pad1| ==> IsSpace(pad1[i])
    requires forall i :: 0 <= i < |pad2| ==> IsSpace(pad2[i])
    requires s != [] ==> !IsSpace(s[0]) && !IsSpace(s[|s| - 1])
    ensures Trim(pad1 + s + pad2) == s
  {
    if s == [] {
      var t := pad1 + pad2;
      assert pad1 + s + pad2 == t + [];
      assert forall i :: 0 <= i < |t| ==> IsSpace(t[i]);
      DropWhilePrefix(t, [], IsSpace);
    } else {
      assert pad1 + s + pad2 == pad1 + (s + pad2);
      DropWhilePrefix(pad1, s + pad2, IsSpace);
      DropWhileEndSuffix(s, pad2, IsSpace);
    }
  }

  // ---------------------------------------------------------------------------
  // Prefixes, substrings and searching
  // ---------------------------------------------------------------------------

  predicate StartsWith(s: string, p: string) { |p| <= |s| && s[..|p|] == p }

  predicate EndsWith(s: string, p: string) { |p| <= |s| && s[|s| - |p|..] == p }

  /** Python's `w in s` on strings. */
  predicate Contains(s: string, w: string) {
    exists i | 0 <= i <= |s| - |w| :: StartsWith(s[i..], w)
  }

  /** An occurrence of `w` inside `u` is an occurrence inside any string containing `u`. */
  lemma ContainsTransitive(s: string, u: string, w: string)
    requires Contains(s, u) && Contains(u, w)
    ensures Contains(s, w)
  {
    var i :| 0 <= i <= |s| - |u| && StartsWith(s[i..], u);
    var j :| 0 <= j <= |u| - |w| && StartsWith(u[j..], w);
    forall t | 0 <= t < |w|
      ensures s[i + j..][t] == w[t]
    {
      assert w[t] == u[j..][..|w|][t] == u[j + t];
      assert u[j + t] == s[i..][..|u|][j + t] == s[i + j + t];
    }
    assert s[i + j..][..|w|] == w;
  }

  /**
   * The least index in `[from, to)` satisfying `p`: how a leftmost regular
   * expression search chooses between candidate match positions.
   */
  function FirstWhere(from: nat, to: nat, p: nat -> bool): (r: Option<nat>)
    decreases to - from
    ensures r.Some? ==> from <= r.value < to && p(r.value)
    ensures r.Some? ==> forall i :: from <= i < r.value ==> !p(i)
    ensures r.None? ==> forall i :: from <= i < to ==> !p(i)
  {
    if from >= to then None
    else if p(from) then Some(from)
    else FirstWhere(from + 1, to, p)
  }

  /** Python's `s.find(w, from)`, with `None` for -1. */
  function FindFrom(s: string, w: string, from: nat): (r: Option<nat>)
    decreases |s| - from
    ensures r.Some? ==> from <= r.value && r.value + |w| <= |s| && StartsWith(s[r.value..], w)
    ensures r.Some? ==> forall i :: from <= i < r.value ==> !StartsWith(s[i..], w)
    ensures r.None? ==> forall i :: from <= i <= |s| - |w| ==> !StartsWith(s[i..], w)
  {
    if from + |w| > |s| then None
    else if StartsWith(s[from..], w) then Some(from)
    else FindFrom(s, w, from + 1)
  }

  // ---------------------------------------------------------------------------
  // split / join on one character
  // ---------------------------------------------------------------------------

  /** The first position of `c` in `s`. */
  function IndexOf(s: string, c: char): (r: Option<nat>)
    ensures r.Some? ==> r.value < |s| && s[r.value] == c && c !in s[..r.value]
    ensures r.None? ==> c !in s
  {
    if s == [] then None
    else if s[0] == c then Some(0)
    else
      match IndexOf(s[1..], c)
      case None => None
      case Some(i) =>
        assert s[..i + 1] == [s[0]] + s[1..][..i];
        Some(i + 1)
  }

  /** Python's `s.split(sep)` for a one-character separator; never empty. */
  function Split(s: string, sep: char): (r: seq<string>)
    decreases |s|
    ensures |r| >= 1
    ensures forall i :: 0 <= i < |r| ==> sep !in r[i]
  {
    match IndexOf(s, sep)
    case None => [s]
    case Some(i) => [s[..i]] + Split(s[i + 1..], sep)
  }

  /** Python's `sep.join(parts)` for a one-character separator. */
  function Join(parts: seq<string>, sep: char): string
  {
    if |parts| == 0 then ""
    else if |parts| == 1 then parts[0]
    else parts[0] + [sep] + Join(parts[1..], sep)
  }

  lemma {:induction false} JoinSplit(s: string, sep: char)
    ensures Join(Split(s, sep), sep) == s
    decreases |s|
  {
    var r := IndexOf(s, sep);
    if r.Some? {
      var i := r.value;
      var rest := s[i + 1..];
      JoinSplit(rest, sep);
      assert Split(s, sep) == [s[..i]] + Split(rest, sep);
      assert s == s[..i] + [sep] + rest;
    }
  }

  /** The first separator is found right after a left part that does not contain it. */
  lemma {:induction false} IndexOfAfter(a: string, c: char, b: string)
    requires c !in a
    ensures IndexOf(a + [c] + b, c) == Some(|a|)
  {
    if a != [] {
      IndexOfAfter(a[1..], c, b);
      assert (a + [c] + b)[1..] == a[1..] + [c] + b;
    }
  }

  /** Splitting at a separator the left part does not contain. */
  lemma SplitCons(a: string, sep: char, b: string)
    requires sep !in a
    ensures Split(a + [sep] + b, sep) == [a] + Split(b, sep)
  {
    var s := a + [sep] + b;
    IndexOfAfter(a, sep, b);
    assert s[..|a|] == a;
    assert s[|a| + 1..] == b;
  }

  lemma {:induction false} SplitJoin(parts: seq<string>, sep: char)
    requires |parts| >= 1
    requires forall i :: 0 <= i < |parts| ==> sep !in parts[i]
    ensures Split(Join(parts, sep), sep) == parts
    decreases |parts|
  {
    if |parts| == 1 {
      assert IndexOf(parts[0], sep).None?;
    } else {
      SplitJoin(parts[1..], sep);
      SplitCons(parts[0], sep, Join(parts[1..], sep));
      assert parts == [parts[0]] + parts[1..];
    }
  }

  /** Lines of a concatenation around a separator are the lines of each side. */
  lemma {:induction false} SplitConcat(a: string, sep: char, b: string)
    ensures Split(a + [sep] + b, sep) == Split(a, sep) + Split(b, sep)
    decreases |a|
  {
    var r := IndexOf(a, sep);
    if r.None? {
      SplitCons(a, sep, b);
    } else {
      var i := r.value;
      var head, tail := a[..i], a[i + 1..];
      Around(a, i);
      SplitCons(head, sep, tail);
      AppendAssoc(head + [sep], tail, [sep] + b);
      AppendAssoc(a, [sep], b);
      AppendAssoc(tail, [sep], b);
      SplitCons(head, sep, tail + [sep] + b);
      SplitConcat(tail, sep, b);
      AppendAssoc([head], Split(tail, sep), Split(b, sep));
    }
  }

  /** A string without the separator is one part. */
  lemma SplitNoSep(s: string, sep: char)
    requires sep !in s
    ensures Split(s, sep) == [s]
  {
  }

  /** Appending a non-separator character extends the last part only. */
  lemma {:induction false} SplitSnoc(s: string, c: char, sep: char)
    requires c != sep
    ensures var parts := Split(s, sep);
      Split(s + [c], sep) == parts[..|parts| - 1] + [parts[|parts| - 1] + [c]]
    decreases |s|
  {
    var r := IndexOf(s, sep);
    if r.None? {
      assert sep !in s + [c];
      SplitNoSep(s + [c], sep);
    } else {
      var i := r.value;
      var head, tail := s[..i], s[i + 1..];
      Around(s, i);
      SplitCons(head, sep, tail);
      AppendAssoc(head + [sep], tail, [c]);
      SplitCons(head, sep, tail + [c]);
      SplitSnoc(tail, c, sep);
      var parts := Split(tail, sep);
      ConsInit(head, parts);
      AppendAssoc([head], parts[..|parts| - 1], [parts[|parts| - 1] + [c]]);
    }
  }

  /** The front and the last element of a sequence with one more element put in front. */
  lemma ConsInit<T>(h: T, p: seq<T>)
    requires p != []
    ensures ([h] + p)[..|p|] == [h] + p[..|p| - 1] && ([h] + p)[|p|] == p[|p| - 1]
  {
  }

  /** A join starts with its first part. */
  lemma JoinHead(parts: seq<string>, sep: char)
    requires parts != []
    ensures StartsWith(Join(parts, sep), parts[0])
  {
    if |parts| >= 2 {
      assert Join(parts, sep)[..|parts[0]|] == parts[0];
    }
  }

  lemma {:induction false} JoinConcat(xs: seq<string>, ys: seq<string>, sep: char)
    requires |xs| >= 1 && |ys| >= 1
    ensures Join(xs + ys, sep) == Join(xs, sep) + [sep] + Join(ys, sep)
    decreases |xs|
  {
    if |xs| == 1 {
      assert (xs + ys)[1..] == ys;
    } else {
      JoinConcat(xs[1..], ys, sep);
      assert (xs + ys)[1..] == xs[1..] + ys;
    }
  }

  // ---------------------------------------------------------------------------
  // Runs of characters and decimal digits
  // ---------------------------------------------------------------------------

  /** The length of the run of `keep` characters starting at `p`. */
  function Run(s: string, p: nat, keep: char -> bool): (n: nat)
    requires p <= |s|
    ensures p + n <= |s|
    decreases |s| - p
  {
    if p < |s| && keep(s[p]) then 1 + Run(s, p + 1, keep) else 0
  }

  /** A run is maximal: every character in it is kept, and the one after it is not. */
  lemma {:induction false} RunSpan(s: string, p: nat, keep: char -> bool)
    requires p <= |s|
    ensures forall i | p <= i < p + Run(s, p, keep) :: keep(s[i])
    ensures p + Run(s, p, keep) < |s| ==> !keep(s[p + Run(s, p, keep)])
    decreases |s| - p
  {
    if p < |s| && keep(s[p]) {
      RunSpan(s, p + 1, keep);
    }
  }

  /** A run that stops where `keep` first fails has exactly that length. */
  lemma {:induction false} RunExact(s: string, p: nat, n: nat, keep: char -> bool)
    requires p + n <= |s|
    requires forall i | p <= i < p + n :: keep(s[i])
    requires p + n < |s| ==> !keep(s[p + n])
    ensures Run(s, p, keep) == n
    decreases n
  {
    if n > 0 {
      RunExact(s, p + 1, n - 1, keep);
    }
  }

  /** Length of the run of digits at the front of `s` (what a greedy `\d+` takes). */
  function DigitRun(s: string): (n: nat)
    ensures n <= |s|
    ensures forall i :: 0 <= i < n ==> IsDigit(s[i])
    ensures n < |s| ==> !IsDigit(s[n])
  {
    RunSpan(s, 0, IsDigit);
    Run(s, 0, IsDigit)
  }

  predicate AllDigits(s: string) { forall i :: 0 <= i < |s| ==> IsDigit(s[i]) }

  /** Python's `int(s)` on a string of ASCII digits. */
  function DigitsValue(s: string): nat
    requires AllDigits(s)
  {
    if s == [] then 0 else DigitsValue(s[..|s| - 1]) * 10 + (s[|s| - 1] as int - '0' as int)
  }

  /** The value of the digit run starting at `p`, as `int(match.group(1))` for a `(\d+)` group there. */
  function NumberAt(s: string, p: nat): nat
    requires p <= |s|
  {
    RunSpan(s, p, IsDigit);
    assert AllDigits(s[p..p + Run(s, p, IsDigit)]);
    DigitsValue(s[p..p + Run(s, p, IsDigit)])
  }

  /** Python's `str(n)` for a natural number. */
  function NatToString(n: nat): (r: string)
    ensures r != [] && AllDigits(r)
  {
    var d := [('0' as int + n % 10) as char];
    if n < 10 then d else NatToString(n / 10) + d
  }

  /** `int(str(n)) == n` */
  lemma {:induction false} NatToStringValue(n: nat)
    ensures DigitsValue(NatToString(n)) == n
  {
    if n >= 10 {
      NatToStringValue(n / 10);
      var r := NatToString(n);
      assert r[..|r| - 1] == NatToString(n / 10);
    }
  }

  // ---------------------------------------------------------------------------
  // Filtering
  // ---------------------------------------------------------------------------

  /** Python's `[x for x in s if p(x)]`. */
  function Filter<T>(s: seq<T>, p: T -> bool): (r: seq<T>)
    ensures |r| <= |s|
    ensures forall x :: x in r ==> x in s && p(x)
    ensures forall x :: x in s && p(x) ==> x in r
  {
    if s == [] then []
    else if p(s[0]) then [s[0]] + Filter(s[1..], p)
    else Filter(s[1..], p)
  }

  lemma {:induction false} FilterConcat<T>(a: seq<T>, b: seq<T>, p: T -> bool)
    ensures Filter(a + b, p) == Filter(a, p) + Filter(b, p)
  {
    if a == [] {
      assert a + b == b;
    } else {
      FilterConcat(a[1..], b, p);
      TailOfConcat(a, b);
      AppendAssoc([a[0]], Filter(a[1..], p), Filter(b, p));
    }
  }

  /** Filtering keeps nothing when no element passes. */
  lemma {:induction false} FilterNone<T>(s: seq<T>, p: T -> bool)
    requires forall i :: 0 <= i < |s| ==> !p(s[i])
    ensures Filter(s, p) == []
  {
    if s != [] {
      FilterNone(s[1..], p);
    }
  }

  /** How many times each value occurs after filtering. */
  lemma {:induction false} FilterMultiset<T>(s: seq<T>, p: T -> bool, x: T)
    ensures multiset(Filter(s, p))[x] == if p(x) then multiset(s)[x] else 0
  {
    if s != [] {
      FilterMultiset(s[1..], p, x);
      assert s == [s[0]] + s[1..];
    }
  }

  /** Filtering twice with the same predicate changes nothing. */
  lemma {:induction false} FilterIdempotent<T>(s: seq<T>, p: T -> bool)
    ensures Filter(Filter(s, p), p) == Filter(s, p)
  {
    if s != [] {
      FilterIdempotent(s[1..], p);
    }
  }

  // ---------------------------------------------------------------------------
  // Sorting strings by code point (Python's `sorted` on str)
  // ---------------------------------------------------------------------------

  predicate LexLe(a: string, b: string)
    decreases |a|
  {
    a == [] || (b != [] && (a[0] < b[0] || (a[0] == b[0] && LexLe(a[1..], b[1..]))))
  }

  lemma {:induction false} LexLeTotal(a: string, b: string)
    ensures LexLe(a, b) || LexLe(b, a)
    decreases |a|
  {
    if a != [] && b != [] && a[0] == b[0] {
      LexLeTotal(a[1..], b[1..]);
    }
  }

  predicate SortedStrings(s: seq<string>) {
    forall i :: 0 <= i < |s| - 1 ==> LexLe(s[i], s[i + 1])
  }

  function Insert(x: string, s: seq<string>): (r: seq<string>)
    requires SortedStrings(s)
    ensures SortedStrings(r)
    ensures multiset(r) == multiset(s) + multiset{x}
    ensures r != [] && (r[0] == x || (s != [] && r[0] == s[0]))
  {
    if s == [] then [x]
    else if LexLe(x, s[0]) then [x] + s
    else
      LexLeTotal(x, s[0]);
      var t := Insert(x, s[1..]);
      assert s == [s[0]] + s[1..];
      [s[0]] + t
  }

  /** Python's `sorted(s)` on strings: ordered, and a permutation of its input. */
  function Sort(s: seq<string>): (r: seq<string>)
    ensures SortedStrings(r)
    ensures multiset(r) == multiset(s)
  {
    if s == [] then []
    else
      assert s == [s[0]] + s[1..];
      Insert(s[0], Sort(s[1..]))
  }
}
